=== FILE: README.md ===
# Time-tracking core, modelled in Dafny

The system is a time-tracking application for an accounting office. An
employee works through a chat page:

- they start, pause, resume and finish time bookings ("apontamentos") on client tasks;
- they record bookings after the fact;
- they talk to an assistant behind a webhook.

Administrators maintain users and tasks. Managers read an hours report grouped
by task group, client and employee. A daily job reminds every employee of the
bookings still open at five o'clock. Three spreadsheet importers load clients,
employees and employee tasks into the database.

The Dafny project models the logic of these parts as pure functions over
immutable data. Database tables become sequences of records. Requests and
replies become datatypes. Hashing is a function parameter.

| module | file | models |
|---|---|---|
| `Wrappers` | wrappers.dfy | `Option` and `Result` |
| `Text` | text.dfy | digits, `strip`, ASCII lowering, `zfill`, number/text conversion, code-point order and sorting |
| `Seqs` | seqs.dfy | order-preserving filtering, subsequences, `drop_duplicates(keep='first')` |
| `TaskLedger` | task_ledger.dfy | the chat page's list of active bookings: start, pause, resume, finish, the running timer |
| `ChatFormat` | chat_format.dfy | the duration clock, the CNPJ/CPF mask, HTML escaping, the backdated-booking checks |
| `Report` | report.dfy | the hours report: columns, rows, totals, order, the hours format |
| `ImportTasks` | import_tasks.dfy | the employee-task importer: CNPJ/CPF and text normalisation, `dropna`, the foreign-key gate |
| `ImportClients` | import_clients.dfy | the client importer: CNPJ/CPF cleaning, group conversion, sort and de-duplication |
| `ImportEmployees` | import_employees.dfy | the employee importer: level and active-flag normalisation, password hashing, the two de-duplications |
| `Admin` | admin.dfy | the admin site: the login gate, the task-list query, task and user edits, task deletion |
| `ChatRelay` | chat_relay.dfy | the chat server: reply extraction from the webhook answer, registration, login, logout |
| `Alerts` | alerts.dfy | the five o'clock job: grouping the open bookings by user and building each notification |

Booking ids, times and hours are unbounded `int` and `real`. Every number
the source handles fits in them without wrap-around.

## Model

| member | source | states |
|---|---|---|
| TaskLedger.FindIndex | static/js/chat.js:491-495 | the index found holds the id and no earlier task does; `None` exactly when no task has the id |
| TaskLedger.NewTask | static/js/chat.js:384-393 | a new booking is running, has no pause time and no open pause, and carries the server's id and start time |
| TaskLedger.Start | static/js/chat.js:355-426 | without a client, a task or an accepted reply the list is unchanged; otherwise exactly one running booking with the reply's id and start time is appended and the earlier ones stay as they were |
| TaskLedger.PauseTask | static/js/chat.js:491-495 | pausing records the pause start and the paused status and changes nothing else |
| TaskLedger.ResumeTask | static/js/chat.js:547-552 | resuming adds the length of the open pause to the paused total, clears the pause and marks the task running; nothing else changes; with no open pause JavaScript reads `null` as 0, so `now` itself is added |
| TaskLedger.Pause | static/js/chat.js:474-521 | the list keeps its length; only an accepted reply for a listed id changes the first task with that id: it is paused at `now` and every other field, its id, client, task, CNPJ, start and paused total included, is kept |
| TaskLedger.Resume | static/js/chat.js:526-573 | the list keeps its length; only an accepted reply for a listed id changes the first task with that id: it runs again with the open pause's length added to its paused total (`now` itself when none is open), and every other field, its id, client, task, CNPJ and start included, is kept |
| TaskLedger.RemoveId | static/js/chat.js:633 | the filter drops every task with the id, keeps every other task, and keeps their order |
| TaskLedger.Finish | static/js/chat.js:578-654 | an unknown id or an unreachable server leaves the list alone; a finished booking or a confirmed removal after a refusal removes the id; a declined removal keeps it |
| TaskLedger.RemoveUniqueId | static/js/chat.js:633 | with distinct ids, removing a task's id removes exactly that position |
| TaskLedger.FinishRemovesExactlyOne | static/js/chat.js:595-633 | finishing a listed booking shortens the list by one and leaves the others in order |
| TaskLedger.ReplayAccounting | static/js/chat.js:474-573 | after any sequence of closed pauses the paused total is the sum of their lengths, no pause is open, and the id and start time are unchanged |
| TaskLedger.PausedTotalNeverDecreases | static/js/chat.js:547-552 | on a monotone clock the paused total never decreases and ends at the closed-pause sum |
| TaskLedger.ClosedPauseNonNegative | static/js/chat.js:547-552 | closed pauses add a non-negative amount of paused time |
| TaskLedger.ElapsedAsWritten | static/js/chat.js:441-449 | the timer as written: with a pause open it shows the pause start minus the start time whatever the earlier pauses were; while running it shows wall time minus the paused total |
| TaskLedger.Elapsed | static/js/chat.js:441-449 | the corrected timer: wall time minus all pauses while running; with a pause open it is frozen at the pause start minus the earlier pauses |
| TaskLedger.ElapsedAgreesWhenRunning | static/js/chat.js:441-449 | with no open pause the corrected timer and the timer as written agree |
| TaskLedger.ElapsedAsWrittenCountsEarlierPauses | static/js/chat.js:445-449 | a concrete paused booking on which the timer as written shows 30 s where 20 s were worked |
| TaskLedger.ElapsedExcludesAllPauses | static/js/chat.js:441-449 | after closed pauses and one open pause the corrected timer shows the time worked before the open pause and does not move while it lasts |
| TaskLedger.ElapsedWhileRunning | static/js/chat.js:441-449 | while running the timer is wall time minus the sum of the closed pauses |
| ChatFormat.JsRem | static/js/chat.js:462-469 | JavaScript `%` truncates: the remainder has the dividend's sign and is smaller than the divisor |
| ChatFormat.FormatDuration | static/js/chat.js:462-469 | the clock text is at least `HH:MM:SS` long and starts with `-` for a negative duration |
| ChatFormat.FormatDurationIsClock | static/js/chat.js:462-469 | for a non-negative duration the text is hours, minutes and seconds, each padded to two digits |
| ChatFormat.ReadClock | static/js/chat.js:462-469 | a clock with minutes and seconds below 60 reads back as its number of seconds |
| ChatFormat.FormatDurationReadsBack | static/js/chat.js:462-469 | reading the clock text back gives the whole seconds of the duration |
| ChatFormat.SplitSeconds | static/js/chat.js:463-466 | the hour, minute and second fields recombine to the seconds and the last two are below 60 |
| ChatFormat.FormatCnpj | static/js/chat.js:212-218 | empty gives empty; 11 digits get the CPF mask; 14 digits get the CNPJ mask; shorter text other than 11 characters is returned as is |
| ChatFormat.FormatCnpjOnlyAddsPunctuation | static/js/chat.js:212-218 | formatting only inserts `.`, `/` and `-`: removing them gives back the input with those removed, and gives back the digits for 11 or 14 digits |
| ChatFormat.FindDigitRun | static/js/chat.js:214-217 | the first position holding the required run of digits, and none when no such run exists |
| ChatFormat.ReplaceChainIsPerCharacter | static/js/chat.js:69-74 | the chain of five replacements equals escaping each character on its own, `&` included only once |
| ChatFormat.EscapeEach | static/js/chat.js:69-74 | the escaped text holds no `<`, `>`, `"` or `'` |
| ChatFormat.EscapeHtml | static/js/chat.js:69-74 | `escapeHtml` escapes every character on its own; its output holds no markup character, and un-escaping it gives back the message |
| ChatFormat.CheckLateEntry | static/js/chat.js:927-950 | a backdated booking is sent exactly when client, task and both times are given, the end is after the start and not in the future; each refusal has its own reason |
| Report.Columns | static/js/relatorios.js:180-192 | the task columns are strictly sorted and distinct, and are exactly the task groups that occur in the data |
| Report.Render | static/js/relatorios.js:161-391 | empty data gives the "no data" table; otherwise the table has the report's columns and one block per group |
| Report.EmployeeCells | static/js/relatorios.js:363-372 | one cell per column, holding the employee's hours for that task group or 0 |
| Report.KeyCells | static/js/relatorios.js:222-318 | one cell per column, holding the task group's hours over every employee below |
| Report.RowTotalsAreCellSums | static/js/relatorios.js:222-318 | every group and client row's total is the sum of its cells |
| Report.GroupRowIsSumOfClients | static/js/relatorios.js:222-318 | a group's total and each of its cells are the sums of its client rows |
| Report.ClientRowIsSumOfEmployees | static/js/relatorios.js:302-382 | with non-negative hours a client's total is the sum of its employee totals |
| Report.EmployeeTotalIsPositiveLeaves | static/js/relatorios.js:374-382 | an employee's total adds only the hours above zero |
| Report.TotalsAgree | static/js/relatorios.js:222-382 | with non-negative hours each group total equals the sum of its client totals and the sum of all its employee totals |
| Report.RowsInKeyOrder | static/js/relatorios.js:209-350 | groups, clients and employees appear in strictly increasing name order, each key of the object once |
| Report.GroupsInKeyOrder | static/js/relatorios.js:209 | the group rows are the sorted group names |
| Report.Round | static/js/relatorios.js:400 | `Math.round` gives the integer within half a unit of its argument, halves going up |
| Report.FormatHours | static/js/relatorios.js:396-403 | a missing or zero amount shows `-`; a negative amount shows a leading `-` |
| Report.FormatHoursIsText | static/js/relatorios.js:396-403 | a positive amount shows as whole hours and rounded minutes, each padded to two digits; the minute field is at most 60 |
| Report.FormatHoursReadsBack | static/js/relatorios.js:396-403 | reading the text back gives the amount in minutes rounded to the nearest minute |
| Report.SixtyMinutes | static/js/relatorios.js:399-402 | 1.999 hours shows as `01:60`, since the minutes are rounded after the hours are floored |
| ImportTasks.NormalizeCnpjCpf | importar_tarefas_colaborador.py:31-72 | the result is 11 or 14 digits; a missing, blank or `-` cell gives nothing |
| ImportTasks.NormalizeCnpjCpfRejects | importar_tarefas_colaborador.py:31-72 | a present cell gives nothing exactly when it has no digits or more than 14 |
| ImportTasks.NormalizeCnpjCpfPadsCpf | importar_tarefas_colaborador.py:31-72 | one to 11 digits are zero-padded on the left to 11 |
| ImportTasks.NormalizeCnpjCpfPadsCnpj | importar_tarefas_colaborador.py:31-72 | 12 to 14 digits are zero-padded on the left to 14 |
| ImportTasks.NormalizeCnpjCpfKeepsNumber | importar_tarefas_colaborador.py:31-72 | the normalised text denotes the same number as the cell's digits |
| ImportTasks.NormalizeCnpjCpfIdempotent | importar_tarefas_colaborador.py:31-72 | normalising a normalised value changes nothing |
| ImportTasks.NormalizeText | importar_tarefas_colaborador.py:86-90 | present exactly when the cell is, and then the stripped text |
| ImportTasks.NormalizeTextIdempotent | importar_tarefas_colaborador.py:86-90 | stripping twice is stripping once |
| ImportTasks.Prepare | importar_tarefas_colaborador.py:160-169 | a row survives `dropna` exactly when its CNPJ/CPF normalises and its group, task and first collaborator are present; its fields are the normalised cells |
| ImportTasks.PrepareAll | importar_tarefas_colaborador.py:160-169 | the kept rows are the surviving rows' normalised forms, one for one and in sheet order |
| ImportTasks.CheckKeys | importar_tarefas_colaborador.py:215-244 | the rows pass exactly when every group and collaborator they name exists; the failure is never a cancellation |
| ImportTasks.Gate | importar_tarefas_colaborador.py:196-244 | a passing import keeps only rows of known clients, in order, keeps all of them, and every key it keeps is valid; it is cancelled exactly when an unknown client exists and the answer is not `s` |
| ImportTasks.GateSucceedsIff | importar_tarefas_colaborador.py:196-244 | the import goes ahead exactly when every client is known or the user agrees, and the remaining rows' keys are all valid |
| ImportTasks.Import | importar_tarefas_colaborador.py:160-244 | from the raw sheet: the import goes ahead exactly when every surviving row's client is known or the user agrees, and the remaining keys are valid; it then inserts exactly the surviving rows whose client is known, in sheet order, all with valid keys |
| ImportTasks.GateKeepsKnown | importar_tarefas_colaborador.py:196-213 | a passing gate keeps exactly the rows whose client is known, in order |
| ImportTasks.ImportAsWritten | importar_tarefas_colaborador.py:160-255 | as written: slicing a missing company name in the listing of the first five removed rows or of the first three rows to insert stops the script; it succeeds exactly when both listings have their names and `Import` succeeds, and then with `Import`'s rows; a gate failure with the removed rows named stops with the gate's reason |
| ImportTasks.NamelessCompanyStopsImport | importar_tarefas_colaborador.py:248-255 | one complete row without a company name, all of whose keys exist: `Import` inserts it, the script as written stops before connecting |
| ImportTasks.NamelessRemovedRowStopsImport | importar_tarefas_colaborador.py:177-189 | one row without a task name or a company name: `Import` inserts nothing and goes ahead, the script as written stops at the listing of removed rows |
| ImportClients.Truncate | importar_clientes.py:31-88 | `int()` truncates toward zero |
| ImportClients.CleanCnpjCpf | importar_clientes.py:31-51 | present exactly when the cell is; at least 11 characters; all digits for a non-negative number |
| ImportClients.CleanCnpjCpfLength | importar_clientes.py:31-51 | numbers below 10^11 give 11 digits, below 10^14 give 14, larger ones are written out unpadded |
| ImportClients.CleanCnpjCpfReadsBack | importar_clientes.py:31-51 | the cleaned text reads back as the truncated number |
| ImportClients.ConvertGroup | importar_clientes.py:75-88 | present exactly when the cell is, and then the truncated number |
| ImportClients.CleanAll | importar_clientes.py:91-95 | every sheet row is cleaned, in order |
| ImportClients.SortRows | importar_clientes.py:106-110 | the rows come out sorted by CNPJ/CPF with the highest group first, and are a permutation of the input |
| ImportClients.Candidates | importar_clientes.py:95 | `dropna(how='all')` keeps, in order, exactly the cleaned rows that have a CNPJ/CPF or a name |
| ImportClients.ImportRows | importar_clientes.py:91-113 | the imported clients have distinct CNPJ/CPF, cover every CNPJ/CPF of the usable rows, and are all usable rows |
| ImportClients.ImportKeepsHighestGroup | importar_clientes.py:106-113 | the row kept for a CNPJ/CPF has a group at least as high as any other row with that CNPJ/CPF |
| ImportEmployees.NormalizeLevel | importar_funcionarios.py:49-65 | the level is always a known level: the folded text when it is one, `funcionario` otherwise |
| ImportEmployees.NormalizeLevelIdempotent | importar_funcionarios.py:49-65 | normalising a normalised level changes nothing, and folding first changes nothing |
| ImportEmployees.NormalizeActive | importar_funcionarios.py:67-77 | a missing cell means active; otherwise active exactly when the folded text is one of the seven yes-words |
| ImportEmployees.NormalizeActiveFolded | importar_funcionarios.py:67-77 | folding the text first changes nothing |
| ImportEmployees.FoldedIdempotent | importar_funcionarios.py:49-77 | folding (strip, lower) twice is folding once |
| ImportEmployees.PasswordHash | importar_funcionarios.py:33-44 | the hash of the stripped password, or of the default password when the cell is missing |
| ImportEmployees.VerifyPassword | importar_funcionarios.py:251-256 | a password matches a stored hash exactly when hashing the stripped text, or the default for a missing one, gives that hash |
| ImportEmployees.PasswordHashNormalises | importar_funcionarios.py:33-44 | a missing password hashes as the default one, and surrounding spaces do not matter |
| ImportEmployees.VerifyPasswordRoundTrip | importar_funcionarios.py:251-256 | a password matches its own hash; with an injective hash, another password matches exactly when it is the same after stripping |
| ImportEmployees.Prepare | importar_funcionarios.py:104-122 | a row is kept exactly when user name and e-mail are present; both are stripped; the level and the active flag are the normalised cells; name, department and manager are the stripped cells; the hash verifies against the row's password |
| ImportEmployees.Ready | importar_funcionarios.py:104-122 | the ready rows are the kept rows' prepared forms, one for one and in sheet order |
| ImportEmployees.ImportRows | importar_funcionarios.py:130-144 | user names and e-mails are unique; the rows are a subsequence of the ready rows; each is the first row with its user name and the first with its e-mail among those left; every such e-mail is kept |
| ImportEmployees.DedupBothKeys | importar_funcionarios.py:130-144 | after both de-duplications each row is still the first ready row with its user name |
| ImportEmployees.ImportRowsAsWritten | importar_funcionarios.py:149-155 | as written: the script goes ahead exactly when each of the first three rows to import has a full name, and then with the rows of `ImportRows` |
| ImportEmployees.NamelessRowStopsImport | importar_funcionarios.py:149-155 | one row with user name and e-mail but no full name: `ImportRows` imports it, the script as written stops before connecting |
| ImportEmployees.SingleRowImported | importar_funcionarios.py:104-144 | a one-row sheet whose row has a user name and an e-mail imports exactly that row |
| Admin.FindLogin | admin_app.py:42-66 | the row found has the user name and password hash; none is found exactly when no row has both |
| Admin.VerifyAdmin | admin_app.py:42-66 | admission requires a row with the name and hash that is active and has level `admin` or `socio` |
| Admin.VerifyAdminIff | admin_app.py:42-66 | with unique user names the gate opens exactly for an active admin or partner whose stored hash matches |
| Admin.BuildTaskQuery | admin_app.py:294-340 | the query is the base query with one clause per non-empty filter, and it holds exactly one placeholder per parameter |
| Admin.QueryMarkers | admin_app.py:294-340 | the search filter adds two placeholders, the client filter one, the collaborator filter two |
| Admin.RenderPlaceholders | admin_app.py:294-340 | the rendered query text holds as many `%s` as the query has parameter slots |
| Admin.OrNone | admin_app.py:381-383 | an empty form field is stored as null |
| Admin.CompanyName | admin_app.py:385-388 | the company name is the name of the client with the CNPJ/CPF, and null when there is none |
| Admin.TaskFromForm | admin_app.py:376-396 | the stored task carries the form's fields, the looked-up company name and null for empty optional fields |
| Admin.EditTask | admin_app.py:439-461 | only the task with the id changes, to the form's values; ids and every other task stay as they were |
| Admin.EditTaskIdempotent | admin_app.py:439-461 | submitting the same edit twice has the effect of submitting it once |
| Admin.RefusalMessageReadsBack | admin_app.py:514-518 | the refusal text holds the fixed words around a number that reads back as the count of linked bookings |
| Admin.DeleteTask | admin_app.py:498-530 | deletion succeeds exactly for a logged-in admin and a task without bookings; otherwise 401 or 400 with the booking count, and the tasks are unchanged; on success the task is gone and the others stay in order |
| Admin.NewUser | admin_app.py:187-207 | a new user is active, gets the default password and level `funcionario` when the form gives none, and takes its e-mail, full name, department and manager from the form |
| Admin.NewUserDefaultMatchesImport | admin_app.py:187-207 | a user created without a password gets the same hash as an imported one |
| Admin.NewAdminCanLogIn | admin_app.py:187-207 | a new admin or partner with a fresh user name passes the login gate with their password |
| Admin.EditUser | admin_app.py:237-260 | the id and user name stay; the active flag follows the checkbox; a non-empty new password replaces the hash and an empty one keeps it |
| Admin.EditUserStable | admin_app.py:237-260 | the same edit twice has the effect of one edit, and without a new password the old password still matches |
| ChatRelay.Or | app.py:96-102 | Python's `or`: the first value when it is truthy, else the second |
| ChatRelay.ReplyFieldFirstTruthy | app.py:96-102 | the reply is the first truthy field among `output`, `text`, `response`, `resposta`, `message` |
| ChatRelay.ReplyFieldNoneTruthy | app.py:96-102 | when none is truthy the reply is the `message` field |
| ChatRelay.Extract | app.py:96-117 | a text answer is the reply; an answer that is neither text nor object gives nothing; a truthy `output` wins |
| ChatRelay.ExtractIgnoresLaterFields | app.py:96-102 | fields after the first truthy one do not change the reply |
| ChatRelay.ExtractNestedData | app.py:104-109 | with no truthy reply field the nested `data` decides: an object gives its `output` or else its `text`, a string gives itself, anything else leaves no reply |
| ChatRelay.ExtractIgnoresData | app.py:105-109 | the nested `data` object is not consulted when a reply field is truthy |
| ChatRelay.Chat | app.py:57-124 | no session gives 401; an empty message gives 400; a non-200 webhook status is reported; an answer is the extracted reply or the fallback text, and always truthy |
| ChatRelay.ChatReplies | app.py:96-119 | an answer without a reply falls back to the fixed text; a text answer or truthy `output` is relayed; the chat answers exactly when the message and status are right |
| ChatRelay.Register | app.py:154-169 | registration succeeds exactly for a new, non-blank name and password; it then adds exactly that user with the password's hash and keeps every other account |
| ChatRelay.Login | app.py:33-49 | blank fields give 400; a wrong name or password gives 401; success exactly when the stored hash matches, and only then does the session change |
| ChatRelay.Logout | app.py:51-54 | logging out clears the session |
| ChatRelay.RegisterThenLogin | app.py:33-169 | a freshly registered user can log in, and registering never changes another user's login |
| ChatRelay.InitialAccounts | app.py:15-18 | the two built-in accounts log in with their passwords |
| Alerts.UsersInOrder | alertas_app.py:63-70 | the users holding open bookings, each once, in query order |
| Alerts.TasksOf | alertas_app.py:63-70 | a user's bookings all belong to that user |
| Alerts.GroupByUser | alertas_app.py:63-70 | the grouping loop yields the users in first-seen order, one list per user holding exactly their bookings in query order, and the lists hold every row once |
| Alerts.EveryRowCountedOnce | alertas_app.py:63-70 | every open booking is counted for exactly one user |
| Alerts.TasksOfUser | alertas_app.py:63-70 | a user has a booking exactly when they are among the users |
| Alerts.FirstWord | alertas_app.py:67 | `split()[0]`: the first run of non-space characters of the name; nothing for a missing or blank name |
| Alerts.StatusMark | alertas_app.py:83 | the running mark exactly for status `em_andamento`, the paused mark otherwise |
| Alerts.TaskLines | alertas_app.py:82-85 | one line per booking with the client read from the named column; it fails exactly when a booking lacks that column |
| Alerts.HeaderReadsBack | alertas_app.py:79-80 | the header greets the first name and holds a number that reads back as the booking count |
| Alerts.Notify | alertas_app.py:75-87 | a notification names the user's first name and booking count and has one mark per booking; a user without a first name stops the job |
| Alerts.NotifyAll | alertas_app.py:75-96 | one notification per user in order; on failure the error is that of the first user whose notification fails, all earlier users succeeding |
| Alerts.NotifyByName | alertas_app.py:67-84 | reading `nom_cliente`, a user's notification fails exactly when the name has no first word, and then names that user |
| Alerts.NotifyAllByName | alertas_app.py:67-96 | reading `nom_cliente`, the notifications succeed exactly when every user has a first name; otherwise the error names the first user without one |
| Alerts.AlertJobAsWritten | alertas_app.py:57-100 | as written: no rows notifies nobody; any row makes the job fail, so nothing is committed |
| Alerts.NotifyAllFails | alertas_app.py:84 | reading `cliente_nome` fails for any user with a booking |
| Alerts.AlertJob | alertas_app.py:57-100 | reading `nom_cliente`: the job succeeds exactly when every user with an open booking has a first name, and then sends one notification per such user, in order, each with that user's bookings; otherwise it fails naming the first user, in query order, without a first name |
| Alerts.GroupedNotifications | alertas_app.py:63-96 | the notifications built from the grouping are one per user, in order, each for that user's bookings |
| Alerts.ClientsOfLines | alertas_app.py:84 | reading `nom_cliente` never fails and gives each booking's client |
| Alerts.NotifyAllOnlyNameErrors | alertas_app.py:67-84 | with the corrected column the only possible error is a missing first name |

## Left out

- Databases, HTTP, the webhook, the DOM, timers, alerts, `confirm` and `print`: the server's and the user's answers are parameters of the functions that consume them. The importers' listings are modelled only for whether they stop the script, not for the text they print.
- SHA-256 is a function parameter. The login and password properties hold for any hash, and the injectivity they need is stated as a hypothesis.
- Whitespace is the full Unicode `str.isspace` set, as Python's `strip` and `split` use it. Digits and lower-casing are ASCII-only: Python's `isdigit` and `lower` also accept and fold non-ASCII characters, which the model leaves unchanged. JavaScript's `sort()` compares UTF-16 code units and is modelled as code-point order, which agrees with it below U+10000.
- ImportClients.CleanCnpjCpf: a cell is missing or a number. A text cell is not modelled: `int()` would parse plain digits and raise on punctuated text such as "12.345.678/0001-90", which the `except` at importar_clientes.py:50-51 turns into nothing.
- Floating point is `real`. The spreadsheet numbers in the client importer are real numbers; binary rounding of large CNPJ values is not modelled.
- ImportTasks.Prepare: the estimate (`normalizar_decimal`) and priority columns (importar_tarefas_colaborador.py:164-165) are not part of a task row; they never decide whether a row is kept or inserted, and the values inserted for them are not modelled.
- ImportTasks.Prepare: the group code is normalised as text only; the `:.2f` formatting of a float group code (importar_tarefas_colaborador.py:74-84) is not modelled.
- ImportClients.CleanAll: the name and group-name cells are text or missing; a numeric cell in those columns, which the NaN-to-`None` mapping at importar_clientes.py:91-92 passes through as a number, is not distinguished from text.
- Admin.BuildTaskQuery: the SQL text is simplified in whitespace, and the fixed SQL texts are stated as fragments; that they hold no stray `%` is stated as a requirement of Admin.RenderPlaceholders, not proved for the query texts.
- Admin.TaskFromForm: estimate and priority are stored as text; their numeric conversion by the database is not modelled.
- Alerts.AlertJobAsWritten: the source takes each user's first name while grouping (alertas_app.py:67), before any message is built; the model checks it while building that user's message. When a later user has a blank name, the script as written stops on that name while the model stops on the missing `cliente_nome` column; both stop before the commit, and only the error's identity differs.
- Alerts.Notify: the "Início" line with its time format and the hours-open rounding (alertas_app.py:85-86) are not modelled; a notification records the header, count, marks and clients.
- The `**bold**`, `__italic__` and line-break rewriting of the chat messages (static/js/chat.js:76-79) is not modelled; only the HTML escaping is.
- The task card's HTML, the dashboard, the alert page, the login page and the group-task importer are not part of this model.
- Session handling beyond "who is logged in" and the Flask routing and JSON encoding are not modelled.

## Findings

| source | as written | input that shows it | evidently intended | confidence | as-written member | corrected member |
|---|---|---|---|---|---|---|
| static/js/chat.js:445-449 | while a pause is open the timer shows `pauseStartTime - startTime` and ignores `totalPausedTime` | a booking restored while paused, started at 0 with 10 s of earlier pauses and paused at 30 s, shows 30 s instead of 20 s | subtract the earlier pauses in both branches | not executed | TaskLedger.ElapsedAsWritten (shown by TaskLedger.ElapsedAsWrittenCountsEarlierPauses) | TaskLedger.Elapsed |
| importar_funcionarios.py:149-155 | the listing of the first three rows to import slices `row['nome_completo'][:30]`, which is `None` for an empty cell | one row with user name and e-mail but an empty full name: `TypeError` before connecting, nothing imported | print the missing name instead of slicing it | not executed | ImportEmployees.ImportRowsAsWritten (shown by ImportEmployees.NamelessRowStopsImport) | ImportEmployees.ImportRows |
| importar_tarefas_colaborador.py:189 | the listing of removed rows slices `row.get('nome_empresa', 'N/A')[:40]`; the key exists, so an empty cell gives `None`, not `'N/A'` | one row without task name and company: `TypeError` before the gate | fall back to `'N/A'` for an empty cell | not executed | ImportTasks.ImportAsWritten (shown by ImportTasks.NamelessRemovedRowStopsImport) | ImportTasks.Import |
| importar_tarefas_colaborador.py:252 | the listing of the first three rows to insert slices `row['nome_empresa'][:30]`, which is `None` for an empty cell | one complete row with valid keys and no company: `TypeError` before connecting, nothing inserted | print the missing name instead of slicing it | not executed | ImportTasks.ImportAsWritten (shown by ImportTasks.NamelessCompanyStopsImport) | ImportTasks.Import |
| alertas_app.py:84 | each line reads `tarefa['cliente_nome']`, but the query selects the column `nom_cliente` | any day with one open booking: the lookup raises `KeyError` before the commit, so nobody is notified | read `tarefa['nom_cliente']` | not executed | Alerts.AlertJobAsWritten (shown by Alerts.NotifyAllFails) | Alerts.AlertJob |

=== FILE: admin.dfy ===
/** The administration site (admin_app.py): the gate that admits only
    active administrators and partners, the task listing query built from
    optional filters, the guard that refuses to delete a task with hours
    booked against it, and the defaults the user and task forms apply.
    Tables are sequences of rows; SHA-256 is the parameter `hash`. */
module Admin {
  import opened Wrappers
  import opened Text
  import Seqs
  import ImportEmployees

  // ---------------------------------------------------------------------
  // Employee table and the admin gate
  // ---------------------------------------------------------------------

  /** A row of `funcionarios`. Nullable columns are options. */
  datatype UserRecord = UserRecord(
    id: int, user: Option<string>, passwordHash: string, email: Option<string>,
    fullName: Option<string>, department: Option<string>, level: Option<string>,
    manager: Option<string>, active: bool)

  /** The levels allowed into the administration site. */
  const AdminLevels: seq<string> := ["admin", "socio"]

  /** User names are unique in the table. */
  predicate UniqueUsers(table: seq<UserRecord>) {
    forall i, j :: 0 <= i < j < |table| && table[i].user.Some? ==> table[i].user != table[j].user
  }

  /** The first row whose user name and password hash both match (`fetchone`). */
  function FindLogin(table: seq<UserRecord>, user: string, h: string): (r: Option<UserRecord>)
    ensures r.Some? ==> r.value in table && r.value.user == Some(user) && r.value.passwordHash == h
    ensures r.None? <==> forall i :: 0 <= i < |table| ==> !(table[i].user == Some(user) && table[i].passwordHash == h)
  {
    if |table| == 0 then None
    else if table[0].user == Some(user) && table[0].passwordHash == h then Some(table[0])
    else
      var r := FindLogin(table[1..], user, h);
      assert forall i :: 1 <= i < |table| ==> table[i] == table[1..][i - 1];
      r
  }

  /** `verificar_admin`: the matching row when it is active and its level is
      `admin` or `socio`; `None` otherwise, and also when the user name or
      password is absent from the form (a null user name matches no row and a
      null password makes the hashing fail). */
  function VerifyAdmin(hash: string -> string, table: seq<UserRecord>, user: Option<string>, password: Option<string>): (r: Option<UserRecord>)
    ensures r.Some? ==>
      && r.value in table && user.Some? && password.Some?
      && r.value.user == user && r.value.passwordHash == hash(password.value)
      && r.value.active && r.value.level.Some? && r.value.level.value in AdminLevels
  {
    if user.None? || password.None? then None
    else match FindLogin(table, user.value, hash(password.value))
      case None => None
      case Some(row) =>
        if row.active && row.level.Some? && row.level.value in AdminLevels then Some(row) else None
  }

  /** With unique user names the gate opens exactly for an active admin or
      partner whose stored hash matches the password. */
  lemma VerifyAdminIff(hash: string -> string, table: seq<UserRecord>, user: string, password: string)
    requires UniqueUsers(table)
    ensures VerifyAdmin(hash, table, Some(user), Some(password)).Some? <==>
      exists i :: 0 <= i < |table| && table[i].user == Some(user) && table[i].passwordHash == hash(password)
        && table[i].active && table[i].level.Some? && table[i].level.value in AdminLevels
  {
    var found := FindLogin(table, user, hash(password));
    if found.Some? {
      var j :| 0 <= j < |table| && table[j] == found.value;
      assert forall i :: 0 <= i < |table| && table[i].user == Some(user) ==> i == j;
    }
  }

  // ---------------------------------------------------------------------
  // The task listing query
  // ---------------------------------------------------------------------

  /** A piece of query text: fixed SQL or a `%s` marker that psycopg2
      fills with the next parameter. */
  datatype Fragment = Sql(text: string) | Param

  const SelectTasks: seq<Fragment> := [Sql(
    "SELECT t.id, t.cnpj_cpf, c.nom_cliente, t.cod_grupo_tarefa, g.nome_grupo_tarefa, t.nome_tarefa, "
    + "t.colaborador_1, t.colaborador_2, t.estimativa_horas, t.prioridade "
    + "FROM tarefas_colaborador t "
    + "LEFT JOIN clientes c ON t.cnpj_cpf = c.num_cnpj_cpf "
    + "LEFT JOIN grupo_tarefas g ON t.cod_grupo_tarefa = g.cod_grupo_tarefa "
    + "WHERE 1=1")]
  const SearchClause: seq<Fragment> :=
    [Sql(" AND (t.nome_tarefa ILIKE "), Param, Sql(" OR c.nom_cliente ILIKE "), Param, Sql(")")]
  const ClientClause: seq<Fragment> := [Sql(" AND c.nom_cliente ILIKE "), Param]
  const CollaboratorClause: seq<Fragment> :=
    [Sql(" AND (t.colaborador_1 = "), Param, Sql(" OR t.colaborador_2 = "), Param, Sql(")")]
  const OrderClause: seq<Fragment> := [Sql(" ORDER BY c.nom_cliente, t.nome_tarefa")]

  /** The number of markers in a query. */
  function Markers(q: seq<Fragment>): nat {
    if |q| == 0 then 0 else (if q[0] == Param then 1 else 0) + Markers(q[1..])
  }

  lemma {:induction false} MarkersAppend(a: seq<Fragment>, b: seq<Fragment>)
    ensures Markers(a + b) == Markers(a) + Markers(b)
  {
    if |a| == 0 {
      assert a + b == b;
    } else {
      assert (a + b)[1..] == a[1..] + b;
      MarkersAppend(a[1..], b);
    }
  }

  /** The query text sent to the database. */
  function Render(q: seq<Fragment>): string {
    if |q| == 0 then ""
    else (match q[0] case Sql(t) => t case Param => "%s") + Render(q[1..])
  }

  /** How psycopg2 counts the `%s` markers of a query text. */
  function Placeholders(s: string): nat {
    if |s| < 2 then 0
    else if s[0] == '%' && s[1] == 's' then 1 + Placeholders(s[2..])
    else Placeholders(s[1..])
  }

  lemma {:induction false} PlaceholdersAppend(a: string, b: string)
    requires |a| == 0 || a[|a| - 1] != '%'
    ensures Placeholders(a + b) == Placeholders(a) + Placeholders(b)
  {
    if |a| == 0 {
      assert a + b == b;
    } else if |a| == 1 {
      if |b| > 0 {
        assert (a + b)[1..] == b;
      }
    } else if a[0] == '%' && a[1] == 's' {
      assert (a + b)[2..] == a[2..] + b;
      PlaceholdersAppend(a[2..], b);
    } else {
      assert (a + b)[1..] == a[1..] + b;
      PlaceholdersAppend(a[1..], b);
    }
  }

  lemma {:induction false} NoPercentNoPlaceholder(s: string)
    requires forall i :: 0 <= i < |s| ==> s[i] != '%'
    ensures Placeholders(s) == 0
  {
    if |s| >= 2 {
      NoPercentNoPlaceholder(s[1..]);
    }
  }

  /** Fixed SQL text without any `%`. */
  predicate PercentFree(q: seq<Fragment>) {
    forall k, i :: 0 <= k < |q| && q[k].Sql? && 0 <= i < |q[k].text| ==> q[k].text[i] != '%'
  }

  /** When the fixed text holds no `%`, psycopg2 sees exactly one
      placeholder per marker in the rendered query. */
  lemma {:induction false} RenderPlaceholders(q: seq<Fragment>)
    requires PercentFree(q)
    ensures Placeholders(Render(q)) == Markers(q)
  {
    if |q| > 0 {
      assert PercentFree(q[1..]) by {
        forall k, i | 0 <= k < |q[1..]| && q[1..][k].Sql? && 0 <= i < |q[1..][k].text|
          ensures q[1..][k].text[i] != '%'
        {
          assert q[1..][k] == q[k + 1];
        }
      }
      RenderPlaceholders(q[1..]);
      match q[0]
      case Sql(t) =>
        assert forall i :: 0 <= i < |t| ==> t[i] != '%' by {
          forall i | 0 <= i < |t|
            ensures t[i] != '%'
          {
            assert q[0].text[i] != '%';
          }
        }
        NoPercentNoPlaceholder(t);
        PlaceholdersAppend(t, Render(q[1..]));
      case Param =>
        PlaceholdersAppend("%s", Render(q[1..]));
        assert Placeholders("%s") == 1;
    }
  }

  /** `f'%{text}%'`: the ILIKE pattern for "contains". */
  function Contains(text: string): string {
    "%" + text + "%"
  }

  /** `listar_tarefas`: each filter that is non-empty adds its clause and
      its parameters, in the order search, client, collaborator; the query
      always starts with the base selection ending in `WHERE 1=1` and ends
      with the ordering. The query has one marker per parameter. */
  method BuildTaskQuery(search: string, client: string, collaborator: string) returns (query: seq<Fragment>, params: seq<string>)
    ensures Markers(query) == |params|
    ensures query == SelectTasks + When(search, SearchClause) + When(client, ClientClause)
      + When(collaborator, CollaboratorClause) + OrderClause
    ensures params == (if search != "" then [Contains(search), Contains(search)] else [])
      + (if client != "" then [Contains(client)] else [])
      + (if collaborator != "" then [collaborator, collaborator] else [])
  {
    query := SelectTasks;
    params := [];
    if search != "" {
      query := query + SearchClause;
      params := params + [Contains(search), Contains(search)];
    }
    if client != "" {
      query := query + ClientClause;
      params := params + [Contains(client)];
    }
    if collaborator != "" {
      query := query + CollaboratorClause;
      params := params + [collaborator, collaborator];
    }
    query := query + OrderClause;
    assert query == SelectTasks + When(search, SearchClause) + When(client, ClientClause)
      + When(collaborator, CollaboratorClause) + OrderClause;
    QueryMarkers(search, client, collaborator);
  }

  /** The clause of a filter, present only when the filter is non-empty. */
  function When(filter: string, clause: seq<Fragment>): seq<Fragment> {
    if filter != "" then clause else []
  }

  lemma QueryMarkers(search: string, client: string, collaborator: string)
    ensures Markers(SelectTasks + When(search, SearchClause) + When(client, ClientClause)
      + When(collaborator, CollaboratorClause) + OrderClause)
      == (if search != "" then 2 else 0) + (if client != "" then 1 else 0) + (if collaborator != "" then 2 else 0)
  {
    var a := SelectTasks + When(search, SearchClause);
    var b := a + When(client, ClientClause);
    var c := b + When(collaborator, CollaboratorClause);
    ClauseMarkers();
    MarkersAppend(SelectTasks, When(search, SearchClause));
    MarkersAppend(a, When(client, ClientClause));
    MarkersAppend(b, When(collaborator, CollaboratorClause));
    MarkersAppend(c, OrderClause);
  }

  lemma ClauseMarkers()
    ensures Markers(SelectTasks) == 0 && Markers(OrderClause) == 0 && Markers([]) == 0
    ensures Markers(SearchClause) == 2 && Markers(ClientClause) == 1 && Markers(CollaboratorClause) == 2
  {
    assert SearchClause[1..][1..][1..][1..][1..] == [];
    assert CollaboratorClause[1..][1..][1..][1..][1..] == [];
  }

  // ---------------------------------------------------------------------
  // Task table, its forms and the delete guard
  // ---------------------------------------------------------------------

  /** A row of `tarefas_colaborador`. */
  datatype TaskRecord = TaskRecord(
    id: int, cnpjCpf: Option<string>, company: Option<string>, groupCode: Option<string>,
    taskName: Option<string>, colab1: Option<string>, colab2: Option<string>,
    estimate: Option<string>, priority: Option<string>)

  /** A row of `clientes`. */
  datatype Client = Client(cnpjCpf: string, name: Option<string>)

  /** The fields a task form posts; `None` is a field the form did not send. */
  datatype TaskForm = TaskForm(
    cnpjCpf: Option<string>, groupCode: Option<string>, taskName: Option<string>,
    colab1: Option<string>, colab2: Option<string>, estimate: Option<string>, priority: Option<string>)

  /** Python's `value or None` on an optional text: empty text becomes `None`. */
  function OrNone(v: Option<string>): (r: Option<string>)
    ensures r.None? <==> v.None? || v.value == ""
    ensures r.Some? ==> r == v && r.value != ""
  {
    if v.Some? && v.value != "" then v else None
  }

  /** The company name stored with a task: the name of the first client with
      the posted CNPJ/CPF, `None` when there is none. */
  function CompanyName(clients: seq<Client>, cnpjCpf: Option<string>): (r: Option<string>)
    ensures (cnpjCpf.None? || forall i :: 0 <= i < |clients| ==> clients[i].cnpjCpf != cnpjCpf.value) ==> r.None?
    ensures r.Some? ==> exists i :: 0 <= i < |clients| && Some(clients[i].cnpjCpf) == cnpjCpf && clients[i].name == r
    ensures forall i :: 0 <= i < |clients| && Some(clients[i].cnpjCpf) == cnpjCpf ==>
      exists j :: 0 <= j <= i && Some(clients[j].cnpjCpf) == cnpjCpf && clients[j].name == r
  {
    if cnpjCpf.None? || |clients| == 0 then None
    else if clients[0].cnpjCpf == cnpjCpf.value then clients[0].name
    else
      var r := CompanyName(clients[1..], cnpjCpf);
      LaterClient(clients, cnpjCpf, r);
      r
  }

  /** A name found among the later clients, when the first client has
      another CNPJ/CPF, is the first match of the whole list. */
  lemma LaterClient(clients: seq<Client>, cnpjCpf: Option<string>, r: Option<string>)
    requires |clients| > 0 && Some(clients[0].cnpjCpf) != cnpjCpf
    requires r.Some? ==> exists i :: 0 <= i < |clients[1..]| && Some(clients[1..][i].cnpjCpf) == cnpjCpf && clients[1..][i].name == r
    requires forall i :: 0 <= i < |clients[1..]| && Some(clients[1..][i].cnpjCpf) == cnpjCpf ==>
      exists j :: 0 <= j <= i && Some(clients[1..][j].cnpjCpf) == cnpjCpf && clients[1..][j].name == r
    ensures r.Some? ==> exists i :: 0 <= i < |clients| && Some(clients[i].cnpjCpf) == cnpjCpf && clients[i].name == r
    ensures forall i :: 0 <= i < |clients| && Some(clients[i].cnpjCpf) == cnpjCpf ==>
      exists j :: 0 <= j <= i && Some(clients[j].cnpjCpf) == cnpjCpf && clients[j].name == r
  {
    if r.Some? {
      var i :| 0 <= i < |clients[1..]| && Some(clients[1..][i].cnpjCpf) == cnpjCpf && clients[1..][i].name == r;
      assert clients[i + 1] == clients[1..][i];
    }
    forall i | 0 <= i < |clients| && Some(clients[i].cnpjCpf) == cnpjCpf
      ensures exists j :: 0 <= j <= i && Some(clients[j].cnpjCpf) == cnpjCpf && clients[j].name == r
    {
      assert i > 0 && clients[i] == clients[1..][i - 1];
      var j :| 0 <= j <= i - 1 && Some(clients[1..][j].cnpjCpf) == cnpjCpf && clients[1..][j].name == r;
      assert clients[j + 1] == clients[1..][j];
    }
  }

  /** The row `nova_tarefa` inserts and `editar_tarefa` writes. */
  function TaskFromForm(id: int, clients: seq<Client>, form: TaskForm): (t: TaskRecord)
    ensures t.id == id
    ensures t.company == CompanyName(clients, form.cnpjCpf)
    ensures t.colab2 == OrNone(form.colab2) && t.estimate == OrNone(form.estimate) && t.priority == OrNone(form.priority)
    ensures t.cnpjCpf == form.cnpjCpf && t.groupCode == form.groupCode && t.taskName == form.taskName && t.colab1 == form.colab1
  {
    TaskRecord(id, form.cnpjCpf, CompanyName(clients, form.cnpjCpf), form.groupCode, form.taskName,
      form.colab1, OrNone(form.colab2), OrNone(form.estimate), OrNone(form.priority))
  }

  /** `editar_tarefa`: `UPDATE ... WHERE id = %s` rewrites the rows with that
      id from the form and leaves every other row and every id alone. */
  function EditTask(tasks: seq<TaskRecord>, id: int, clients: seq<Client>, form: TaskForm): (r: seq<TaskRecord>)
    ensures |r| == |tasks|
    ensures forall i :: 0 <= i < |tasks| ==> r[i].id == tasks[i].id
    ensures forall i :: 0 <= i < |tasks| && tasks[i].id != id ==> r[i] == tasks[i]
    ensures forall i :: 0 <= i < |tasks| && tasks[i].id == id ==> r[i] == TaskFromForm(id, clients, form)
  {
    if |tasks| == 0 then []
    else
      var row := TaskFromForm(id, clients, form);
      var rest := EditTask(tasks[1..], id, clients, form);
      EditStep(tasks, id, row, rest);
      [if tasks[0].id == id then row else tasks[0]] + rest
  }

  /** Editing the head in front of an edited tail edits the whole table. */
  lemma EditStep(tasks: seq<TaskRecord>, id: int, row: TaskRecord, rest: seq<TaskRecord>)
    requires |tasks| > 0 && |rest| == |tasks| - 1 && row.id == id
    requires forall i :: 0 <= i < |rest| ==> rest[i].id == tasks[i + 1].id
    requires forall i :: 0 <= i < |rest| && tasks[i + 1].id != id ==> rest[i] == tasks[i + 1]
    requires forall i :: 0 <= i < |rest| && tasks[i + 1].id == id ==> rest[i] == row
    ensures var r := [if tasks[0].id == id then row else tasks[0]] + rest;
      && (forall i :: 0 <= i < |tasks| ==> r[i].id == tasks[i].id)
      && (forall i :: 0 <= i < |tasks| && tasks[i].id != id ==> r[i] == tasks[i])
      && (forall i :: 0 <= i < |tasks| && tasks[i].id == id ==> r[i] == row)
  {
    var r := [if tasks[0].id == id then row else tasks[0]] + rest;
    forall i | 0 < i < |tasks|
      ensures r[i] == rest[i - 1]
    {
    }
  }

  /** Saving the same form twice leaves the table as saving it once. */
  lemma EditTaskIdempotent(tasks: seq<TaskRecord>, id: int, clients: seq<Client>, form: TaskForm)
    ensures EditTask(EditTask(tasks, id, clients, form), id, clients, form) == EditTask(tasks, id, clients, form)
  {
    var once := EditTask(tasks, id, clients, form);
    var twice := EditTask(once, id, clients, form);
    assert forall i :: 0 <= i < |twice| ==> twice[i] == once[i];
  }

  /** What `deletar_tarefa` answers, with the table afterwards. */
  datatype DeleteOutcome = DeleteOutcome(status: nat, success: bool, message: string, tasks: seq<TaskRecord>)

  const RefusalLead := "N\U{E3}o \U{E9} poss\U{ED}vel deletar! Esta tarefa tem "
  const RefusalTail := " apontamento(s) vinculado(s)."

  function RefusalMessage(linked: nat): string {
    RefusalLead + NatToString(linked) + RefusalTail
  }

  /** The number written between the fixed words of the refusal reads back
      as the count of linked bookings. */
  lemma RefusalMessageReadsBack(linked: nat)
    ensures var r := RefusalMessage(linked);
      && |r| > |RefusalLead| + |RefusalTail|
      && r[..|RefusalLead|] == RefusalLead && r[|r| - |RefusalTail|..] == RefusalTail
      && AllDigits(r[|RefusalLead|..|r| - |RefusalTail|])
      && ParseNat(r[|RefusalLead|..|r| - |RefusalTail|]) == linked
  {
    ParseNatToString(linked);
    var r := RefusalMessage(linked);
    assert r[|RefusalLead|..|r| - |RefusalTail|] == NatToString(linked);
  }

  /** `deletar_tarefa`: without an admin session the answer is 401; when
      bookings (`links` holds their task ids) point at the task the answer
      is 400 and nothing is deleted; otherwise every row with that id is
      removed. */
  function DeleteTask(loggedIn: bool, tasks: seq<TaskRecord>, links: seq<int>, id: int): (r: DeleteOutcome)
    ensures r.success <==> loggedIn && id !in links
    ensures r.success ==> r.status == 200
    ensures !loggedIn ==> r.status == 401
    ensures loggedIn && id in links ==> r.status == 400 && r.message == RefusalMessage(multiset(links)[id])
    ensures !r.success ==> r.tasks == tasks
    ensures r.success ==> forall i :: 0 <= i < |r.tasks| ==> r.tasks[i].id != id
    ensures r.success ==> forall i :: 0 <= i < |tasks| && tasks[i].id != id ==> tasks[i] in r.tasks
    ensures r.success ==> Seqs.IsSubseq(r.tasks, tasks)
  {
    if !loggedIn then DeleteOutcome(401, false, "N\U{E3}o autorizado", tasks)
    else if multiset(links)[id] > 0 then DeleteOutcome(400, false, RefusalMessage(multiset(links)[id]), tasks)
    else
      Seqs.FilterIsSubseq(tasks, (t: TaskRecord) => t.id != id);
      DeleteOutcome(200, true, "Tarefa deletada com sucesso!", Seqs.Filter(tasks, (t: TaskRecord) => t.id != id))
  }

  // ---------------------------------------------------------------------
  // User forms
  // ---------------------------------------------------------------------

  /** The fields a user form posts; `None` is a field the form did not send. */
  datatype UserForm = UserForm(
    user: Option<string>, password: Option<string>, email: Option<string>,
    fullName: Option<string>, department: Option<string>, level: Option<string>,
    manager: Option<string>, active: Option<string>, newPassword: Option<string>)

  /** `novo_usuario`: the password defaults to `Booker@1010` and the level to
      `funcionario` when the form omits them, and the new user is active. */
  function NewUser(hash: string -> string, id: int, form: UserForm): (u: UserRecord)
    ensures u.active && u.id == id && u.user == form.user
    ensures u.passwordHash == hash(form.password.GetOr(ImportEmployees.DefaultPassword))
    ensures u.level == Some(form.level.GetOr("funcionario"))
    ensures u.email == form.email && u.fullName == form.fullName
    ensures u.department == form.department && u.manager == form.manager
  {
    UserRecord(id, form.user, hash(form.password.GetOr(ImportEmployees.DefaultPassword)),
      form.email, form.fullName, form.department, Some(form.level.GetOr("funcionario")),
      form.manager, true)
  }

  /** A user created without a password gets the same hash as an imported
      employee without one. */
  lemma NewUserDefaultMatchesImport(hash: string -> string, id: int, form: UserForm)
    requires form.password.None?
    ensures NewUser(hash, id, form).passwordHash == ImportEmployees.PasswordHash(hash, None)
  {
    TrimFixed(ImportEmployees.DefaultPassword);
  }

  /** An administrator or partner created through the form can pass the
      gate with the password the form set. */
  lemma NewAdminCanLogIn(hash: string -> string, id: int, form: UserForm, table: seq<UserRecord>)
    requires form.user.Some? && (form.level == Some("admin") || form.level == Some("socio"))
    requires forall i :: 0 <= i < |table| ==> table[i].user != form.user
    ensures var u := NewUser(hash, id, form);
      VerifyAdmin(hash, table + [u], form.user, Some(form.password.GetOr(ImportEmployees.DefaultPassword))) == Some(u)
  {
    var u := NewUser(hash, id, form);
    var t := table + [u];
    var h := hash(form.password.GetOr(ImportEmployees.DefaultPassword));
    assert t[|table|] == u;
    var found := FindLogin(t, form.user.value, h);
    assert found.Some?;
  }

  /** `editar_usuario` on one row: every form field is written, `ativo` is
      set exactly when the checkbox sent `on`, and the password hash changes
      only when a non-empty new password was typed. */
  function EditUser(hash: string -> string, u: UserRecord, form: UserForm): (r: UserRecord)
    ensures r.id == u.id && r.user == u.user
    ensures r.active <==> form.active == Some("on")
    ensures form.newPassword.Some? && form.newPassword.value != "" ==> r.passwordHash == hash(form.newPassword.value)
    ensures form.newPassword.None? || form.newPassword.value == "" ==> r.passwordHash == u.passwordHash
    ensures r.email == form.email && r.fullName == form.fullName && r.department == form.department
      && r.level == form.level && r.manager == form.manager
  {
    var h := if form.newPassword.Some? && form.newPassword.value != "" then hash(form.newPassword.value) else u.passwordHash;
    UserRecord(u.id, u.user, h, form.email, form.fullName, form.department, form.level, form.manager, form.active == Some("on"))
  }

  /** Submitting the same edit twice is the same as submitting it once, and
      an edit without a new password keeps the old one valid for the gate. */
  lemma EditUserStable(hash: string -> string, u: UserRecord, form: UserForm, password: string)
    ensures EditUser(hash, EditUser(hash, u, form), form) == EditUser(hash, u, form)
    ensures (form.newPassword.None? || form.newPassword.value == "") && u.passwordHash == hash(password)
      && u.user.Some? && form.active == Some("on") && form.level == Some("admin")
      ==> VerifyAdmin(hash, [EditUser(hash, u, form)], u.user, Some(password)).Some?
  {
  }
}

=== FILE: alerts.dfy ===
/** The five o'clock alert job (alertas_app.py): today's open bookings of
    active employees are grouped by user name in order of first appearance,
    and each user gets one notification greeting them by first name and
    stating how many tasks they left open, one status mark per task. */
module Alerts {
  import opened Wrappers
  import opened Text

  /** One row of the open-bookings query; the text columns it selects. */
  datatype OpenTask = OpenTask(
    user: string, fullName: Option<string>, clientName: string, taskName: string,
    groupName: string, startTime: string, status: string)

  /** A text column of a result row looked up by name, as the dictionary
      cursor does; `None` is a `KeyError`. */
  function Column(t: OpenTask, name: string): Option<string> {
    if name == "usuario" then Some(t.user)
    else if name == "nom_cliente" then Some(t.clientName)
    else if name == "nome_tarefa" then Some(t.taskName)
    else if name == "nome_grupo_tarefa" then Some(t.groupName)
    else if name == "hora_inicio" then Some(t.startTime)
    else if name == "status" then Some(t.status)
    else None
  }

  // ---------------------------------------------------------------------
  // Grouping by user, in order of first appearance
  // ---------------------------------------------------------------------

  /** The user names of `rows`, each once, in order of first appearance. */
  function UsersInOrder(rows: seq<OpenTask>): (r: seq<string>)
    ensures forall i, j :: 0 <= i < j < |r| ==> r[i] != r[j]
  {
    if |rows| == 0 then []
    else
      var prev := UsersInOrder(rows[..|rows| - 1]);
      if rows[|rows| - 1].user in prev then prev else prev + [rows[|rows| - 1].user]
  }

  /** The rows of user `u`, in query order. */
  function TasksOf(rows: seq<OpenTask>, u: string): (r: seq<OpenTask>)
    ensures |r| <= |rows|
    ensures forall k :: 0 <= k < |r| ==> r[k].user == u
  {
    if |rows| == 0 then []
    else
      var prev := TasksOf(rows[..|rows| - 1], u);
      if rows[|rows| - 1].user == u then prev + [rows[|rows| - 1]] else prev
  }

  /** The number of rows the lists of `users` hold together. */
  function TotalTasks(users: seq<string>, lists: map<string, seq<OpenTask>>): nat
    requires forall k :: 0 <= k < |users| ==> users[k] in lists
  {
    if |users| == 0 then 0 else |lists[users[0]]| + TotalTasks(users[1..], lists)
  }

  /** The number of rows of `users` together, counted from the rows themselves. */
  function CountOf(users: seq<string>, rows: seq<OpenTask>): nat {
    if |users| == 0 then 0 else |TasksOf(rows, users[0])| + CountOf(users[1..], rows)
  }

  lemma {:induction false} CountOfAppend(users: seq<string>, u: string, rows: seq<OpenTask>)
    ensures CountOf(users + [u], rows) == CountOf(users, rows) + |TasksOf(rows, u)|
  {
    if |users| > 0 {
      assert (users + [u])[1..] == users[1..] + [u];
      CountOfAppend(users[1..], u, rows);
    } else {
      assert (users + [u])[1..] == [];
    }
  }

  /** One more row adds one to the count of the users holding its user once, and nothing otherwise. */
  lemma {:induction false} CountOfExtend(users: seq<string>, rows: seq<OpenTask>, i: nat)
    requires i < |rows|
    requires forall a, b :: 0 <= a < b < |users| ==> users[a] != users[b]
    ensures CountOf(users, rows[..i + 1]) == CountOf(users, rows[..i]) + if rows[i].user in users then 1 else 0
  {
    PrefixStep(rows, i);
    if |users| > 0 {
      CountOfExtend(users[1..], rows, i);
      assert users[0] == rows[i].user ==> rows[i].user !in users[1..];
      assert rows[i].user in users <==> users[0] == rows[i].user || rows[i].user in users[1..];
    }
  }

  /** Every row is counted for exactly one user. */
  lemma {:induction false} EveryRowCountedOnce(rows: seq<OpenTask>)
    ensures CountOf(UsersInOrder(rows), rows) == |rows|
  {
    if |rows| > 0 {
      var i := |rows| - 1;
      assert rows[..i + 1] == rows;
      EveryRowCountedOnce(rows[..i]);
      var prev := UsersInOrder(rows[..i]);
      PrefixStep(rows, i);
      CountOfExtend(prev, rows, i);
      if rows[i].user !in prev {
        CountOfAppend(prev, rows[i].user, rows);
        TasksOfUser(rows[..i], rows[i].user);
        assert TasksOf(rows, rows[i].user) == [rows[i]];
      }
    }
  }

  /** The lists' total is the count when each list holds its user's rows. */
  lemma {:induction false} TotalTasksIsCount(users: seq<string>, lists: map<string, seq<OpenTask>>, rows: seq<OpenTask>)
    requires forall k :: 0 <= k < |users| ==> users[k] in lists && lists[users[k]] == TasksOf(rows, users[k])
    ensures TotalTasks(users, lists) == CountOf(users, rows)
  {
    if |users| > 0 {
      TotalTasksIsCount(users[1..], lists, rows);
    }
  }

  /** A user who occurs in the rows has at least one task. */
  lemma {:induction false} TasksOfPresent(rows: seq<OpenTask>, k: nat)
    requires k < |rows|
    ensures |TasksOf(rows, rows[k].user)| > 0
  {
    if k < |rows| - 1 {
      TasksOfPresent(rows[..|rows| - 1], k);
    }
  }

  /** What one more row adds to the users and to each user's tasks. */
  lemma PrefixStep(rows: seq<OpenTask>, i: nat)
    requires i < |rows|
    ensures UsersInOrder(rows[..i + 1]) ==
      if rows[i].user in UsersInOrder(rows[..i]) then UsersInOrder(rows[..i]) else UsersInOrder(rows[..i]) + [rows[i].user]
    ensures forall u :: (TasksOf(rows[..i + 1], u) ==
      if rows[i].user == u then TasksOf(rows[..i], u) + [rows[i]] else TasksOf(rows[..i], u))
  {
    assert rows[..i + 1][..i] == rows[..i];
  }

  /** `order` and `lists` are the grouping of `rows`. */
  ghost predicate Grouped(rows: seq<OpenTask>, order: seq<string>, lists: map<string, seq<OpenTask>>) {
    && order == UsersInOrder(rows)
    && (forall u :: u in lists <==> u in order)
    && (forall u :: u in lists ==> lists[u] == TasksOf(rows, u))
  }

  /** One iteration of the grouping loop: row `i` goes into its user's
      list, which is created first if the user is new. */
  method AddRow(rows: seq<OpenTask>, i: nat, order: seq<string>, lists: map<string, seq<OpenTask>>)
    returns (order': seq<string>, lists': map<string, seq<OpenTask>>)
    requires i < |rows| && Grouped(rows[..i], order, lists)
    ensures Grouped(rows[..i + 1], order', lists')
  {
    var t := rows[i];
    if t.user in lists {
      order', lists' := order, lists[t.user := lists[t.user] + [t]];
      AppendToKnownUser(rows, i, order, lists);
    } else {
      order', lists' := order + [t.user], lists[t.user := [t]];
      AppendNewUser(rows, i, order, lists);
    }
  }

  lemma AppendToKnownUser(rows: seq<OpenTask>, i: nat, order: seq<string>, lists: map<string, seq<OpenTask>>)
    requires i < |rows| && Grouped(rows[..i], order, lists) && rows[i].user in lists
    ensures Grouped(rows[..i + 1], order, lists[rows[i].user := lists[rows[i].user] + [rows[i]]])
  {
    KnownUserLists(rows, i, lists);
    PrefixStep(rows, i);
  }

  lemma KnownUserLists(rows: seq<OpenTask>, i: nat, lists: map<string, seq<OpenTask>>)
    requires i < |rows| && rows[i].user in lists
    requires forall u :: u in lists ==> lists[u] == TasksOf(rows[..i], u)
    ensures TasksOf(rows[..i + 1], rows[i].user) == lists[rows[i].user] + [rows[i]]
    ensures forall u :: u in lists && u != rows[i].user ==> lists[u] == TasksOf(rows[..i + 1], u)
  {
    PrefixStep(rows, i);
  }

  lemma AppendNewUser(rows: seq<OpenTask>, i: nat, order: seq<string>, lists: map<string, seq<OpenTask>>)
    requires i < |rows| && Grouped(rows[..i], order, lists) && rows[i].user !in lists
    ensures Grouped(rows[..i + 1], order + [rows[i].user], lists[rows[i].user := [rows[i]]])
  {
    var t := rows[i];
    NewUserLists(rows, i, lists);
    PrefixStep(rows, i);
  }

  lemma NewUserLists(rows: seq<OpenTask>, i: nat, lists: map<string, seq<OpenTask>>)
    requires i < |rows| && rows[i].user !in UsersInOrder(rows[..i])
    requires forall u :: u in lists ==> lists[u] == TasksOf(rows[..i], u)
    ensures TasksOf(rows[..i + 1], rows[i].user) == [rows[i]]
    ensures forall u :: u in lists && u != rows[i].user ==> lists[u] == TasksOf(rows[..i + 1], u)
  {
    PrefixStep(rows, i);
    TasksOfUser(rows[..i], rows[i].user);
  }

  /** A user has a task exactly when they occur among the users. */
  lemma {:induction false} TasksOfUser(rows: seq<OpenTask>, u: string)
    ensures |TasksOf(rows, u)| > 0 <==> u in UsersInOrder(rows)
  {
    if |rows| > 0 {
      TasksOfUser(rows[..|rows| - 1], u);
    }
  }

  /** Every row's user occurs among the users. */
  lemma {:induction false} UsersInOrderComplete(rows: seq<OpenTask>, k: nat)
    requires k < |rows|
    ensures rows[k].user in UsersInOrder(rows)
  {
    TasksOfPresent(rows, k);
    TasksOfUser(rows, rows[k].user);
  }

  /** The job's grouping loop over a dictionary: `order` is the dictionary's
      key order and `lists[u]` the rows appended for `u`. Every row lands in
      exactly one list. */
  method GroupByUser(rows: seq<OpenTask>) returns (order: seq<string>, lists: map<string, seq<OpenTask>>)
    ensures order == UsersInOrder(rows)
    ensures forall u :: u in lists <==> u in order
    ensures forall u :: u in lists ==> lists[u] == TasksOf(rows, u)
    ensures TotalTasks(order, lists) == |rows|
  {
    order := [];
    lists := map[];
    var i := 0;
    while i < |rows|
      invariant 0 <= i <= |rows|
      invariant Grouped(rows[..i], order, lists)
    {
      order, lists := AddRow(rows, i, order, lists);
      i := i + 1;
    }
    assert rows[..i] == rows;
    TotalTasksIsCount(order, lists, rows);
    EveryRowCountedOnce(rows);
  }

  // ---------------------------------------------------------------------
  // Messages
  // ---------------------------------------------------------------------

  function TakeWord(s: string): (r: string)
    ensures |r| <= |s| && r == s[..|r|]
    ensures forall k :: 0 <= k < |r| ==> !IsSpace(r[k])
    ensures |r| < |s| ==> IsSpace(s[|r|])
  {
    if |s| == 0 || IsSpace(s[0]) then "" else [s[0]] + TakeWord(s[1..])
  }

  /** `name.split()[0]`: the first run of non-space characters; `None` when
      there is none (an `IndexError`) or the name is null. */
  function FirstWord(name: Option<string>): (r: Option<string>)
    ensures r.Some? ==> |r.value| > 0 && forall k :: 0 <= k < |r.value| ==> !IsSpace(r.value[k])
    ensures name.Some? && r.Some? ==> r.value <= TrimLeft(name.value)
    ensures name.Some? && r.Some? ==> (|r.value| == |TrimLeft(name.value)| || IsSpace(TrimLeft(name.value)[|r.value|]))
    ensures r.None? <==> name.None? || forall k :: 0 <= k < |name.value| ==> IsSpace(name.value[k])
  {
    match name
    case None => None
    case Some(s) =>
      var t := TrimLeft(s);
      if |t| == 0 then None
      else
        Some(TakeWord(t))
  }

  /** `▶️` for a running task, `⏸️` for any other status. */
  function StatusMark(status: string): (r: string)
    ensures r == "\U{25B6}\U{FE0F}" <==> status == "em_andamento"
    ensures r == "\U{25B6}\U{FE0F}" || r == "\U{23F8}\U{FE0F}"
  {
    if status == "em_andamento" then "\U{25B6}\U{FE0F}" else "\U{23F8}\U{FE0F}"
  }

  const Greeting := "\U{26A0}\U{FE0F} Ol\U{E1} "
  const CountLead := "!\n\nS\U{E3}o 17:00h e voc\U{EA} tem "
  const CountTail := " tarefa(s) aberta(s):\n\n"

  /** The first two lines of a notification. */
  function Header(name: string, count: nat): string {
    Greeting + name + CountLead + NatToString(count) + CountTail
  }

  /** The greeting carries the name, and the number before the closing
      words reads back as the count. */
  lemma HeaderReadsBack(name: string, count: nat)
    ensures var r := Header(name, count);
      && |r| > |Greeting| + |name| + |CountLead| + |CountTail|
      && r[..|Greeting|] == Greeting && r[|Greeting|..|Greeting| + |name|] == name
      && r[|Greeting| + |name|..|Greeting| + |name| + |CountLead|] == CountLead
      && r[|r| - |CountTail|..] == CountTail
      && AllDigits(r[|Greeting| + |name| + |CountLead|..|r| - |CountTail|])
      && ParseNat(r[|Greeting| + |name| + |CountLead|..|r| - |CountTail|]) == count
  {
    ParseNatToString(count);
    var r := Header(name, count);
    assert r[|Greeting| + |name| + |CountLead|..|r| - |CountTail|] == NatToString(count);
  }

  /** What the job writes for one user: the greeting name, the stated count
      and the task lines' status marks and client names. */
  datatype Notification = Notification(user: string, header: string, count: nat, marks: seq<string>, clients: seq<string>)

  datatype JobError = NoFirstName(user: string) | MissingColumn(name: string)

  /** The lines of a user's tasks, reading the client from column `clientColumn`. */
  function TaskLines(tasks: seq<OpenTask>, clientColumn: string): (r: Result<seq<string>, JobError>)
    ensures r.Success? ==> |r.value| == |tasks|
    ensures r.Success? ==> forall k :: 0 <= k < |tasks| ==> Some(r.value[k]) == Column(tasks[k], clientColumn)
    ensures r.Failure? <==> exists k :: 0 <= k < |tasks| && Column(tasks[k], clientColumn).None?
  {
    if |tasks| == 0 then Success([])
    else match Column(tasks[0], clientColumn)
      case None => Failure(MissingColumn(clientColumn))
      case Some(c) =>
        match TaskLines(tasks[1..], clientColumn)
        case Failure(e) => Failure(e)
        case Success(rest) =>
          assert forall k :: 1 <= k < |tasks| ==> tasks[k] == tasks[1..][k - 1];
          Success([c] + rest)
  }

  /** The full name on a user's first row, which the greeting uses. */
  function NameOf(tasks: seq<OpenTask>): Option<string> {
    if |tasks| == 0 then None else tasks[0].fullName
  }

  /** The notification for one user, or the error that ends the job. */
  function Notify(u: string, tasks: seq<OpenTask>, clientColumn: string): (r: Result<Notification, JobError>)
    ensures r.Success? ==> r.value.user == u && r.value.count == |tasks| && |r.value.marks| == |tasks|
    ensures r.Success? ==> FirstWord(NameOf(tasks)).Some? && r.value.header == Header(FirstWord(NameOf(tasks)).value, |tasks|)
    ensures r.Success? ==> forall k :: 0 <= k < |tasks| ==> r.value.marks[k] == StatusMark(tasks[k].status)
    ensures FirstWord(NameOf(tasks)).None? ==> r == Failure(NoFirstName(u))
  {
    match FirstWord(NameOf(tasks))
    case None => Failure(NoFirstName(u))
    case Some(first) =>
      match TaskLines(tasks, clientColumn)
      case Failure(e) => Failure(e)
      case Success(clients) =>
        Success(Notification(u, Header(first, |tasks|), |tasks|, MarksOf(tasks), clients))
  }

  function MarksOf(tasks: seq<OpenTask>): (r: seq<string>)
    ensures |r| == |tasks| && forall k :: 0 <= k < |tasks| ==> r[k] == StatusMark(tasks[k].status)
  {
    if |tasks| == 0 then [] else [StatusMark(tasks[0].status)] + MarksOf(tasks[1..])
  }

  /** User `k` is the first of `users` whose notification fails, and it fails with `e`. */
  predicate FirstFailure(users: seq<string>, lists: map<string, seq<OpenTask>>, clientColumn: string, k: int, e: JobError)
    requires forall i :: 0 <= i < |users| ==> users[i] in lists
  {
    && 0 <= k < |users|
    && Notify(users[k], lists[users[k]], clientColumn) == Failure(e)
    && forall j :: 0 <= j < k ==> Notify(users[j], lists[users[j]], clientColumn).Success?
  }

  /** Notifications for `users` in order; the first error ends the job. */
  function NotifyAll(users: seq<string>, lists: map<string, seq<OpenTask>>, clientColumn: string): (r: Result<seq<Notification>, JobError>)
    requires forall k :: 0 <= k < |users| ==> users[k] in lists
    ensures r.Success? ==> |r.value| == |users|
    ensures r.Success? ==> forall k :: 0 <= k < |users| ==>
      Notify(users[k], lists[users[k]], clientColumn) == Success(r.value[k])
    ensures r.Failure? ==> exists k :: FirstFailure(users, lists, clientColumn, k, r.error)
  {
    if |users| == 0 then Success([])
    else match Notify(users[0], lists[users[0]], clientColumn)
      case Failure(e) =>
        FailedFirst(users, lists, clientColumn, e);
        Failure(e)
      case Success(n) =>
        match NotifyAll(users[1..], lists, clientColumn)
        case Failure(e) =>
          FailedLater(users, lists, clientColumn, e);
          Failure(e)
        case Success(rest) =>
          NotifiedCons(users, lists, clientColumn, n, rest);
          Success([n] + rest)
  }

  /** A failing head is the first failure. */
  lemma FailedFirst(users: seq<string>, lists: map<string, seq<OpenTask>>, clientColumn: string, e: JobError)
    requires |users| > 0 && forall k :: 0 <= k < |users| ==> users[k] in lists
    requires Notify(users[0], lists[users[0]], clientColumn) == Failure(e)
    ensures exists k :: FirstFailure(users, lists, clientColumn, k, e)
  {
    assert FirstFailure(users, lists, clientColumn, 0, e);
  }

  /** The first failing user of the tail is the first failing user of the
      whole list when the head succeeds. */
  lemma FailedLater(users: seq<string>, lists: map<string, seq<OpenTask>>, clientColumn: string, e: JobError)
    requires |users| > 0 && forall k :: 0 <= k < |users| ==> users[k] in lists
    requires Notify(users[0], lists[users[0]], clientColumn).Success?
    requires exists k :: FirstFailure(users[1..], lists, clientColumn, k, e)
    ensures exists k :: FirstFailure(users, lists, clientColumn, k, e)
  {
    var k :| FirstFailure(users[1..], lists, clientColumn, k, e);
    assert users[k + 1] == users[1..][k];
    forall j | 0 <= j < k + 1
      ensures Notify(users[j], lists[users[j]], clientColumn).Success?
    {
      if j > 0 {
        assert users[j] == users[1..][j - 1];
      }
    }
    assert FirstFailure(users, lists, clientColumn, k + 1, e);
  }


  lemma NotifiedCons(users: seq<string>, lists: map<string, seq<OpenTask>>, clientColumn: string, n: Notification, rest: seq<Notification>)
    requires |users| > 0 && forall k :: 0 <= k < |users| ==> users[k] in lists
    requires Notify(users[0], lists[users[0]], clientColumn) == Success(n)
    requires |rest| == |users| - 1
    requires forall k :: 0 <= k < |rest| ==> Notify(users[1..][k], lists[users[1..][k]], clientColumn) == Success(rest[k])
    ensures forall k :: 0 <= k < |users| ==> Notify(users[k], lists[users[k]], clientColumn) == Success(([n] + rest)[k])
  {
    var f := (u: string) => if u in lists then Notify(u, lists[u], clientColumn) else Failure(NoFirstName(u));
    var g := (x: Notification) => Success(x);
    ConsPointwise(users, f, n, rest, g);
  }

  /** Pointwise agreement extends to a sequence with one more element in front. */
  lemma ConsPointwise<A, B, C>(xs: seq<A>, f: A -> C, y: B, ys: seq<B>, g: B -> C)
    requires |xs| > 0 && f(xs[0]) == g(y) && |ys| == |xs| - 1
    requires forall k :: 0 <= k < |ys| ==> f(xs[1..][k]) == g(ys[k])
    ensures forall k :: 0 <= k < |xs| ==> f(xs[k]) == g(([y] + ys)[k])
  {
    forall k | 0 <= k < |xs|
      ensures f(xs[k]) == g(([y] + ys)[k])
    {
      if k > 0 {
        assert xs[k] == xs[1..][k - 1];
      }
    }
  }

  /** The column the job reads the client name from. */
  const ClientColumnAsWritten: string := "cliente_nome"

  /** The job as written: an empty result notifies nobody; otherwise it
      groups, then builds each user's message reading the client from
      `cliente_nome`, which the query does not select, so the first message
      raises and nothing is inserted or committed. */
  method AlertJobAsWritten(rows: seq<OpenTask>) returns (r: Result<seq<Notification>, JobError>)
    ensures |rows| == 0 ==> r == Success([])
    ensures |rows| > 0 ==> r.Failure?
  {
    if |rows| == 0 {
      return Success([]);
    }
    var order, lists := GroupByUser(rows);
    r := NotifyAll(order, lists, ClientColumnAsWritten);
    UsersInOrderComplete(rows, 0);
    TasksOfPresent(rows, 0);
    var k :| 0 <= k < |order| && order[k] == rows[0].user;
    NotifyAllFails(order, lists, k);
  }

  /** Any user with a task ends the as-written job in an error. */
  lemma NotifyAllFails(users: seq<string>, lists: map<string, seq<OpenTask>>, k: nat)
    requires forall j :: 0 <= j < |users| ==> users[j] in lists
    requires k < |users| && |lists[users[k]]| > 0
    ensures NotifyAll(users, lists, ClientColumnAsWritten).Failure?
  {
    var tasks := lists[users[k]];
    assert Column(tasks[0], ClientColumnAsWritten).None?;
    assert Notify(users[k], tasks, ClientColumnAsWritten).Failure?;
  }

  /** The job reading the client from `nom_cliente`, the column the query
      selects: one notification per user in order of first appearance,
      each stating that user's number of open tasks, and together covering
      every row. It fails only for a user whose first row has no first name. */
  method AlertJob(rows: seq<OpenTask>) returns (r: Result<seq<Notification>, JobError>)
    ensures |rows| == 0 ==> r == Success([])
    ensures r.Success? ==> |r.value| == |UsersInOrder(rows)|
    ensures r.Success? ==> forall k :: 0 <= k < |r.value| ==>
      (r.value[k].user == UsersInOrder(rows)[k] && r.value[k].count == |TasksOf(rows, r.value[k].user)|
      && r.value[k].clients == ClientsOf(TasksOf(rows, r.value[k].user)))
    ensures r.Failure? ==> r.error.NoFirstName?
    ensures r.Success? <==> forall u :: u in UsersInOrder(rows) ==> Greetable(TasksOf(rows, u))
    ensures r.Failure? ==>
      exists k :: FirstNameless(rows, k) && r.error == NoFirstName(UsersInOrder(rows)[k])
  {
    if |rows| == 0 {
      return Success([]);
    }
    var order, lists := GroupByUser(rows);
    r := NotifyAll(order, lists, "nom_cliente");
    GroupedNotifications(rows, order, lists, r);
    GroupedOutcome(rows, order, lists, r);
  }

  /** The first row of `tasks` carries a name with a first word to greet. */
  predicate Greetable(tasks: seq<OpenTask>) {
    FirstWord(NameOf(tasks)).Some?
  }

  /** The `k`-th user of `rows` is the first one that cannot be greeted. */
  predicate FirstNameless(rows: seq<OpenTask>, k: int) {
    && 0 <= k < |UsersInOrder(rows)|
    && !Greetable(TasksOf(rows, UsersInOrder(rows)[k]))
    && forall j :: 0 <= j < k ==> Greetable(TasksOf(rows, UsersInOrder(rows)[j]))
  }

  /** Reading `nom_cliente`, one user's notification fails exactly when that
      user cannot be greeted, and then with that user's error. */
  lemma NotifyByName(u: string, tasks: seq<OpenTask>)
    ensures Notify(u, tasks, "nom_cliente").Success? <==> Greetable(tasks)
    ensures !Greetable(tasks) ==> Notify(u, tasks, "nom_cliente") == Failure(NoFirstName(u))
  {
    ClientsOfLines(tasks);
  }

  /** Reading `nom_cliente`, the notifications succeed exactly when every
      user can be greeted; otherwise the error names the first user who
      cannot. */
  lemma NotifyAllByName(users: seq<string>, lists: map<string, seq<OpenTask>>)
    requires forall k :: 0 <= k < |users| ==> users[k] in lists
    ensures NotifyAll(users, lists, "nom_cliente").Success? <==>
      forall k :: 0 <= k < |users| ==> Greetable(lists[users[k]])
    ensures NotifyAll(users, lists, "nom_cliente").Failure? ==>
      exists k :: 0 <= k < |users| && NotifyAll(users, lists, "nom_cliente").error == NoFirstName(users[k])
        && !Greetable(lists[users[k]])
        && forall j :: 0 <= j < k ==> Greetable(lists[users[j]])
  {
    var r := NotifyAll(users, lists, "nom_cliente");
    forall k | 0 <= k < |users|
      ensures Notify(users[k], lists[users[k]], "nom_cliente").Success? <==> Greetable(lists[users[k]])
      ensures !Greetable(lists[users[k]]) ==> Notify(users[k], lists[users[k]], "nom_cliente") == Failure(NoFirstName(users[k]))
    {
      NotifyByName(users[k], lists[users[k]]);
    }
    if r.Failure? {
      var k :| FirstFailure(users, lists, "nom_cliente", k, r.error);
      assert !Greetable(lists[users[k]]);
    }
  }

  /** The grouped job succeeds exactly when every user can be greeted, and
      otherwise fails on the first user who cannot. */
  lemma GroupedOutcome(rows: seq<OpenTask>, order: seq<string>, lists: map<string, seq<OpenTask>>,
                       r: Result<seq<Notification>, JobError>)
    requires order == UsersInOrder(rows)
    requires forall u :: u in lists <==> u in order
    requires forall u :: u in lists ==> lists[u] == TasksOf(rows, u)
    requires r == NotifyAll(order, lists, "nom_cliente")
    ensures r.Success? <==> forall u :: u in UsersInOrder(rows) ==> Greetable(TasksOf(rows, u))
    ensures r.Failure? ==>
      exists k :: FirstNameless(rows, k) && r.error == NoFirstName(UsersInOrder(rows)[k])
  {
    NotifyAllByName(order, lists);
    assert forall k :: 0 <= k < |order| ==> lists[order[k]] == TasksOf(rows, order[k]);
    if r.Failure? {
      var k :| 0 <= k < |order| && r.error == NoFirstName(order[k]) && !Greetable(lists[order[k]])
        && forall j :: 0 <= j < k ==> Greetable(lists[order[j]]);
      assert FirstNameless(rows, k);
    }
  }

  /** The notifications built from a grouping are one per user, in order. */
  lemma GroupedNotifications(rows: seq<OpenTask>, order: seq<string>, lists: map<string, seq<OpenTask>>,
                             r: Result<seq<Notification>, JobError>)
    requires order == UsersInOrder(rows)
    requires forall u :: u in lists <==> u in order
    requires forall u :: u in lists ==> lists[u] == TasksOf(rows, u)
    requires r == NotifyAll(order, lists, "nom_cliente")
    ensures r.Success? ==> |r.value| == |UsersInOrder(rows)|
    ensures r.Success? ==> forall k :: 0 <= k < |r.value| ==>
      (r.value[k].user == UsersInOrder(rows)[k] && r.value[k].count == |TasksOf(rows, r.value[k].user)|
      && r.value[k].clients == ClientsOf(TasksOf(rows, r.value[k].user)))
    ensures r.Failure? ==> r.error.NoFirstName?
  {
    NotifyAllOnlyNameErrors(order, lists);
    NotifyAllContents(order, lists);
  }

  lemma NotifyAllContents(users: seq<string>, lists: map<string, seq<OpenTask>>)
    requires forall k :: 0 <= k < |users| ==> users[k] in lists
    ensures NotifyAll(users, lists, "nom_cliente").Success? ==> forall k :: 0 <= k < |users| ==>
      (NotifyAll(users, lists, "nom_cliente").value[k].user == users[k]
      && NotifyAll(users, lists, "nom_cliente").value[k].count == |lists[users[k]]|
      && NotifyAll(users, lists, "nom_cliente").value[k].clients == ClientsOf(lists[users[k]]))
  {
    var r := NotifyAll(users, lists, "nom_cliente");
    if r.Success? {
      forall k | 0 <= k < |users|
        ensures r.value[k].clients == ClientsOf(lists[users[k]])
      {
        ClientsOfLines(lists[users[k]]);
      }
    }
  }

  function ClientsOf(tasks: seq<OpenTask>): (r: seq<string>)
    ensures |r| == |tasks| && forall k :: 0 <= k < |tasks| ==> r[k] == tasks[k].clientName
  {
    if |tasks| == 0 then [] else [tasks[0].clientName] + ClientsOf(tasks[1..])
  }

  lemma {:induction false} ClientsOfLines(tasks: seq<OpenTask>)
    ensures TaskLines(tasks, "nom_cliente") == Success(ClientsOf(tasks))
  {
    if |tasks| > 0 {
      ClientsOfLines(tasks[1..]);
    }
  }

  lemma {:induction false} NotifyAllOnlyNameErrors(users: seq<string>, lists: map<string, seq<OpenTask>>)
    requires forall k :: 0 <= k < |users| ==> users[k] in lists
    ensures NotifyAll(users, lists, "nom_cliente").Failure? ==>
      NotifyAll(users, lists, "nom_cliente").error.NoFirstName?
  {
    if |users| > 0 {
      ClientsOfLines(lists[users[0]]);
      NotifyAllOnlyNameErrors(users[1..], lists);
      assert forall k :: 1 <= k < |users| ==> users[k] == users[1..][k - 1];
    }
  }
}

=== FILE: chat_format.dfy ===
/** Pure helpers of the chat page (static/js/chat.js): the `HH:MM:SS` timer
    text, CNPJ/CPF punctuation, the HTML-escape step applied to bot replies,
    and the checks a backdated entry passes before it is sent. */
module ChatFormat {
  import opened Wrappers
  import opened Text

  // ---------------------------------------------------------------------
  // formatarDuracao
  // ---------------------------------------------------------------------

  /** JavaScript's `%`: the remainder takes the sign of the dividend. */
  function JsRem(a: int, b: int): (r: int)
    requires b > 0
    ensures a >= 0 ==> 0 <= r < b
    ensures a < 0 ==> -b < r <= 0
  {
    if a >= 0 then a % b else -((-a) % b)
  }

  /** `formatarDuracao(ms)`: whole seconds by `Math.floor`, then hours,
      minutes and seconds, each `String(n).padStart(2, '0')`. */
  function FormatDuration(ms: int): (r: string)
    ensures ms < 0 ==> |r| > 0 && r[0] == '-'
    ensures |r| >= 8
  {
    var secs := ms / 1000;
    var hours := secs / 3600;
    var minutes := JsRem(secs, 3600) / 60;
    var rest := JsRem(secs, 60);
    Pad2(IntToString(hours)) + ":" + Pad2(IntToString(minutes)) + ":" + Pad2(IntToString(rest))
  }

  /** The hour, minute and second fields of `H..H:MM:SS`. */
  function SplitClock(r: string): Option<(string, string, string)> {
    if |r| < 8 || r[|r| - 3] != ':' || r[|r| - 6] != ':' then None
    else Some((r[..|r| - 6], r[|r| - 5..|r| - 3], r[|r| - 2..]))
  }

  /** Reads `H..H:MM:SS` back into a number of seconds; `None` when the text
      does not have that shape or a field is 60 or more. */
  function ReadDuration(r: string): Option<nat> {
    match SplitClock(r)
    case None => None
    case Some((h, m, s)) =>
      if !AllDigits(h) || !AllDigits(m) || !AllDigits(s) then None
      else ClockSeconds(ParseNat(h), ParseNat(m), ParseNat(s))
  }

  /** Seconds denoted by clock fields; minutes and seconds must be below 60. */
  function ClockSeconds(h: nat, m: nat, s: nat): Option<nat> {
    if m >= 60 || s >= 60 then None else Some(h * 3600 + m * 60 + s)
  }

  lemma NatToStringTwoDigits(n: nat)
    requires n < 100
    ensures |NatToString(n)| <= 2
  {
    if n >= 10 {
      assert NatToString(n) == NatToString(n / 10) + [DigitChar(n % 10)];
    }
  }

  lemma ReadPad2(n: nat)
    ensures AllDigits(Pad2(NatToString(n)))
    ensures ParseNat(Pad2(NatToString(n))) == n
    ensures n < 100 ==> |Pad2(NatToString(n))| == 2
  {
    var s := NatToString(n);
    ParseNatToString(n);
    if |s| < 2 {
      ParseNatLeadingZeros(2 - |s|, s);
    }
    if n < 100 {
      NatToStringTwoDigits(n);
    }
  }

  lemma SplitJoined(H: string, M: string, S: string)
    requires |H| >= 2 && |M| == 2 && |S| == 2
    ensures SplitClock(H + ":" + M + ":" + S) == Some((H, M, S))
  {
    var r := H + ":" + M + ":" + S;
    assert r[..|r| - 6] == H;
    assert r[|r| - 5..|r| - 3] == M;
    assert r[|r| - 2..] == S;
  }

  lemma SplitSeconds(secs: nat, h: nat, m: nat, s: nat)
    requires h == secs / 3600 && m == (secs % 3600) / 60 && s == secs % 60
    ensures m < 60 && s < 60
    ensures h * 3600 + m * 60 + s == secs
  {
    var r := secs % 3600;
    assert secs == 3600 * h + r && r == 60 * m + r % 60;
    DivModSixty(secs, 60 * h + m, r % 60);
  }

  /** Quotient and remainder by 60 are determined by any such split. */
  lemma DivModSixty(a: nat, q: nat, x: nat)
    requires a == 60 * q + x && x < 60
    ensures a % 60 == x && a / 60 == q
  {
  }

  /** The text of non-negative clock fields. */
  function Clock(h: nat, m: nat, s: nat): string {
    Pad2(NatToString(h)) + ":" + Pad2(NatToString(m)) + ":" + Pad2(NatToString(s))
  }

  lemma ReadClock(h: nat, m: nat, s: nat, secs: nat)
    requires m < 60 && s < 60 && secs == h * 3600 + m * 60 + s
    ensures ReadDuration(Clock(h, m, s)) == Some(secs)
  {
    ReadPad2(h);
    ReadPad2(m);
    ReadPad2(s);
    SplitJoined(Pad2(NatToString(h)), Pad2(NatToString(m)), Pad2(NatToString(s)));
  }

  lemma FormatDurationIsClock(ms: int)
    requires ms >= 0
    ensures FormatDuration(ms) == Clock(ms / 1000 / 3600, (ms / 1000 % 3600) / 60, ms / 1000 % 60)
  {
    var secs := ms / 1000;
    assert JsRem(secs, 3600) == secs % 3600 && JsRem(secs, 60) == secs % 60;
  }

  /** For a non-negative duration the text has two-digit minute and second
      fields below 60, at least two hour digits, and reads back as the
      whole number of seconds in `ms`. */
  lemma FormatDurationReadsBack(ms: int)
    requires ms >= 0
    ensures ReadDuration(FormatDuration(ms)) == Some(ms / 1000)
  {
    FormatDurationIsClock(ms);
    ReadSplitClock(ms / 1000);
  }

  /** A number of seconds split into clock fields reads back as itself. */
  lemma ReadSplitClock(secs: nat)
    ensures ReadDuration(Clock(secs / 3600, (secs % 3600) / 60, secs % 60)) == Some(secs)
  {
    var h, m, s := secs / 3600, (secs % 3600) / 60, secs % 60;
    SplitSeconds(secs, h, m, s);
    ReadClock(h, m, s, secs);
  }

  // ---------------------------------------------------------------------
  // formatarCNPJ
  // ---------------------------------------------------------------------

  /** The punctuation `formatarCNPJ` inserts. */
  predicate IsPunct(c: char) {
    c == '.' || c == '/' || c == '-'
  }

  function StripPunct(s: string): (r: string)
    ensures forall i :: 0 <= i < |r| ==> !IsPunct(r[i])
    ensures |r| <= |s|
  {
    if |s| == 0 then ""
    else if IsPunct(s[0]) then StripPunct(s[1..])
    else [s[0]] + StripPunct(s[1..])
  }

  lemma StripPunctAppend(a: string, b: string)
    ensures StripPunct(a + b) == StripPunct(a) + StripPunct(b)
  {
    if |a| > 0 {
      assert (a + b)[1..] == a[1..] + b;
      StripPunctAppend(a[1..], b);
    } else {
      assert a + b == b;
    }
  }

  /** `n` digits start at position `j` of `s`. */
  predicate RunAt(s: string, j: nat, n: nat) {
    j + n <= |s| && AllDigits(s[j..j + n])
  }

  lemma RunAtTail(s: string, j: nat, n: nat)
    requires |s| > 0
    ensures RunAt(s, j + 1, n) == RunAt(s[1..], j, n)
  {
    if j + 1 + n <= |s| {
      assert s[j + 1..j + 1 + n] == s[1..][j..j + n];
    }
  }

  /** The leftmost position where `n` digits follow one another: where a
      regular expression made of `n` digit groups first matches. */
  function FindDigitRun(s: string, n: nat): (r: Option<nat>)
    ensures r.Some? ==> RunAt(s, r.value, n)
    ensures r.Some? ==> forall j: nat :: j < r.value ==> !RunAt(s, j, n)
    ensures r.None? ==> forall j: nat :: !RunAt(s, j, n)
    decreases |s|
  {
    if |s| < n then None
    else if AllDigits(s[..n]) then
      assert s[0..n] == s[..n];
      Some(0)
    else
      assert s[0..n] == s[..n];
      match FindDigitRun(s[1..], n)
      case None =>
        assert forall j: nat :: !RunAt(s, j, n) by {
          forall j: nat | 0 < j ensures !RunAt(s, j, n) {
            RunAtTail(s, j - 1, n);
          }
        }
        None
      case Some(k) =>
        RunAtTail(s, k, n);
        assert forall j: nat :: 0 < j < k + 1 ==> !RunAt(s, j, n) by {
          forall j: nat | 0 < j < k + 1 ensures !RunAt(s, j, n) {
            RunAtTail(s, j - 1, n);
          }
        }
        Some(k + 1)
  }

  /** `ddd.ddd.ddd-dd` for eleven digits. */
  function CpfMask(d: string): (r: string)
    requires |d| == 11
  {
    d[..3] + "." + d[3..6] + "." + d[6..9] + "-" + d[9..]
  }

  /** `dd.ddd.ddd/dddd-dd` for fourteen digits. */
  function CnpjMask(d: string): (r: string)
    requires |d| == 14
  {
    d[..2] + "." + d[2..5] + "." + d[5..8] + "/" + d[8..12] + "-" + d[12..]
  }

  /** `formatarCNPJ(cnpj)`: empty or missing input gives the empty string;
      eleven characters get the CPF mask (when they are all digits), any
      other length gets the CNPJ mask on its first run of fourteen digits. */
  function FormatCnpj(cnpj: Option<string>): (r: string)
    ensures cnpj.None? || cnpj == Some("") ==> r == ""
    ensures cnpj.Some? && |cnpj.value| == 11 && AllDigits(cnpj.value) ==> r == CpfMask(cnpj.value)
    ensures cnpj.Some? && |cnpj.value| == 14 && AllDigits(cnpj.value) ==> r == CnpjMask(cnpj.value)
    ensures cnpj.Some? && |cnpj.value| < 14 && |cnpj.value| != 11 ==> r == cnpj.value
  {
    match cnpj
    case None => ""
    case Some(s) =>
      if s == "" then ""
      else if |s| == 11 then
        match FindDigitRun(s, 11)
        case None => s
        case Some(i) => CpfMask(s)
      else
        match FindDigitRun(s, 14)
        case None => s
        case Some(i) =>
          assert |s| == 14 && AllDigits(s) ==> i == 0 && s[..i] == "" && s[i..i + 14] == s && s[i + 14..] == "";
          s[..i] + CnpjMask(s[i..i + 14]) + s[i + 14..]
  }

  lemma StripCpfMask(d: string)
    requires |d| == 11 && AllDigits(d)
    ensures StripPunct(CpfMask(d)) == d
  {
    var a1 := d[..3] + "." + d[3..6];
    var a2 := a1 + "." + d[6..9];
    StripSep(d[..3], ".", d[3..6]);
    StripSep(a1, ".", d[6..9]);
    StripSep(a2, "-", d[9..]);
    DigitPieces(d, 3, 6, 9);
  }

  lemma StripCnpjMask(d: string)
    requires |d| == 14 && AllDigits(d)
    ensures StripPunct(CnpjMask(d)) == d
  {
    var a1 := d[..2] + "." + d[2..5];
    var a2 := a1 + "." + d[5..8];
    var a3 := a2 + "/" + d[8..12];
    StripSep(d[..2], ".", d[2..5]);
    StripSep(a1, ".", d[5..8]);
    StripSep(a2, "/", d[8..12]);
    StripSep(a3, "-", d[12..]);
    DigitPieces(d, 2, 5, 8);
    NoPunctFixed(d[8..12]);
    NoPunctFixed(d[12..]);
    assert d[8..] == d[8..12] + d[12..];
  }

  /** Dropping one punctuation character between two texts. */
  lemma StripSep(a: string, p: string, b: string)
    requires |p| == 1 && IsPunct(p[0])
    ensures StripPunct(a + p + b) == StripPunct(a) + StripPunct(b)
  {
    StripPunctAppend(a + p, b);
    StripPunctAppend(a, p);
    assert StripPunct(p) == StripPunct(p[1..]);
  }

  /** Digit pieces of `d` cut at `i`, `j` and `k` strip to themselves. */
  lemma DigitPieces(d: string, i: nat, j: nat, k: nat)
    requires i <= j <= k <= |d| && AllDigits(d)
    ensures StripPunct(d[..i]) == d[..i] && StripPunct(d[i..j]) == d[i..j] && StripPunct(d[j..k]) == d[j..k]
    ensures StripPunct(d[k..]) == d[k..]
    ensures d == d[..i] + d[i..j] + d[j..k] + d[k..]
  {
    NoPunctSlice(d, 0, i);
    NoPunctSlice(d, i, j);
    NoPunctSlice(d, j, k);
    NoPunctSlice(d, k, |d|);
    assert d[..i] == d[0..i] && d[k..] == d[k..|d|];
    Pieces(d, i, j, k);
  }

  lemma Pieces(d: string, i: nat, j: nat, k: nat)
    requires i <= j <= k <= |d|
    ensures d == d[..i] + d[i..j] + d[j..k] + d[k..]
  {
    assert d[..j] == d[..i] + d[i..j];
    assert d[..k] == d[..j] + d[j..k];
    assert d == d[..k] + d[k..];
  }

  lemma NoPunctSlice(d: string, i: nat, j: nat)
    requires i <= j <= |d| && AllDigits(d)
    ensures StripPunct(d[i..j]) == d[i..j]
  {
    assert AllDigits(d[i..j]) by {
      forall k | 0 <= k < j - i
        ensures IsDigit(d[i..j][k])
      {
        assert d[i..j][k] == d[i + k];
      }
    }
    NoPunctFixed(d[i..j]);
  }

  lemma {:induction false} NoPunctFixed(s: string)
    requires AllDigits(s)
    ensures StripPunct(s) == s
  {
    if |s| > 0 {
      NoPunctFixed(s[1..]);
      assert s == [s[0]] + s[1..];
    }
  }

  /** Putting a mask in place of the digits it came from changes nothing
      once punctuation is stripped. */
  lemma StripAround(pre: string, mask: string, d: string, post: string)
    requires StripPunct(mask) == StripPunct(d)
    ensures StripPunct(pre + mask + post) == StripPunct(pre + d + post)
  {
    StripPunctAppend(pre + mask, post);
    StripPunctAppend(pre, mask);
    StripPunctAppend(pre + d, post);
    StripPunctAppend(pre, d);
  }

  lemma FormatElevenStrips(s: string)
    requires |s| == 11
    ensures StripPunct(FormatCnpj(Some(s))) == StripPunct(s)
  {
    match FindDigitRun(s, 11)
    case None =>
    case Some(i) =>
      assert s[0..11] == s;
      StripCpfMask(s);
      NoPunctFixed(s);
  }

  lemma FormatOtherStrips(s: string)
    requires s != "" && |s| != 11
    ensures StripPunct(FormatCnpj(Some(s))) == StripPunct(s)
  {
    match FindDigitRun(s, 14)
    case None =>
    case Some(i) =>
      assert FormatCnpj(Some(s)) == s[..i] + CnpjMask(s[i..i + 14]) + s[i + 14..];
      MaskedRunStrips(s, i);
  }

  lemma MaskedRunStrips(s: string, i: nat)
    requires i + 14 <= |s| && AllDigits(s[i..i + 14])
    ensures StripPunct(s[..i] + CnpjMask(s[i..i + 14]) + s[i + 14..]) == StripPunct(s)
  {
    StripCnpjMask(s[i..i + 14]);
    NoPunctFixed(s[i..i + 14]);
    StripAroundSlice(s, i, 14, CnpjMask(s[i..i + 14]));
  }

  /** Replacing a slice by text that strips the same changes nothing once stripped. */
  lemma StripAroundSlice(s: string, i: nat, n: nat, mask: string)
    requires i + n <= |s| && StripPunct(mask) == StripPunct(s[i..i + n])
    ensures StripPunct(s[..i] + mask + s[i + n..]) == StripPunct(s)
  {
    StripAround(s[..i], mask, s[i..i + n], s[i + n..]);
    assert s == s[..i] + s[i..i + n] + s[i + n..];
  }

  /** The mask only inserts punctuation: removing `.`, `/` and `-` from the
      result gives the input with the same characters removed, and for an
      eleven- or fourteen-digit input gives the input itself. */
  lemma FormatCnpjOnlyAddsPunctuation(s: string)
    ensures StripPunct(FormatCnpj(Some(s))) == StripPunct(s)
    ensures (|s| == 11 || |s| == 14) && AllDigits(s) ==> StripPunct(FormatCnpj(Some(s))) == s
  {
    if |s| == 11 {
      FormatElevenStrips(s);
    } else if s != "" {
      FormatOtherStrips(s);
    }
    if (|s| == 11 || |s| == 14) && AllDigits(s) {
      NoPunctFixed(s);
    }
  }

  // ---------------------------------------------------------------------
  // The escape step of processarFormatacao
  // ---------------------------------------------------------------------

  /** `s.replace(/c/g, rep)` for a one-character pattern. */
  function ReplaceAll(s: string, c: char, rep: string): (r: string)
    ensures c !in s ==> r == s
  {
    if |s| == 0 then ""
    else (if s[0] == c then rep else [s[0]]) + ReplaceAll(s[1..], c, rep)
  }

  lemma ReplaceAllAppend(a: string, b: string, c: char, rep: string)
    ensures ReplaceAll(a + b, c, rep) == ReplaceAll(a, c, rep) + ReplaceAll(b, c, rep)
  {
    if |a| > 0 {
      assert (a + b)[1..] == a[1..] + b;
      ReplaceAllAppend(a[1..], b, c, rep);
    } else {
      assert a + b == b;
    }
  }

  /** `escapeHtml`: every character is escaped on its own, so the result
      holds no `<`, `>`, `"` or `'` and reads back as the message. */
  function EscapeHtml(s: string): (r: string)
    ensures r == EscapeEach(s)
    ensures forall i :: 0 <= i < |r| ==> !IsMarkup(r[i])
    ensures Unescape(r) == s
  {
    ReplaceChainIsPerCharacter(s);
    EscapeEachRoundTrip(s);
    ReplaceChain(s)
  }

  /** The five chained replacements, `&` first so that the entities the
      later passes insert are not escaped again. */
  function ReplaceChain(s: string): string {
    var s1 := ReplaceAll(s, '&', "&amp;");
    var s2 := ReplaceAll(s1, '<', "&lt;");
    var s3 := ReplaceAll(s2, '>', "&gt;");
    var s4 := ReplaceAll(s3, '"', "&quot;");
    ReplaceAll(s4, '\'', "&#039;")
  }

  /** What one input character becomes. */
  function Entity(c: char): string {
    match c
    case '&' => "&amp;"
    case '<' => "&lt;"
    case '>' => "&gt;"
    case '"' => "&quot;"
    case '\'' => "&#039;"
    case _ => [c]
  }

  /** The character-by-character reading of the escape step. */
  function EscapeEach(s: string): (r: string)
    ensures forall i :: 0 <= i < |r| ==> !IsMarkup(r[i])
  {
    if |s| == 0 then "" else Entity(s[0]) + EscapeEach(s[1..])
  }

  predicate IsMarkup(c: char) {
    c == '<' || c == '>' || c == '"' || c == '\''
  }

  lemma ReplaceChainAppend(a: string, b: string)
    ensures ReplaceChain(a + b) == ReplaceChain(a) + ReplaceChain(b)
  {
    var s1 := ReplaceAll(a + b, '&', "&amp;");
    ReplaceAllAppend(a, b, '&', "&amp;");
    var a1, b1 := ReplaceAll(a, '&', "&amp;"), ReplaceAll(b, '&', "&amp;");
    ReplaceAllAppend(a1, b1, '<', "&lt;");
    var a2, b2 := ReplaceAll(a1, '<', "&lt;"), ReplaceAll(b1, '<', "&lt;");
    ReplaceAllAppend(a2, b2, '>', "&gt;");
    var a3, b3 := ReplaceAll(a2, '>', "&gt;"), ReplaceAll(b2, '>', "&gt;");
    ReplaceAllAppend(a3, b3, '"', "&quot;");
    var a4, b4 := ReplaceAll(a3, '"', "&quot;"), ReplaceAll(b3, '"', "&quot;");
    ReplaceAllAppend(a4, b4, '\'', "&#039;");
  }

  lemma ReplaceChainChar(c: char)
    ensures ReplaceChain([c]) == Entity(c)
  {
    if c == '&' {
      EscapeAmp();
    } else if c == '<' {
      EscapeLt();
    } else if c == '>' {
      EscapeGt();
    } else if c == '"' {
      EscapeQuot();
    } else if c == '\'' {
      EscapeApos();
    } else {
      EscapePlain(c);
    }
  }

  lemma EscapeAmp()
    ensures ReplaceChain("&") == "&amp;"
  {
    ReplaceOne('&', '&', "&amp;");
    AmpUntouchedByAngles();
    AmpUntouchedByQuotes();
  }

  lemma AmpUntouchedByAngles()
    ensures ReplaceAll("&amp;", '<', "&lt;") == "&amp;"
    ensures ReplaceAll("&amp;", '>', "&gt;") == "&amp;"
  {
  }

  lemma AmpUntouchedByQuotes()
    ensures ReplaceAll("&amp;", '"', "&quot;") == "&amp;"
    ensures ReplaceAll("&amp;", '\'', "&#039;") == "&amp;"
  {
  }

  lemma EscapeLt()
    ensures ReplaceChain("<") == "&lt;"
  {
    ReplaceOne('<', '&', "&amp;");
    ReplaceOne('<', '<', "&lt;");
    LtUntouched();
  }

  lemma LtUntouched()
    ensures ReplaceAll("&lt;", '>', "&gt;") == "&lt;"
    ensures ReplaceAll("&lt;", '"', "&quot;") == "&lt;"
    ensures ReplaceAll("&lt;", '\'', "&#039;") == "&lt;"
  {
  }

  lemma EscapeGt()
    ensures ReplaceChain(">") == "&gt;"
  {
    ReplaceOne('>', '&', "&amp;");
    ReplaceOne('>', '<', "&lt;");
    ReplaceOne('>', '>', "&gt;");
    GtUntouched();
  }

  lemma GtUntouched()
    ensures ReplaceAll("&gt;", '"', "&quot;") == "&gt;"
    ensures ReplaceAll("&gt;", '\'', "&#039;") == "&gt;"
  {
  }

  lemma EscapeQuot()
    ensures ReplaceChain("\"") == "&quot;"
  {
    ReplaceOne('"', '&', "&amp;");
    ReplaceOne('"', '<', "&lt;");
    ReplaceOne('"', '>', "&gt;");
    ReplaceOne('"', '"', "&quot;");
    QuotUntouched();
  }

  lemma QuotUntouched()
    ensures ReplaceAll("&quot;", '\'', "&#039;") == "&quot;"
  {
  }

  lemma EscapeApos()
    ensures ReplaceChain("'") == "&#039;"
  {
    ReplaceOne('\'', '&', "&amp;");
    ReplaceOne('\'', '<', "&lt;");
    ReplaceOne('\'', '>', "&gt;");
    ReplaceOne('\'', '"', "&quot;");
    ReplaceOne('\'', '\'', "&#039;");
  }

  lemma EscapePlain(c: char)
    requires c != '&' && c != '<' && c != '>' && c != '"' && c != '\''
    ensures ReplaceChain([c]) == [c]
  {
    ReplaceOne(c, '&', "&amp;");
    ReplaceOne(c, '<', "&lt;");
    ReplaceOne(c, '>', "&gt;");
    ReplaceOne(c, '"', "&quot;");
    ReplaceOne(c, '\'', "&#039;");
  }

  lemma ReplaceOne(c: char, x: char, rep: string)
    ensures ReplaceAll([c], x, rep) == if c == x then rep else [c]
  {
    assert [c][1..] == [];
  }

  /** The chained passes escape every character on its own: `&` is not
      escaped twice. */
  lemma {:induction false} ReplaceChainIsPerCharacter(s: string)
    ensures ReplaceChain(s) == EscapeEach(s)
  {
    if |s| > 0 {
      assert s == [s[0]] + s[1..];
      ReplaceChainAppend([s[0]], s[1..]);
      ReplaceChainChar(s[0]);
      ReplaceChainIsPerCharacter(s[1..]);
    }
  }

  /** The character at the front of escaped text and how many characters
      stand for it: one of the five entities, or the character itself. */
  function UnescapeStep(s: string): (r: (char, nat))
    requires |s| > 0
    ensures 1 <= r.1 <= |s|
  {
    if |s| >= 5 && s[..5] == "&amp;" then ('&', 5)
    else if |s| >= 4 && s[..4] == "&lt;" then ('<', 4)
    else if |s| >= 4 && s[..4] == "&gt;" then ('>', 4)
    else if |s| >= 6 && s[..6] == "&quot;" then ('"', 6)
    else if |s| >= 6 && s[..6] == "&#039;" then ('\'', 6)
    else (s[0], 1)
  }

  /** Reads the five entities back; any other character stands for itself. */
  function Unescape(s: string): string
    decreases |s|
  {
    if |s| == 0 then ""
    else
      var (c, n) := UnescapeStep(s);
      [c] + Unescape(s[n..])
  }

  lemma UnescapeStepEntity(c: char, rest: string)
    ensures UnescapeStep(Entity(c) + rest) == (c, |Entity(c)|)
  {
    var t := Entity(c) + rest;
    if c == '&' {
      assert t[..5] == "&amp;";
    } else if c == '<' {
      assert t[1] == 'l';
      assert t[..4] == "&lt;";
    } else if c == '>' {
      assert t[1] == 'g';
      assert t[..4] == "&gt;";
    } else if c == '"' {
      assert t[1] == 'q';
      assert t[..6] == "&quot;";
    } else if c == '\'' {
      assert t[1] == '#';
      assert t[..6] == "&#039;";
    } else {
      assert t[0] == c;
    }
  }

  lemma UnescapeEntity(c: char, rest: string)
    ensures Unescape(Entity(c) + rest) == [c] + Unescape(rest)
  {
    var t := Entity(c) + rest;
    UnescapeStepEntity(c, rest);
    assert t[|Entity(c)|..] == rest;
  }

  lemma {:induction false} EscapeEachRoundTrip(s: string)
    ensures Unescape(EscapeEach(s)) == s
  {
    if |s| > 0 {
      UnescapeEntity(s[0], EscapeEach(s[1..]));
      EscapeEachRoundTrip(s[1..]);
      assert s == [s[0]] + s[1..];
    }
  }

  // ---------------------------------------------------------------------
  // Backdated entries
  // ---------------------------------------------------------------------

  /** What the backdated form does on submit. */
  datatype LateCheck = Incomplete | EndNotAfterStart | InTheFuture | Send

  /** The form needs a client, a task and both timestamps; the end must come
      after the start and neither may lie after `now`. Only `Send` makes a
      request. */
  function CheckLateEntry(cnpj: string, task: string, start: Option<int>, end: Option<int>, now: int): (r: LateCheck)
    ensures r == Send <==> cnpj != "" && task != "" && start.Some? && end.Some?
                           && start.value < end.value && end.value <= now
    ensures r == Incomplete <==> cnpj == "" || task == "" || start.None? || end.None?
    ensures r == EndNotAfterStart <==> !(r == Incomplete) && end.value <= start.value
  {
    if cnpj == "" || task == "" || start.None? || end.None? then Incomplete
    else if end.value <= start.value then EndNotAfterStart
    else if start.value > now || end.value > now then InTheFuture
    else Send
  }
}

=== FILE: chat_relay.dfy ===
/** The chat server (app.py): it relays a message to the workflow webhook
    and picks the reply text out of whatever JSON comes back, and it keeps
    an in-memory table of user names and password hashes behind register,
    login and logout. The webhook call is replaced by its outcome (status
    code and parsed body); SHA-256 is the parameter `hash`. */
module ChatRelay {
  import opened Wrappers

  // ---------------------------------------------------------------------
  // Reply extraction
  // ---------------------------------------------------------------------

  /** A parsed JSON value. */
  datatype Json =
    | JNull
    | JBool(b: bool)
    | JNum(n: real)
    | JStr(s: string)
    | JArr(items: seq<Json>)
    | JObj(fields: map<string, Json>)

  /** Python truthiness of the decoded value. */
  predicate Truthy(j: Json) {
    match j
    case JNull => false
    case JBool(b) => b
    case JNum(n) => n != 0.0
    case JStr(s) => s != ""
    case JArr(items) => |items| > 0
    case JObj(fields) => |fields| > 0
  }

  /** `dict.get(key)`: the value, or `None` when the key is absent. */
  function Get(fields: map<string, Json>, key: string): Json {
    if key in fields then fields[key] else JNull
  }

  /** Python's `a or b`. */
  function Or(a: Json, b: Json): (r: Json)
    ensures Truthy(a) ==> r == a
    ensures !Truthy(a) ==> r == b
  {
    if Truthy(a) then a else b
  }

  /** The reply fields tried in order. */
  const ReplyKeys: seq<string> := ["output", "text", "response", "resposta", "message"]

  /** `get('output') or get('text') or get('response') or get('resposta')
      or get('message')`. */
  function ReplyField(fields: map<string, Json>): Json {
    Or(Get(fields, "output"), Or(Get(fields, "text"), Or(Get(fields, "response"),
      Or(Get(fields, "resposta"), Get(fields, "message")))))
  }

  /** The chain yields the first truthy field in `ReplyKeys` order, and the
      last field when none is truthy. */
  lemma ReplyFieldFirstTruthy(fields: map<string, Json>, i: nat)
    requires i < |ReplyKeys| && Truthy(Get(fields, ReplyKeys[i]))
    requires forall j :: 0 <= j < i ==> !Truthy(Get(fields, ReplyKeys[j]))
    ensures ReplyField(fields) == Get(fields, ReplyKeys[i])
  {
    if i > 0 {
      assert !Truthy(Get(fields, ReplyKeys[0]));
    }
    if i > 1 {
      assert !Truthy(Get(fields, ReplyKeys[1]));
    }
    if i > 2 {
      assert !Truthy(Get(fields, ReplyKeys[2]));
    }
    if i > 3 {
      assert !Truthy(Get(fields, ReplyKeys[3]));
    }
  }

  lemma ReplyFieldNoneTruthy(fields: map<string, Json>)
    requires forall j :: 0 <= j < |ReplyKeys| ==> !Truthy(Get(fields, ReplyKeys[j]))
    ensures ReplyField(fields) == Get(fields, "message")
  {
    assert !Truthy(Get(fields, ReplyKeys[0]));
    assert !Truthy(Get(fields, ReplyKeys[1]));
    assert !Truthy(Get(fields, ReplyKeys[2]));
    assert !Truthy(Get(fields, ReplyKeys[3]));
  }

  /** The value `chat` settles on before the fallback: the reply fields of
      an object in order, then its nested `data` (an object's `output` or
      `text`, or a string), or a top-level string; anything else is `None`. */
  function Extract(data: Json): (r: Json)
    ensures data.JStr? ==> r == data
    ensures !data.JStr? && !data.JObj? ==> r == JNull
    ensures data.JObj? && Truthy(Get(data.fields, "output")) ==> r == data.fields["output"]
  {
    match data
    case JObj(fields) =>
      var first := ReplyField(fields);
      if !Truthy(first) && "data" in fields then
        match fields["data"]
        case JObj(inner) => Or(Get(inner, "output"), Get(inner, "text"))
        case JStr(s) => JStr(s)
        case _ => first
      else first
    case JStr(_) => data
    case _ => JNull
  }

  /** With no truthy reply field, the nested `data` decides: an object gives
      its `output` or else its `text`, a string gives itself, anything else
      leaves no truthy reply. */
  lemma ExtractNestedData(fields: map<string, Json>)
    requires forall j :: 0 <= j < |ReplyKeys| ==> !Truthy(Get(fields, ReplyKeys[j]))
    requires "data" in fields
    ensures fields["data"].JObj? ==>
      Extract(JObj(fields)) == Or(Get(fields["data"].fields, "output"), Get(fields["data"].fields, "text"))
    ensures fields["data"].JStr? ==> Extract(JObj(fields)) == fields["data"]
    ensures !fields["data"].JObj? && !fields["data"].JStr? ==> !Truthy(Extract(JObj(fields)))
  {
    ReplyFieldNoneTruthy(fields);
    assert !Truthy(Get(fields, ReplyKeys[4]));
    assert !Truthy(ReplyField(fields));
  }

  /** Some truthy reply field has no truthy field before it. */
  lemma FirstTruthyExists(fields: map<string, Json>, i: nat) returns (first: nat)
    requires i < |ReplyKeys| && Truthy(Get(fields, ReplyKeys[i]))
    ensures first <= i && Truthy(Get(fields, ReplyKeys[first]))
    ensures forall m :: 0 <= m < first ==> !Truthy(Get(fields, ReplyKeys[m]))
  {
    if m :| 0 <= m < i && Truthy(Get(fields, ReplyKeys[m])) {
      first := FirstTruthyExists(fields, m);
    } else {
      first := i;
    }
  }

  /** A reply field only matters when no field before it holds a truthy
      value: changing a later field changes nothing. */
  lemma ExtractIgnoresLaterFields(fields: map<string, Json>, i: nat, j: nat, v: Json)
    requires i < j < |ReplyKeys| && Truthy(Get(fields, ReplyKeys[i]))
    ensures Extract(JObj(fields[ReplyKeys[j] := v])) == Extract(JObj(fields))
  {
    var changed := fields[ReplyKeys[j] := v];
    var first := FirstTruthyExists(fields, i);
    assert forall m :: 0 <= m <= first ==> ReplyKeys[m] != ReplyKeys[j];
    assert forall m :: 0 <= m <= first ==> Get(changed, ReplyKeys[m]) == Get(fields, ReplyKeys[m]);
    ReplyFieldFirstTruthy(fields, first);
    ReplyFieldFirstTruthy(changed, first);
  }

  /** With a truthy reply field the nested `data` is never consulted. */
  lemma ExtractIgnoresData(fields: map<string, Json>, i: nat, v: Json)
    requires i < |ReplyKeys| && Truthy(Get(fields, ReplyKeys[i]))
    ensures Extract(JObj(fields["data" := v])) == Extract(JObj(fields))
  {
    var changed := fields["data" := v];
    var first := FirstTruthyExists(fields, i);
    assert forall m :: 0 <= m < |ReplyKeys| ==> ReplyKeys[m] != "data";
    assert forall m :: 0 <= m < |ReplyKeys| ==> Get(changed, ReplyKeys[m]) == Get(fields, ReplyKeys[m]);
    ReplyFieldFirstTruthy(fields, first);
    ReplyFieldFirstTruthy(changed, first);
  }

  /** The text shown when no reply could be found. */
  const Fallback: string := "Desculpe, recebi uma resposta em formato inesperado do servidor."

  /** What `/api/chat` answers. */
  datatype ChatOutcome =
    | Unauthenticated                 // 401, no session
    | EmptyMessage                    // 400
    | WebhookStatus(status: int)      // 500 reporting the webhook's status
    | ProcessingError                 // 500, the reply could not be handled
    | Answered(reply: Json)           // 200, success

  /** `chat`: `body` is the webhook's decoded body, `None` when it is not
      JSON. A truthy reply that cannot be sliced for the debug line (a
      number, a boolean or an object) ends in the generic error branch. */
  function Chat(loggedIn: bool, message: Json, status: int, body: Option<Json>): (r: ChatOutcome)
    ensures !loggedIn ==> r == Unauthenticated
    ensures loggedIn && !Truthy(message) ==> r == EmptyMessage
    ensures loggedIn && Truthy(message) && status != 200 ==> r == WebhookStatus(status)
    ensures r.Answered? ==> Truthy(r.reply) && (r.reply.JStr? || r.reply.JArr?)
    ensures r.Answered? ==> status == 200 && body.Some? && (r.reply == Extract(body.value) || r.reply == JStr(Fallback))
  {
    if !loggedIn then Unauthenticated
    else if !Truthy(message) then EmptyMessage
    else if status != 200 then WebhookStatus(status)
    else if body.None? then ProcessingError
    else
      var found := Extract(body.value);
      var reply := if Truthy(found) then found else JStr(Fallback);
      if reply.JStr? || reply.JArr? then Answered(reply) else ProcessingError
  }

  /** The fallback is used exactly when nothing truthy was found, and a
      top-level string or a truthy `output` is relayed as it came. */
  lemma ChatReplies(message: Json, body: Json)
    requires Truthy(message)
    ensures !Truthy(Extract(body)) ==> Chat(true, message, 200, Some(body)) == Answered(JStr(Fallback))
    ensures body.JStr? && body.s != "" ==> Chat(true, message, 200, Some(body)) == Answered(body)
    ensures body.JObj? && Get(body.fields, "output").JStr? && Truthy(Get(body.fields, "output")) ==>
      Chat(true, message, 200, Some(body)) == Answered(Get(body.fields, "output"))
    ensures Chat(true, message, 200, Some(body)).Answered? <==>
      !Truthy(Extract(body)) || Extract(body).JStr? || Extract(body).JArr?
  {
  }

  // ---------------------------------------------------------------------
  // User registry
  // ---------------------------------------------------------------------

  /** User name to password hash. */
  type Registry = map<string, string>

  /** The two accounts the server starts with. */
  function InitialRegistry(hash: string -> string): Registry {
    map["admin" := hash("admin123"), "usuario" := hash("senha123")]
  }

  /** Python's `not value` for an optional text. */
  predicate Blank(v: Option<string>) {
    v.None? || v.value == ""
  }

  datatype RegisterOutcome = RegisterOutcome(status: int, success: bool, registry: Registry)

  /** `registrar`: a missing or empty user name or password is refused
      (400), an existing user is refused (400), otherwise the user is added
      with the hash of the password. */
  function Register(hash: string -> string, reg: Registry, user: Option<string>, password: Option<string>): (r: RegisterOutcome)
    ensures r.success <==> !Blank(user) && !Blank(password) && user.value !in reg
    ensures !r.success ==> r.status == 400 && r.registry == reg
    ensures r.success ==> r.status == 200 && r.registry.Keys == reg.Keys + {user.value}
    ensures r.success ==> r.registry[user.value] == hash(password.value)
    ensures forall u :: u in reg ==> u in r.registry && r.registry[u] == reg[u]
  {
    if Blank(user) || Blank(password) then RegisterOutcome(400, false, reg)
    else if user.value in reg then RegisterOutcome(400, false, reg)
    else RegisterOutcome(200, true, reg[user.value := hash(password.value)])
  }

  datatype LoginOutcome = LoginOutcome(status: int, success: bool, session: Option<string>)

  /** `login`: 400 for a missing or empty field, 200 and a session for the
      user when the stored hash matches, 401 otherwise. The session is left
      as it was unless the login succeeds. */
  function Login(hash: string -> string, reg: Registry, session: Option<string>, user: Option<string>, password: Option<string>): (r: LoginOutcome)
    ensures Blank(user) || Blank(password) ==> r.status == 400 && !r.success
    ensures r.success <==> !Blank(user) && !Blank(password) && user.value in reg && reg[user.value] == hash(password.value)
    ensures r.success ==> r.status == 200 && r.session == user
    ensures !Blank(user) && !Blank(password) && !r.success ==> r.status == 401
    ensures !r.success ==> r.session == session
  {
    if Blank(user) || Blank(password) then LoginOutcome(400, false, session)
    else if user.value in reg && reg[user.value] == hash(password.value) then LoginOutcome(200, true, user)
    else LoginOutcome(401, false, session)
  }

  /** `logout`: forgets the session user, whoever it was. */
  function Logout(session: Option<string>): (r: Option<string>)
    ensures r.None?
  {
    None
  }

  /** A user just registered can log in with the same password, and
      registering never changes what an existing user logs in with. */
  lemma RegisterThenLogin(hash: string -> string, reg: Registry, user: string, password: string, other: string, otherPassword: string, session: Option<string>)
    requires Register(hash, reg, Some(user), Some(password)).success
    ensures var after := Register(hash, reg, Some(user), Some(password)).registry;
      Login(hash, after, session, Some(user), Some(password)).success
    ensures var after := Register(hash, reg, Some(user), Some(password)).registry;
      other in reg ==>
        Login(hash, after, session, Some(other), Some(otherPassword)) == Login(hash, reg, session, Some(other), Some(otherPassword))
  {
  }

  /** The built-in accounts accept their passwords. */
  lemma InitialAccounts(hash: string -> string)
    ensures Login(hash, InitialRegistry(hash), None, Some("admin"), Some("admin123")) == LoginOutcome(200, true, Some("admin"))
    ensures Login(hash, InitialRegistry(hash), None, Some("usuario"), Some("senha123")) == LoginOutcome(200, true, Some("usuario"))
  {
  }
}

=== FILE: import_clients.dfy ===
/** The client importer (importar_clientes.py): the spreadsheet's CNPJ/CPF
    column arrives as numbers, is truncated to an integer and padded to a
    CPF or CNPJ; rows lacking both identifier and name are dropped; then
    the rows are ordered by identifier with the highest client group first,
    and only the first row of each identifier is kept. */
module ImportClients {
  import opened Wrappers
  import opened Text
  import Seqs

  // ---------------------------------------------------------------------
  // Cell conversion
  // ---------------------------------------------------------------------

  /** Python's `int(x)` on a float: truncation toward zero. */
  function Truncate(x: real): (n: int)
    ensures x >= 0.0 ==> n >= 0 && n as real <= x < n as real + 1.0
    ensures x < 0.0 ==> n <= 0 && n as real - 1.0 < x <= n as real
  {
    if x >= 0.0 then x.Floor else -((-x).Floor)
  }

  /** `limpar_cnpj_cpf`: a missing cell stays missing; a number is
      truncated, written in decimal, and zero-filled to eleven characters
      when it has at most eleven, to fourteen otherwise. */
  function CleanCnpjCpf(v: Option<real>): (r: Option<string>)
    ensures r.Some? <==> v.Some?
    ensures r.Some? ==> |r.value| >= 11
    ensures r.Some? && v.value >= 0.0 ==> AllDigits(r.value)
  {
    match v
    case None => None
    case Some(x) =>
      var digits := IntToString(Truncate(x));
      if |digits| <= 11 then Some(ZFill(digits, 11)) else Some(ZFill(digits, 14))
  }

  function Pow10(k: nat): (p: nat)
    ensures p >= 1
  {
    if k == 0 then 1 else 10 * Pow10(k - 1)
  }

  /** A natural number needs at most `k` decimal digits exactly when it is
      below `10^k`. */
  lemma {:induction false} NatToStringLength(n: nat, k: nat)
    requires k >= 1
    ensures |NatToString(n)| <= k <==> n < Pow10(k)
  {
    if n >= 10 {
      assert NatToString(n) == NatToString(n / 10) + [DigitChar(n % 10)];
      if k == 1 {
        assert Pow10(1) == 10;
      } else {
        NatToStringLength(n / 10, k - 1);
      }
    } else {
      Pow10Positive(k);
    }
  }

  lemma {:induction false} Pow10Positive(k: nat)
    requires k >= 1
    ensures Pow10(k) >= 10
  {
    if k > 1 {
      Pow10Positive(k - 1);
    }
  }

  /** A non-negative identifier below `10^11` becomes an eleven-digit CPF,
      one from `10^11` up to below `10^14` a fourteen-digit CNPJ, and a
      longer number is kept whole. */
  lemma CleanCnpjCpfLength(x: real)
    requires x >= 0.0
    ensures Truncate(x) < Pow10(11) ==> |CleanCnpjCpf(Some(x)).value| == 11
    ensures Pow10(11) <= Truncate(x) < Pow10(14) ==> |CleanCnpjCpf(Some(x)).value| == 14
    ensures Truncate(x) >= Pow10(14) ==> CleanCnpjCpf(Some(x)).value == NatToString(Truncate(x))
  {
    NatToStringLength(Truncate(x), 11);
    NatToStringLength(Truncate(x), 14);
  }

  /** The identifier reads back as the truncated number, sign included
      (`zfill` keeps a leading minus in front of the zeros). */
  lemma CleanCnpjCpfReadsBack(x: real)
    ensures var r := CleanCnpjCpf(Some(x)).value;
      |r| > 0 && (AllDigits(r) || (r[0] == '-' && AllDigits(r[1..]))) && ParseInt(r) == Truncate(x)
  {
    var n := Truncate(x);
    var digits := IntToString(n);
    ParseIntToString(n);
    ZFillReadsBack(n, if |digits| <= 11 then 11 else 14);
  }

  /** Zero-filling the decimal text of an integer keeps the number it reads as. */
  lemma ZFillReadsBack(n: int, width: nat)
    ensures var r := ZFill(IntToString(n), width);
      |r| > 0 && (AllDigits(r) || (r[0] == '-' && AllDigits(r[1..]))) && ParseInt(r) == n
  {
    ParseIntToString(n);
    if |IntToString(n)| < width {
      if n < 0 {
        ZFillNegativeReadsBack(n, width);
      } else {
        ZFillNaturalReadsBack(n, width);
      }
    }
  }

  lemma ZFillNegativeReadsBack(n: int, width: nat)
    requires n < 0 && |IntToString(n)| < width
    ensures var r := ZFill(IntToString(n), width);
      |r| > 1 && r[0] == '-' && AllDigits(r[1..]) && ParseNat(r[1..]) == -n
  {
    var digits := IntToString(n);
    var k := width - |digits|;
    var r := ZFill(digits, width);
    assert r[1..] == Zeros(k) + digits[1..];
    assert digits[1..] == NatToString(-n);
    ParseNatToString(-n);
    ParseNatLeadingZeros(k, digits[1..]);
  }

  lemma ZFillNaturalReadsBack(n: int, width: nat)
    requires n >= 0 && |IntToString(n)| < width
    ensures var r := ZFill(IntToString(n), width);
      AllDigits(r) && ParseNat(r) == n
  {
    var digits := IntToString(n);
    ParseNatToString(n);
    ParseNatLeadingZeros(width - |digits|, digits);
  }

  /** `converter_grupo`: a missing group stays missing, a number is truncated. */
  function ConvertGroup(v: Option<real>): (r: Option<int>)
    ensures r.Some? <==> v.Some?
    ensures r.Some? ==> r.value == Truncate(v.value)
  {
    match v
    case None => None
    case Some(x) => Some(Truncate(x))
  }

  // ---------------------------------------------------------------------
  // Rows
  // ---------------------------------------------------------------------

  datatype SheetRow = SheetRow(cnpjCpf: Option<real>, name: Option<string>, group: Option<real>, groupName: Option<string>)

  datatype ClientRow = ClientRow(cnpjCpf: Option<string>, name: Option<string>, group: Option<int>, groupName: Option<string>)

  function Clean(row: SheetRow): ClientRow {
    ClientRow(CleanCnpjCpf(row.cnpjCpf), row.name, ConvertGroup(row.group), row.groupName)
  }

  function CleanAll(rows: seq<SheetRow>): (r: seq<ClientRow>)
    ensures |r| == |rows|
    ensures forall i :: 0 <= i < |rows| ==> r[i] == Clean(rows[i])
  {
    if |rows| == 0 then [] else [Clean(rows[0])] + CleanAll(rows[1..])
  }

  /** `dropna(how='all')` on identifier and name: a row survives unless both are missing. */
  predicate HasIdentity(row: ClientRow) {
    row.cnpjCpf.Some? || row.name.Some?
  }

  // ---------------------------------------------------------------------
  // Ordering: identifier ascending, group descending, missing values last
  // ---------------------------------------------------------------------

  predicate CnpjBefore(a: Option<string>, b: Option<string>) {
    a.Some? && (b.None? || LexLt(a.value, b.value))
  }

  /** `a` may precede `b` on the group column (descending, missing last). */
  predicate GroupFirst(a: Option<int>, b: Option<int>) {
    b.None? || (a.Some? && a.value >= b.value)
  }

  predicate RowLe(a: ClientRow, b: ClientRow) {
    CnpjBefore(a.cnpjCpf, b.cnpjCpf) || (a.cnpjCpf == b.cnpjCpf && GroupFirst(a.group, b.group))
  }

  lemma CnpjBeforeIrreflexive(a: Option<string>)
    ensures !CnpjBefore(a, a)
  {
    if a.Some? {
      LexLtIrreflexive(a.value);
    }
  }

  lemma RowLeTotal(a: ClientRow, b: ClientRow)
    ensures RowLe(a, b) || RowLe(b, a)
  {
    if a.cnpjCpf.Some? && b.cnpjCpf.Some? {
      LexLtTotal(a.cnpjCpf.value, b.cnpjCpf.value);
    }
  }

  lemma RowLeTransitive(a: ClientRow, b: ClientRow, c: ClientRow)
    requires RowLe(a, b) && RowLe(b, c)
    ensures RowLe(a, c)
  {
    var x, y, z := a.cnpjCpf, b.cnpjCpf, c.cnpjCpf;
    if x.Some? && y.Some? && z.Some? && LexLt(x.value, y.value) && LexLt(y.value, z.value) {
      LexLtTransitive(x.value, y.value, z.value);
    }
  }

  predicate SortedRows(s: seq<ClientRow>) {
    forall i, j :: 0 <= i < j < |s| ==> RowLe(s[i], s[j])
  }

  /** Places `x` before the first row it may precede, so that rows which
      compare equal keep their input order. */
  function InsertRow(x: ClientRow, s: seq<ClientRow>): (r: seq<ClientRow>)
    ensures multiset(r) == multiset(s) + multiset{x}
    ensures |r| == |s| + 1
  {
    if |s| == 0 || RowLe(x, s[0]) then [x] + s
    else
      assert s == [s[0]] + s[1..];
      [s[0]] + InsertRow(x, s[1..])
  }

  lemma {:induction false} InsertRowSorted(x: ClientRow, s: seq<ClientRow>)
    requires SortedRows(s)
    ensures SortedRows(InsertRow(x, s))
  {
    var r := InsertRow(x, s);
    if |s| == 0 {
    } else if RowLe(x, s[0]) {
      forall i, j | 0 <= i < j < |r|
        ensures RowLe(r[i], r[j])
      {
        if i == 0 {
          if j > 1 {
            RowLeTransitive(x, s[0], s[j - 1]);
          }
        } else {
          assert r[i] == s[i - 1] && r[j] == s[j - 1];
        }
      }
    } else {
      var rest := InsertRow(x, s[1..]);
      InsertRowSorted(x, s[1..]);
      RowLeTotal(x, s[0]);
      forall j | 0 <= j < |rest|
        ensures RowLe(s[0], rest[j])
      {
        assert rest[j] in multiset(rest);
        if rest[j] != x {
          assert rest[j] in multiset(s[1..]);
          var k :| 0 <= k < |s[1..]| && s[1..][k] == rest[j];
          assert s[k + 1] == rest[j];
        }
      }
      forall i, j | 0 <= i < j < |r|
        ensures RowLe(r[i], r[j])
      {
        assert r[j] == rest[j - 1];
        if i > 0 {
          assert r[i] == rest[i - 1];
        }
      }
    }
  }

  /** `sort_values(by=[cnpj, group], ascending=[True, False], na_position='last')`,
      a stable insertion sort. */
  function SortRows(s: seq<ClientRow>): (r: seq<ClientRow>)
    ensures SortedRows(r)
    ensures multiset(r) == multiset(s)
  {
    if |s| == 0 then []
    else
      assert s == [s[0]] + s[1..];
      InsertRowSorted(s[0], SortRows(s[1..]));
      InsertRow(s[0], SortRows(s[1..]))
  }

  // ---------------------------------------------------------------------
  // The import pipeline
  // ---------------------------------------------------------------------

  function Key(row: ClientRow): Option<string> {
    row.cnpjCpf
  }

  /** The rows that survive cleaning and the `dropna`. */
  function Candidates(sheet: seq<SheetRow>): (r: seq<ClientRow>)
    ensures forall i :: 0 <= i < |r| ==> r[i] in CleanAll(sheet) && HasIdentity(r[i])
    ensures forall i :: 0 <= i < |sheet| && HasIdentity(CleanAll(sheet)[i]) ==> CleanAll(sheet)[i] in r
    ensures Seqs.IsSubseq(r, CleanAll(sheet))
  {
    Seqs.FilterIsSubseq(CleanAll(sheet), HasIdentity);
    Seqs.Filter(CleanAll(sheet), HasIdentity)
  }

  /** The rows written to the client table, in the order they are sent. */
  function ImportRows(sheet: seq<SheetRow>): (r: seq<ClientRow>)
    ensures Seqs.DistinctKeys(r, Key)
    ensures Seqs.KeySet(r, Key) == Seqs.KeySet(Candidates(sheet), Key)
    ensures forall i :: 0 <= i < |r| ==> r[i] in Candidates(sheet)
  {
    var sorted := SortRows(Candidates(sheet));
    var r := Seqs.DedupBy(sorted, Key);
    Seqs.SubseqElements(r, sorted);
    forall i | 0 <= i < |r|
      ensures r[i] in Candidates(sheet)
    {
      assert r[i] in sorted;
      assert r[i] in multiset(sorted);
    }
    KeySetOfPermutation(sorted, Candidates(sheet));
    r
  }

  lemma KeySetOfPermutation(a: seq<ClientRow>, b: seq<ClientRow>)
    requires multiset(a) == multiset(b)
    ensures Seqs.KeySet(a, Key) == Seqs.KeySet(b, Key)
  {
    forall k | k in Seqs.KeySet(a, Key)
      ensures k in Seqs.KeySet(b, Key)
    {
      var i :| 0 <= i < |a| && Key(a[i]) == k;
      assert a[i] in multiset(b);
      var j :| 0 <= j < |b| && b[j] == a[i];
    }
    forall k | k in Seqs.KeySet(b, Key)
      ensures k in Seqs.KeySet(a, Key)
    {
      var i :| 0 <= i < |b| && Key(b[i]) == k;
      assert b[i] in multiset(a);
      var j :| 0 <= j < |a| && a[j] == b[i];
    }
  }

  /** The row kept for an identifier carries the highest group among the
      candidate rows with that identifier, and is missing a group only
      when all of them are. */
  lemma ImportKeepsHighestGroup(sheet: seq<SheetRow>, i: nat, c: ClientRow)
    requires i < |ImportRows(sheet)|
    requires c in Candidates(sheet) && c.cnpjCpf == ImportRows(sheet)[i].cnpjCpf
    ensures GroupFirst(ImportRows(sheet)[i].group, c.group)
  {
    DedupKeepsHighestGroup(Candidates(sheet), i, c);
  }

  /** The same over any list of candidate rows. */
  lemma DedupKeepsHighestGroup(cands: seq<ClientRow>, i: nat, c: ClientRow)
    requires i < |Seqs.DedupBy(SortRows(cands), Key)|
    requires c in cands && c.cnpjCpf == Seqs.DedupBy(SortRows(cands), Key)[i].cnpjCpf
    ensures GroupFirst(Seqs.DedupBy(SortRows(cands), Key)[i].group, c.group)
  {
    var sorted := SortRows(cands);
    var row := Seqs.DedupBy(sorted, Key)[i];
    assert Seqs.FirstWith(sorted, Key, Key(row)) == Some(row);
    Seqs.FirstWithIndex(sorted, Key, Key(row));
    var p :| 0 <= p < |sorted| && sorted[p] == row && Key(sorted[p]) == Key(row) &&
      (forall j :: 0 <= j < p ==> Key(sorted[j]) != Key(row));
    assert c in multiset(sorted);
    var q :| 0 <= q < |sorted| && sorted[q] == c;
    if q > p {
      assert RowLe(row, c);
      CnpjBeforeIrreflexive(c.cnpjCpf);
    }
  }
}

=== FILE: import_employees.dfy ===
/** The employee importer (importar_funcionarios.py): text cells are
    stripped, the access level and the active flag are normalised, the
    password is replaced by its hash, rows without user name or e-mail are
    dropped, and duplicate user names and then duplicate e-mails are
    removed keeping the first row. SHA-256 is the parameter `hash`. */
module ImportEmployees {
  import opened Wrappers
  import opened Text
  import Seqs

  /** The password given to rows that have none. */
  const DefaultPassword: string := "Booker@1010"

  /** The access levels the system knows. */
  const Levels: seq<string> := ["funcionario", "coordenador", "supervisor", "socio", "prestador de servico", "admin"]

  /** The spellings read as an active employee. */
  const ActiveWords: seq<string> := ["sim", "yes", "s", "y", "true", "1", "ativo"]

  /** `str(v).lower().strip()`. */
  function Folded(s: string): (r: string)
    ensures |r| <= |s|
  {
    Trim(Lower(s))
  }

  lemma LowerIdempotent(s: string)
    ensures Lower(Lower(s)) == Lower(s)
  {
    LowerNoUpper(Lower(s));
  }

  /** Folding a folded text changes nothing. */
  lemma FoldedIdempotent(s: string)
    ensures Folded(Folded(s)) == Folded(s)
  {
    TrimLowerCommute(Lower(s));
    LowerIdempotent(s);
    TrimIdempotent(Lower(s));
  }

  /** `normalizar_nivel`: the folded level when it is a known one, otherwise
      (and for a missing cell) `funcionario`. */
  function NormalizeLevel(v: Option<string>): (r: string)
    ensures r in Levels
    ensures v.Some? && Folded(v.value) in Levels ==> r == Folded(v.value)
    ensures (v.None? || Folded(v.value) !in Levels) ==> r == "funcionario"
  {
    match v
    case None => "funcionario"
    case Some(s) => if Folded(s) in Levels then Folded(s) else "funcionario"
  }

  /** Lower-case text without surrounding spaces is already folded. */
  lemma FoldedFixed(s: string)
    requires forall i :: 0 <= i < |s| ==> !('A' <= s[i] <= 'Z')
    requires |s| > 0 && !IsSpace(s[0]) && !IsSpace(s[|s| - 1])
    ensures Folded(s) == s
  {
    LowerNoUpper(s);
    TrimFixed(s);
  }

  lemma LevelsFolded(l: string)
    requires l in Levels
    ensures Folded(l) == l
  {
    if l in Levels[..3] {
      StaffLevelsFolded(l);
    } else {
      assert l in Levels[3..];
      OtherLevelsFolded(l);
    }
  }

  lemma StaffLevelsFolded(l: string)
    requires l in ["funcionario", "coordenador", "supervisor"]
    ensures Folded(l) == l
  {
    if l == "funcionario" {
      FoldedFixed(l);
    } else if l == "coordenador" {
      FoldedFixed(l);
    } else {
      FoldedFixed(l);
    }
  }

  lemma OtherLevelsFolded(l: string)
    requires l in ["socio", "prestador de servico", "admin"]
    ensures Folded(l) == l
  {
    if l == "socio" {
      FoldedFixed(l);
    } else if l == "prestador de servico" {
      FoldedFixed(l);
    } else {
      FoldedFixed(l);
    }
  }

  /** A level that is already normalised is its own normal form, and case
      and surrounding spaces never change the outcome. */
  lemma NormalizeLevelIdempotent(v: Option<string>)
    ensures NormalizeLevel(Some(NormalizeLevel(v))) == NormalizeLevel(v)
    ensures v.Some? ==> NormalizeLevel(Some(Folded(v.value))) == NormalizeLevel(v)
  {
    if v.Some? {
      FoldedIdempotent(v.value);
    }
    LevelsFolded(NormalizeLevel(v));
  }

  /** `normalizar_ativo`: a missing cell is active; otherwise the folded
      text must be one of the accepted spellings. */
  function NormalizeActive(v: Option<string>): (r: bool)
    ensures v.None? ==> r
    ensures v.Some? ==> (r <==> Folded(v.value) in ActiveWords)
  {
    match v
    case None => true
    case Some(s) => Folded(s) in ActiveWords
  }

  /** Case and surrounding spaces do not change the flag. */
  lemma NormalizeActiveFolded(s: string)
    ensures NormalizeActive(Some(Folded(s))) == NormalizeActive(Some(s))
  {
    FoldedIdempotent(s);
  }

  /** `gerar_hash_senha`: the hash of the stripped password, the default
      password standing in for a missing one. */
  function PasswordHash(hash: string -> string, v: Option<string>): (r: string)
    ensures v.None? ==> r == hash(DefaultPassword)
    ensures v.Some? ==> r == hash(Trim(v.value))
  {
    hash(Trim(v.GetOr(DefaultPassword)))
  }

  /** A missing password hashes like the default one, and surrounding
      spaces never change the hash. */
  lemma PasswordHashNormalises(hash: string -> string, s: string)
    ensures PasswordHash(hash, None) == PasswordHash(hash, Some(DefaultPassword))
    ensures PasswordHash(hash, Some(Trim(s))) == PasswordHash(hash, Some(s))
  {
    TrimIdempotent(s);
  }

  /** `verificar_senha`. */
  function VerifyPassword(hash: string -> string, text: Option<string>, stored: string): (r: bool)
    ensures r <==> stored == hash(Trim(text.GetOr(DefaultPassword)))
  {
    PasswordHash(hash, text) == stored
  }

  /** A stored hash accepts the password it was made from; with a
      collision-free hash it accepts exactly the passwords that strip to the
      same text. */
  lemma VerifyPasswordRoundTrip(hash: string -> string, text: Option<string>, other: Option<string>)
    ensures VerifyPassword(hash, text, PasswordHash(hash, text))
    ensures (forall a, b :: hash(a) == hash(b) ==> a == b) ==>
      (VerifyPassword(hash, other, PasswordHash(hash, text)) <==>
        Trim(other.GetOr(DefaultPassword)) == Trim(text.GetOr(DefaultPassword)))
  {
  }

  // ---------------------------------------------------------------------
  // Rows
  // ---------------------------------------------------------------------

  datatype SheetRow = SheetRow(
    user: Option<string>, email: Option<string>, fullName: Option<string>,
    department: Option<string>, manager: Option<string>,
    level: Option<string>, active: Option<string>, password: Option<string>)

  datatype Employee = Employee(
    user: string, email: string, fullName: Option<string>,
    department: Option<string>, manager: Option<string>,
    level: string, active: bool, passwordHash: string)

  function Strip(v: Option<string>): Option<string> {
    match v
    case None => None
    case Some(s) => Some(Trim(s))
  }

  /** The normalised row, or `None` when `dropna` removes it for a missing
      user name or e-mail. */
  function Prepare(hash: string -> string, row: SheetRow): (r: Option<Employee>)
    ensures r.Some? <==> row.user.Some? && row.email.Some?
    ensures r.Some? ==> r.value.user == Trim(row.user.value) && r.value.email == Trim(row.email.value)
    ensures r.Some? ==> r.value.level in Levels
    ensures r.Some? ==> VerifyPassword(hash, row.password, r.value.passwordHash)
    ensures r.Some? ==> r.value.level == NormalizeLevel(row.level) && r.value.active == NormalizeActive(row.active)
    ensures r.Some? ==> r.value.fullName == Strip(row.fullName)
    ensures r.Some? ==> r.value.department == Strip(row.department) && r.value.manager == Strip(row.manager)
  {
    if row.user.None? || row.email.None? then None
    else Some(Employee(
      Trim(row.user.value), Trim(row.email.value), Strip(row.fullName),
      Strip(row.department), Strip(row.manager),
      NormalizeLevel(row.level), NormalizeActive(row.active), PasswordHash(hash, row.password)))
  }

  function UserOf(e: Employee): string {
    e.user
  }

  function EmailOf(e: Employee): string {
    e.email
  }

  /** The rows that survive normalisation and `dropna`, in sheet order. */
  function Ready(hash: string -> string, rows: seq<SheetRow>): (r: seq<Employee>)
    ensures forall i :: 0 <= i < |rows| && Prepare(hash, rows[i]).Some? ==> Prepare(hash, rows[i]).value in r
    ensures forall e :: e in r ==> exists j :: 0 <= j < |rows| && Prepare(hash, rows[j]) == Some(e)
    ensures |r| == |Seqs.Filter(rows, row => Prepare(hash, row).Some?)|
    ensures forall i :: 0 <= i < |r| ==> Prepare(hash, Seqs.Filter(rows, row => Prepare(hash, row).Some?)[i]) == Some(r[i])
  {
    var prepare := (row: SheetRow) => Prepare(hash, row);
    Seqs.FilterMapOrder(rows, prepare, row => Prepare(hash, row).Some?);
    Seqs.FilterMap(rows, prepare)
  }

  /** The user-name pass: duplicates are dropped only when there are any. */
  function DedupUsers(ready: seq<Employee>): (r: seq<Employee>)
    ensures r == Seqs.DedupBy(ready, UserOf)
  {
    if Seqs.DistinctKeys(ready, UserOf) then
      Seqs.DedupByDistinct(ready, UserOf);
      ready
    else Seqs.DedupBy(ready, UserOf)
  }

  /** The e-mail pass, on the rows left by the user-name pass. */
  function DedupEmails(rows: seq<Employee>): (r: seq<Employee>)
    ensures r == Seqs.DedupBy(rows, EmailOf)
  {
    if Seqs.DistinctKeys(rows, EmailOf) then
      Seqs.DedupByDistinct(rows, EmailOf);
      rows
    else Seqs.DedupBy(rows, EmailOf)
  }

  /** The employees written to the table: user names are unique, e-mails
      are unique, and every row kept is the first of its user name in the
      sheet and the first of its e-mail among the rows left after the
      user-name pass. */
  function ImportRows(hash: string -> string, rows: seq<SheetRow>): (r: seq<Employee>)
    ensures Seqs.DistinctKeys(r, UserOf) && Seqs.DistinctKeys(r, EmailOf)
    ensures Seqs.IsSubseq(r, Ready(hash, rows))
    ensures forall i :: 0 <= i < |r| ==> Seqs.FirstWith(Ready(hash, rows), UserOf, r[i].user) == Some(r[i])
    ensures forall i :: 0 <= i < |r| ==>
      Seqs.FirstWith(DedupUsers(Ready(hash, rows)), EmailOf, r[i].email) == Some(r[i])
    ensures Seqs.KeySet(r, EmailOf) == Seqs.KeySet(DedupUsers(Ready(hash, rows)), EmailOf)
  {
    DedupBoth(Ready(hash, rows))
  }

  /** Both `drop_duplicates` passes over the prepared rows. */
  function DedupBoth(ready: seq<Employee>): (r: seq<Employee>)
    ensures Seqs.DistinctKeys(r, UserOf) && Seqs.DistinctKeys(r, EmailOf)
    ensures Seqs.IsSubseq(r, ready)
    ensures forall i :: 0 <= i < |r| ==> Seqs.FirstWith(ready, UserOf, r[i].user) == Some(r[i])
    ensures forall i :: 0 <= i < |r| ==> Seqs.FirstWith(DedupUsers(ready), EmailOf, r[i].email) == Some(r[i])
    ensures Seqs.KeySet(r, EmailOf) == Seqs.KeySet(DedupUsers(ready), EmailOf)
  {
    var r := DedupEmails(DedupUsers(ready));
    DedupBothKeys(ready, r);
    r
  }

  /** The two de-duplication passes together. */
  lemma DedupBothKeys(ready: seq<Employee>, r: seq<Employee>)
    requires r == DedupEmails(DedupUsers(ready))
    ensures Seqs.DistinctKeys(r, UserOf)
    ensures Seqs.IsSubseq(r, ready)
    ensures forall i :: 0 <= i < |r| ==> Seqs.FirstWith(ready, UserOf, r[i].user) == Some(r[i])
  {
    var byUser := DedupUsers(ready);
    assert Seqs.IsSubseq(r, byUser);
    KeptSubseq(ready, byUser, r);
  }

  /** Rows left out of a first-occurrence pass keep its guarantees. */
  lemma KeptSubseq(ready: seq<Employee>, byUser: seq<Employee>, r: seq<Employee>)
    requires Seqs.IsSubseq(r, byUser) && Seqs.IsSubseq(byUser, ready) && Seqs.DistinctKeys(byUser, UserOf)
    requires forall k :: 0 <= k < |byUser| ==> Seqs.FirstWith(ready, UserOf, byUser[k].user) == Some(byUser[k])
    ensures Seqs.DistinctKeys(r, UserOf)
    ensures Seqs.IsSubseq(r, ready)
    ensures forall i :: 0 <= i < |r| ==> Seqs.FirstWith(ready, UserOf, r[i].user) == Some(r[i])
  {
    Seqs.SubseqKeepsDistinctKeys(r, byUser, UserOf);
    Seqs.SubseqTransitive(r, byUser, ready);
    Seqs.SubseqElements(r, byUser);
    forall i | 0 <= i < |r|
      ensures Seqs.FirstWith(ready, UserOf, r[i].user) == Some(r[i])
    {
      assert r[i] in byUser;
    }
  }

  // ---------------------------------------------------------------------
  // The listing printed before connecting
  // ---------------------------------------------------------------------

  /** How many of the rows to import the importer lists before connecting. */
  const ListedRows := 3

  /** Why the script as written stops before connecting: slicing a missing
      full name raises `TypeError`. */
  datatype Crash = NameSlicedWhileMissing

  /** Each of the first `ListedRows` rows has a full name to slice. */
  predicate ListingNamed(r: seq<Employee>) {
    forall i :: 0 <= i < |r| && i < ListedRows ==> r[i].fullName.Some?
  }

  /** The importer as written: it prints the first three rows left after
      de-duplication and slices each one's full name; the slice sits outside
      any `try`, so a missing name there stops the script and nothing is
      inserted. `ImportRows` is the listing that prints a missing name
      instead. */
  function ImportRowsAsWritten(hash: string -> string, rows: seq<SheetRow>): (r: Result<seq<Employee>, Crash>)
    ensures r.Success? <==> ListingNamed(ImportRows(hash, rows))
    ensures r.Success? ==> r.value == ImportRows(hash, rows)
  {
    var imported := ImportRows(hash, rows);
    if ListingNamed(imported) then Success(imported) else Failure(NameSlicedWhileMissing)
  }

  /** A sheet of one complete row without a full name: the corrected importer
      writes that employee, the importer as written stops before connecting. */
  lemma NamelessRowStopsImport(hash: string -> string, row: SheetRow)
    requires row.user.Some? && row.email.Some? && row.fullName.None?
    ensures ImportRows(hash, [row]) == [Prepare(hash, row).value]
    ensures ImportRowsAsWritten(hash, [row]) == Failure(NameSlicedWhileMissing)
  {
    SingleRowImported(hash, row);
  }

  /** A sheet of one row that survives `dropna` imports exactly that row. */
  lemma SingleRowImported(hash: string -> string, row: SheetRow)
    requires row.user.Some? && row.email.Some?
    ensures ImportRows(hash, [row]) == [Prepare(hash, row).value]
  {
    var e := Prepare(hash, row).value;
    assert Ready(hash, [row]) == [e] by {
      assert Seqs.Filter([row], r => Prepare(hash, r).Some?) == [row] by {
        assert [row][1..] == [];
      }
    }
    Seqs.DedupByDistinct([e], UserOf);
    Seqs.DedupByDistinct([e], EmailOf);
  }
}

=== FILE: import_tasks.dfy ===
/** The collaborator-task importer (importar_tarefas_colaborador.py): each
    spreadsheet row names a client by CNPJ/CPF, a task group, the task and up
    to two collaborators. Rows are normalised, incomplete rows are dropped,
    and the foreign keys are checked against the reference tables before
    anything is written. The spreadsheet cells arrive as text (`str(value)`)
    or as missing values. */
module ImportTasks {
  import opened Wrappers
  import opened Text
  import Seqs

  // ---------------------------------------------------------------------
  // normalizar_cnpj_cpf
  // ---------------------------------------------------------------------

  /** `normalizar_cnpj_cpf(valor)`: a missing, blank or `-` value gives
      `None`; otherwise the digits are kept, up to eleven are padded to an
      eleven-digit CPF, twelve to fourteen to a fourteen-digit CNPJ, and
      more than fourteen are rejected. */
  function NormalizeCnpjCpf(v: Option<string>): (r: Option<string>)
    ensures r.Some? ==> AllDigits(r.value) && (|r.value| == 11 || |r.value| == 14)
    ensures v.None? ==> r.None?
    ensures v.Some? && (Trim(v.value) == "" || Trim(v.value) == "-") ==> r.None?
  {
    match v
    case None => None
    case Some(raw) =>
      var s := Trim(raw);
      if s == "" || s == "-" then None
      else PadDigits(DigitsOf(s))
  }

  /** The length test on the extracted digits. */
  function PadDigits(digits: string): Option<string>
    requires AllDigits(digits)
  {
    if |digits| == 0 then None
    else if |digits| <= 11 then Some(ZFill(digits, 11))
    else if |digits| <= 14 then Some(ZFill(digits, 14))
    else None
  }

  /** Only the digits of the raw value matter. */
  lemma NormalizeByDigits(raw: string)
    ensures NormalizeCnpjCpf(Some(raw)) == PadDigits(DigitsOf(raw))
  {
    DigitsOfTrim(raw);
    if Trim(raw) == "-" {
      assert DigitsOf("-") == "";
    }
  }

  /** The result is `None` exactly when the value has no digits or more
      than fourteen. */
  lemma NormalizeCnpjCpfRejects(raw: string)
    ensures NormalizeCnpjCpf(Some(raw)).None? <==> |DigitsOf(raw)| == 0 || |DigitsOf(raw)| > 14
  {
    NormalizeByDigits(raw);
    PadDigitsShape(DigitsOf(raw));
  }

  /** One to eleven digits are padded on the left with zeros to an
      eleven-digit CPF. */
  lemma NormalizeCnpjCpfPadsCpf(raw: string, d: string)
    requires d == DigitsOf(raw) && 0 < |d| <= 11
    ensures NormalizeCnpjCpf(Some(raw)) == Some(Zeros(11 - |d|) + d)
  {
    NormalizeByDigits(raw);
    CpfShape(d);
  }

  lemma CpfShape(d: string)
    requires AllDigits(d) && 0 < |d| <= 11
    ensures PadDigits(d) == Some(Zeros(11 - |d|) + d)
  {
    PadDigitsShape(d);
  }

  /** Twelve to fourteen digits are padded on the left with zeros to a
      fourteen-digit CNPJ. */
  lemma NormalizeCnpjCpfPadsCnpj(raw: string, d: string)
    requires d == DigitsOf(raw) && 11 < |d| <= 14
    ensures NormalizeCnpjCpf(Some(raw)) == Some(Zeros(14 - |d|) + d)
  {
    NormalizeByDigits(raw);
    CnpjShape(d);
  }

  lemma CnpjShape(d: string)
    requires AllDigits(d) && 11 < |d| <= 14
    ensures PadDigits(d) == Some(Zeros(14 - |d|) + d)
  {
    PadDigitsShape(d);
  }

  lemma PadDigitsShape(d: string)
    requires AllDigits(d)
    ensures PadDigits(d).None? <==> |d| == 0 || |d| > 14
    ensures 0 < |d| <= 11 ==> PadDigits(d) == Some(Zeros(11 - |d|) + d)
    ensures 11 < |d| <= 14 ==> PadDigits(d) == Some(Zeros(14 - |d|) + d)
  {
    assert Zeros(0) + d == d;
    if 0 < |d| {
      assert d[0] != '-' && d[0] != '+';
    }
  }

  /** The normalised identifier reads as the same number as the input's digits. */
  lemma NormalizeCnpjCpfKeepsNumber(raw: string)
    requires NormalizeCnpjCpf(Some(raw)).Some?
    ensures ParseNat(NormalizeCnpjCpf(Some(raw)).value) == ParseNat(DigitsOf(raw))
  {
    NormalizeCnpjCpfRejects(raw);
    var d := DigitsOf(raw);
    if |d| <= 11 {
      NormalizeCnpjCpfPadsCpf(raw, d);
      ParseNatLeadingZeros(11 - |d|, d);
    } else {
      NormalizeCnpjCpfPadsCnpj(raw, d);
      ParseNatLeadingZeros(14 - |d|, d);
    }
  }

  /** Normalising a normalised value changes nothing. */
  lemma NormalizeCnpjCpfIdempotent(v: Option<string>)
    ensures NormalizeCnpjCpf(NormalizeCnpjCpf(v)) == NormalizeCnpjCpf(v)
  {
    if NormalizeCnpjCpf(v).Some? {
      var r := NormalizeCnpjCpf(v).value;
      NormalizeByDigits(r);
      PadDigitsFull(r);
    }
  }

  /** A full-width identifier is its own padding. */
  lemma PadDigitsFull(r: string)
    requires AllDigits(r) && (|r| == 11 || |r| == 14)
    ensures PadDigits(DigitsOf(r)) == Some(r)
  {
    assert DigitsOf(r) == r;
    assert ZFill(r, |r|) == r;
  }

  // ---------------------------------------------------------------------
  // Rows
  // ---------------------------------------------------------------------

  /** `normalizar_texto`: a missing value stays missing, text is stripped. */
  function NormalizeText(v: Option<string>): (r: Option<string>)
    ensures r.Some? <==> v.Some?
    ensures r.Some? ==> r.value == Trim(v.value)
  {
    match v
    case None => None
    case Some(s) => Some(Trim(s))
  }

  lemma NormalizeTextIdempotent(v: Option<string>)
    ensures NormalizeText(NormalizeText(v)) == NormalizeText(v)
  {
    if v.Some? {
      TrimIdempotent(v.value);
    }
  }

  /** A spreadsheet row as read, every cell possibly missing. The group
      code is the text of a non-decimal cell. */
  datatype RawRow = RawRow(
    cnpjCpf: Option<string>,
    groupCode: Option<string>,
    company: Option<string>,
    taskName: Option<string>,
    colab1: Option<string>,
    colab2: Option<string>)

  /** A row after normalisation that kept every essential field. */
  datatype TaskRow = TaskRow(
    cnpjCpf: string,
    groupCode: string,
    company: Option<string>,
    taskName: string,
    colab1: string,
    colab2: Option<string>)

  /** The normalised row, or `None` when `dropna` removes it because the
      CNPJ/CPF, group code, task name or first collaborator is missing. */
  function Prepare(raw: RawRow): (r: Option<TaskRow>)
    ensures r.Some? <==>
      && NormalizeCnpjCpf(raw.cnpjCpf).Some?
      && raw.groupCode.Some? && raw.taskName.Some? && raw.colab1.Some?
    ensures r.Some? ==>
      && Some(r.value.cnpjCpf) == NormalizeCnpjCpf(raw.cnpjCpf)
      && r.value.groupCode == Trim(raw.groupCode.value)
      && r.value.taskName == Trim(raw.taskName.value)
      && r.value.colab1 == Trim(raw.colab1.value)
      && r.value.colab2 == NormalizeText(raw.colab2)
      && r.value.company == NormalizeText(raw.company)
  {
    var cnpj := NormalizeCnpjCpf(raw.cnpjCpf);
    var group := NormalizeText(raw.groupCode);
    var task := NormalizeText(raw.taskName);
    var c1 := NormalizeText(raw.colab1);
    if cnpj.None? || group.None? || task.None? || c1.None? then None
    else Some(TaskRow(cnpj.value, group.value, NormalizeText(raw.company), task.value, c1.value, NormalizeText(raw.colab2)))
  }

  /** Normalisation and `dropna` over the sheet, in row order. */
  function PrepareAll(raws: seq<RawRow>): (r: seq<TaskRow>)
    ensures |r| <= |raws|
    ensures forall i :: 0 <= i < |raws| && Prepare(raws[i]).Some? ==> Prepare(raws[i]).value in r
    ensures forall row :: row in r ==> exists j :: 0 <= j < |raws| && Prepare(raws[j]) == Some(row)
    ensures |r| == |Seqs.Filter(raws, raw => Prepare(raw).Some?)|
    ensures forall i :: 0 <= i < |r| ==> Prepare(Seqs.Filter(raws, raw => Prepare(raw).Some?)[i]) == Some(r[i])
  {
    Seqs.FilterMapOrder(raws, Prepare, raw => Prepare(raw).Some?);
    Seqs.FilterMap(raws, Prepare)
  }

  // ---------------------------------------------------------------------
  // Foreign-key gate
  // ---------------------------------------------------------------------

  /** Keys present in the reference tables. */
  datatype References = References(clients: set<string>, groups: set<string>, users: set<string>)

  /** Why the import stopped before inserting anything. */
  datatype Abort = CancelledByUser | UnknownGroup | UnknownFirstCollaborator | UnknownSecondCollaborator

  predicate KnownClient(refs: References, row: TaskRow) {
    row.cnpjCpf in refs.clients
  }

  /** Every remaining row points at existing rows of the reference tables. */
  predicate KeysValid(refs: References, rows: seq<TaskRow>) {
    forall i :: 0 <= i < |rows| ==>
      && rows[i].groupCode in refs.groups
      && rows[i].colab1 in refs.users
      && (rows[i].colab2.Some? ==> rows[i].colab2.value in refs.users)
  }

  /** The checks in the order the importer runs them. When some CNPJ/CPF is
      unknown the operator is asked; answering `s` (in any case) drops those
      rows, anything else cancels. Then an unknown group code, first
      collaborator, or present second collaborator aborts the import. */
  function Gate(refs: References, rows: seq<TaskRow>, answer: string): (r: Result<seq<TaskRow>, Abort>)
    ensures r.Success? ==> KeysValid(refs, r.value)
    ensures r.Success? ==> forall i :: 0 <= i < |r.value| ==> KnownClient(refs, r.value[i])
    ensures r.Success? ==> Seqs.IsSubseq(r.value, rows)
    ensures r.Success? ==> forall i :: 0 <= i < |rows| && KnownClient(refs, rows[i]) ==> rows[i] in r.value
    ensures r == Failure(CancelledByUser) <==>
      (exists i :: 0 <= i < |rows| && !KnownClient(refs, rows[i])) && Lower(answer) != "s"
  {
    var kept: seq<TaskRow> :=
      if forall i :: 0 <= i < |rows| ==> KnownClient(refs, rows[i]) then rows
      else Seqs.Filter(rows, (row: TaskRow) => KnownClient(refs, row));
    Seqs.FilterIsSubseq(rows, (row: TaskRow) => KnownClient(refs, row));
    Seqs.SubseqReflexive(rows);
    if kept != rows && Lower(answer) != "s" then Failure(CancelledByUser)
    else CheckKeys(refs, kept)
  }

  /** The three foreign-key checks, each aborting on the first offending row. */
  function CheckKeys(refs: References, kept: seq<TaskRow>): (r: Result<seq<TaskRow>, Abort>)
    ensures r.Success? <==> KeysValid(refs, kept)
    ensures r.Success? ==> r.value == kept
    ensures r.Failure? ==> r.error != CancelledByUser
  {
    if exists i :: 0 <= i < |kept| && kept[i].groupCode !in refs.groups then Failure(UnknownGroup)
    else if exists i :: 0 <= i < |kept| && kept[i].colab1 !in refs.users then Failure(UnknownFirstCollaborator)
    else if exists i :: 0 <= i < |kept| && kept[i].colab2.Some? && kept[i].colab2.value !in refs.users then
      Failure(UnknownSecondCollaborator)
    else Success(kept)
  }

  /** The whole validation: the import goes ahead exactly when, after the
      optional removal of unknown clients, every reference is valid. */
  lemma GateSucceedsIff(refs: References, rows: seq<TaskRow>, answer: string)
    ensures var known := Seqs.Filter(rows, (row: TaskRow) => KnownClient(refs, row));
      Gate(refs, rows, answer).Success? <==>
        && ((forall i :: 0 <= i < |rows| ==> KnownClient(refs, rows[i])) || Lower(answer) == "s")
        && KeysValid(refs, known)
  {
    var p := (row: TaskRow) => KnownClient(refs, row);
    if forall i :: 0 <= i < |rows| ==> KnownClient(refs, rows[i]) {
      Seqs.FilterAll(rows, p);
    }
  }

  // ---------------------------------------------------------------------
  // The whole importer and its listings
  // ---------------------------------------------------------------------

  /** Normalisation, `dropna` and the foreign-key gate: the rows the importer
      goes on to insert, or why it stopped. */
  function Import(refs: References, raws: seq<RawRow>, answer: string): (r: Result<seq<TaskRow>, Abort>)
    ensures var rows := PrepareAll(raws);
      r.Success? <==>
        && ((forall i :: 0 <= i < |rows| ==> KnownClient(refs, rows[i])) || Lower(answer) == "s")
        && KeysValid(refs, Seqs.Filter(rows, (row: TaskRow) => KnownClient(refs, row)))
    ensures r.Success? ==> Seqs.IsSubseq(r.value, PrepareAll(raws)) && KeysValid(refs, r.value)
    ensures r.Success? ==> r.value == Seqs.Filter(PrepareAll(raws), (row: TaskRow) => KnownClient(refs, row))
  {
    var rows := PrepareAll(raws);
    GateSucceedsIff(refs, rows, answer);
    GateKeepsKnown(refs, rows, answer);
    Gate(refs, rows, answer)
  }

  /** How many removed rows and how many rows to insert the importer lists. */
  const ListedRemoved := 5
  const ListedKept := 3

  /** Why the importer as written stops: the gate's reason, or `TypeError`
      from slicing a missing company name in one of the listings. */
  datatype Stop = Stopped(reason: Abort) | CompanySlicedWhileMissing

  /** The rows `dropna` removes, in sheet order. */
  function Removed(raws: seq<RawRow>): seq<RawRow> {
    Seqs.Filter(raws, (raw: RawRow) => Prepare(raw).None?)
  }

  /** Each of the first `ListedRemoved` removed rows has a company name. */
  predicate RemovedListingNamed(removed: seq<RawRow>) {
    forall i :: 0 <= i < |removed| && i < ListedRemoved ==> removed[i].company.Some?
  }

  /** Each of the first `ListedKept` rows to insert has a company name. */
  predicate KeptListingNamed(rows: seq<TaskRow>) {
    forall i :: 0 <= i < |rows| && i < ListedKept ==> rows[i].company.Some?
  }

  /** The importer as written. Before the gate it lists the first five
      removed rows and slices `row.get('nome_empresa', 'N/A')`, which is
      `None` rather than `'N/A'` when the cell is empty; after the gate it
      lists the first three rows to insert and slices their company name.
      Both slices sit outside any `try`, so a missing name stops the script
      before it connects and nothing is inserted. `Import` lists a missing
      name instead. */
  function ImportAsWritten(refs: References, raws: seq<RawRow>, answer: string): (r: Result<seq<TaskRow>, Stop>)
    ensures r.Success? <==>
      && RemovedListingNamed(Removed(raws))
      && Import(refs, raws, answer).Success? && KeptListingNamed(Import(refs, raws, answer).value)
    ensures r.Success? ==> Import(refs, raws, answer) == Success(r.value)
    ensures Import(refs, raws, answer).Failure? && RemovedListingNamed(Removed(raws)) ==>
      r == Failure(Stopped(Import(refs, raws, answer).error))
    ensures r == Failure(CompanySlicedWhileMissing) <==>
      || !RemovedListingNamed(Removed(raws))
      || (Import(refs, raws, answer).Success? && !KeptListingNamed(Import(refs, raws, answer).value))
  {
    if !RemovedListingNamed(Removed(raws)) then Failure(CompanySlicedWhileMissing)
    else match Import(refs, raws, answer)
      case Failure(e) => Failure(Stopped(e))
      case Success(rows) =>
        if KeptListingNamed(rows) then Success(rows) else Failure(CompanySlicedWhileMissing)
  }

  /** A passing gate keeps exactly the rows whose client is known. */
  lemma GateKeepsKnown(refs: References, rows: seq<TaskRow>, answer: string)
    ensures Gate(refs, rows, answer).Success? ==>
      Gate(refs, rows, answer).value == Seqs.Filter(rows, (row: TaskRow) => KnownClient(refs, row))
  {
    if forall i :: 0 <= i < |rows| ==> KnownClient(refs, rows[i]) {
      Seqs.FilterAll(rows, (row: TaskRow) => KnownClient(refs, row));
    }
  }

  /** A sheet of one complete row without a company name, whose keys all
      exist: the corrected importer inserts it, the importer as written stops
      at the listing of rows to insert. */
  lemma NamelessCompanyStopsImport(raw: RawRow, answer: string)
    requires Prepare(raw).Some? && raw.company.None? && raw.colab2.None?
    ensures var row := Prepare(raw).value;
      var refs := References({row.cnpjCpf}, {row.groupCode}, {row.colab1});
      && Import(refs, [raw], answer) == Success([row])
      && ImportAsWritten(refs, [raw], answer) == Failure(CompanySlicedWhileMissing)
  {
    var row := Prepare(raw).value;
    var refs := References({row.cnpjCpf}, {row.groupCode}, {row.colab1});
    SingleRowPrepared(raw);
    assert Removed([raw]) == [] by {
      assert [raw][1..] == [];
    }
    GateAcceptsValid(refs, [row], answer);
  }

  /** Rows whose keys all exist pass the gate unchanged, whatever the answer. */
  lemma GateAcceptsValid(refs: References, rows: seq<TaskRow>, answer: string)
    requires forall i :: 0 <= i < |rows| ==> KnownClient(refs, rows[i])
    requires KeysValid(refs, rows)
    ensures Gate(refs, rows, answer) == Success(rows)
  {
  }

  /** A sheet of one row that survives `dropna` prepares exactly that row. */
  lemma SingleRowPrepared(raw: RawRow)
    requires Prepare(raw).Some?
    ensures PrepareAll([raw]) == [Prepare(raw).value]
  {
    assert Seqs.Filter([raw], r => Prepare(r).Some?) == [raw] by {
      assert [raw][1..] == [];
    }
  }

  /** A sheet of one row without a task name or a company name: the corrected
      importer has nothing to insert, the importer as written stops at the
      listing of removed rows. */
  lemma NamelessRemovedRowStopsImport(refs: References, raw: RawRow, answer: string)
    requires raw.taskName.None? && raw.company.None?
    ensures Import(refs, [raw], answer) == Success([])
    ensures ImportAsWritten(refs, [raw], answer) == Failure(CompanySlicedWhileMissing)
  {
    assert PrepareAll([raw]) == [] by {
      assert [raw][1..] == [];
    }
    assert Removed([raw]) == [raw] by {
      assert [raw][1..] == [];
    }
  }
}

=== FILE: report.dfy ===
/** The hours report of static/js/relatorios.js: the server sends a four-level
    object group → client → employee → task group → hours, and the page shows
    one column per task group, then a row per group, per client inside it and
    per employee inside that, each with a total. JSON objects are lists of
    entries here; hours are exact reals. */
module Report {
  import opened Wrappers
  import opened Text
  import Seqs

  datatype Entry<V> = Entry(key: string, val: V)

  /** Hours of one employee per task group. */
  type Hours = seq<Entry<real>>
  /** Employees of one client. */
  type Client = seq<Entry<Hours>>
  /** Clients of one group. */
  type Group = seq<Entry<Client>>
  /** The whole report. */
  type Data = seq<Entry<Group>>

  function Keys<V>(s: seq<Entry<V>>): (r: seq<string>)
    ensures |r| == |s|
    ensures forall i :: 0 <= i < |s| ==> r[i] == s[i].key
  {
    if |s| == 0 then [] else [s[0].key] + Keys(s[1..])
  }

  /** A JSON object never repeats a key. */
  predicate UniqueKeys<V>(s: seq<Entry<V>>) {
    forall i, j :: 0 <= i < j < |s| ==> s[i].key != s[j].key
  }

  predicate ClientWellFormed(c: Client) {
    UniqueKeys(c) && forall k :: 0 <= k < |c| ==> UniqueKeys(c[k].val)
  }

  predicate GroupWellFormed(g: Group) {
    UniqueKeys(g) && forall k :: 0 <= k < |g| ==> ClientWellFormed(g[k].val)
  }

  /** No object of the report repeats a key, at any level. */
  predicate WellFormed(d: Data) {
    UniqueKeys(d) && forall k :: 0 <= k < |d| ==> GroupWellFormed(d[k].val)
  }

  /** Where `k` is stored, if anywhere. */
  function IndexOf<V>(s: seq<Entry<V>>, k: string): (r: Option<nat>)
    ensures r.Some? ==> r.value < |s| && s[r.value].key == k
    ensures r.None? <==> k !in Keys(s)
  {
    if |s| == 0 then None
    else if s[0].key == k then Some(0)
    else
      assert Keys(s) == [s[0].key] + Keys(s[1..]);
      match IndexOf(s[1..], k)
      case None => None
      case Some(i) => Some(i + 1)
  }

  /** Property access `obj[key]`: the value stored under `key`, if any. */
  function Lookup<V>(s: seq<Entry<V>>, k: string): (r: Option<V>)
    ensures r.None? <==> k !in Keys(s)
    ensures r.Some? ==> IndexOf(s, k).Some? && r.value == s[IndexOf(s, k).value].val
  {
    match IndexOf(s, k)
    case Some(i) => Some(s[i].val)
    case None => None
  }

  // ---------------------------------------------------------------------
  // Leaves and sums
  // ---------------------------------------------------------------------

  /** Every hour entry of a client, employee after employee. */
  function ClientLeaves(c: Client): Hours {
    if |c| == 0 then [] else c[0].val + ClientLeaves(c[1..])
  }

  /** Every hour entry of a group, client after client. */
  function GroupLeaves(g: Group): Hours {
    if |g| == 0 then [] else ClientLeaves(g[0].val) + GroupLeaves(g[1..])
  }

  /** Every hour entry of the report. */
  function DataLeaves(d: Data): Hours {
    if |d| == 0 then [] else GroupLeaves(d[0].val) + DataLeaves(d[1..])
  }

  function SumAll(h: Hours): real {
    if |h| == 0 then 0.0 else h[0].val + SumAll(h[1..])
  }

  /** The hours recorded under task group `t`. */
  function SumKey(h: Hours, t: string): real {
    if |h| == 0 then 0.0 else (if h[0].key == t then h[0].val else 0.0) + SumKey(h[1..], t)
  }

  lemma SumAllAppend(a: Hours, b: Hours)
    ensures SumAll(a + b) == SumAll(a) + SumAll(b)
  {
    if |a| > 0 {
      assert (a + b)[1..] == a[1..] + b;
      SumAllAppend(a[1..], b);
    } else {
      assert a + b == b;
    }
  }

  lemma SumKeyAppend(a: Hours, b: Hours, t: string)
    ensures SumKey(a + b, t) == SumKey(a, t) + SumKey(b, t)
  {
    if |a| > 0 {
      assert (a + b)[1..] == a[1..] + b;
      SumKeyAppend(a[1..], b, t);
    } else {
      assert a + b == b;
    }
  }

  /** `f` applied to every value, added up. */
  function SumEntries<V>(s: seq<Entry<V>>, f: V -> real): real {
    if |s| == 0 then 0.0 else f(s[0].val) + SumEntries(s[1..], f)
  }

  /** `f` of what is stored under `n`; a missing key counts 0. */
  function ValueAt<V>(s: seq<Entry<V>>, n: string, f: V -> real): real {
    match Lookup(s, n)
    case Some(v) => f(v)
    case None => 0.0
  }

  /** `f` of the value under each name of `ns`, added up. */
  function SumLookup<V>(ns: seq<string>, s: seq<Entry<V>>, f: V -> real): real {
    if |ns| == 0 then 0.0 else ValueAt(s, ns[0], f) + SumLookup(ns[1..], s, f)
  }

  ghost predicate Distinct(ns: seq<string>) {
    forall i, j :: 0 <= i < j < |ns| ==> ns[i] != ns[j]
  }

  lemma {:induction false} SumLookupSplit<V>(ns: seq<string>, s: seq<Entry<V>>, f: V -> real)
    requires |s| > 0 && s[0].key !in Keys(s[1..]) && Distinct(ns)
    ensures SumLookup(ns, s, f) == (if s[0].key in ns then f(s[0].val) else 0.0) + SumLookup(ns, s[1..], f)
  {
    if |ns| > 0 {
      assert Keys(s) == [s[0].key] + Keys(s[1..]);
      SumLookupSplit(ns[1..], s, f);
      if ns[0] == s[0].key {
        assert s[0].key !in ns[1..];
      } else {
        assert s[0].key in ns <==> s[0].key in ns[1..];
      }
    }
  }

  /** Summing over names that list every key once (and maybe other names)
      is summing over the entries. */
  lemma {:induction false} SumLookupAll<V>(ns: seq<string>, s: seq<Entry<V>>, f: V -> real)
    requires Distinct(ns) && UniqueKeys(s)
    requires forall i :: 0 <= i < |s| ==> s[i].key in ns
    ensures SumLookup(ns, s, f) == SumEntries(s, f)
  {
    if |s| == 0 {
      SumLookupNone(ns, s, f);
    } else {
      assert s[0].key !in Keys(s[1..]);
      SumLookupSplit(ns, s, f);
      SumLookupAll(ns, s[1..], f);
    }
  }

  lemma {:induction false} SumLookupNone<V>(ns: seq<string>, s: seq<Entry<V>>, f: V -> real)
    requires |s| == 0
    ensures SumLookup(ns, s, f) == 0.0
  {
    if |ns| > 0 {
      SumLookupNone(ns[1..], s, f);
    }
  }

  lemma SumEntriesCongruent<V>(s: seq<Entry<V>>, f: V -> real, g: V -> real)
    requires forall i :: 0 <= i < |s| ==> f(s[i].val) == g(s[i].val)
    ensures SumEntries(s, f) == SumEntries(s, g)
  {
    if |s| > 0 {
      SumEntriesCongruent(s[1..], f, g);
    }
  }

  // ---------------------------------------------------------------------
  // Columns
  // ---------------------------------------------------------------------

  /** The task columns: every task group of every leaf, once, sorted. */
  function Columns(d: Data): (r: seq<string>)
    ensures StrictlySorted(r)
    ensures Distinct(r)
    ensures forall t :: t in r <==> t in Keys(DataLeaves(d))
  {
    var names := Keys(DataLeaves(d));
    var u := Seqs.DedupBy(names, (x: string) => x);
    assert forall t :: t in u <==> t in Seqs.KeySet(u, (x: string) => x);
    assert forall t :: t in names <==> t in Seqs.KeySet(names, (x: string) => x);
    SortDistinctIsStrict(u);
    SortKeepsDistinct(u);
    var r := Sort(u);
    assert forall t :: t in r <==> t in multiset(r);
    assert forall t :: t in u <==> t in multiset(u);
    r
  }

  // ---------------------------------------------------------------------
  // Rows
  // ---------------------------------------------------------------------

  datatype Row = Row(name: string, cells: seq<real>, total: real)
  datatype ClientBlock = ClientBlock(row: Row, employees: seq<Row>)
  datatype GroupBlock = GroupBlock(row: Row, clients: seq<ClientBlock>)
  /** An empty report shows one "no data" row and no task column. */
  datatype Table = NoData | Table(columns: seq<string>, groups: seq<GroupBlock>)

  /** `funcionario[tarefa] || 0`. */
  function Cell(h: Hours, t: string): real {
    Lookup(h, t).GetOr(0.0)
  }

  function Positive(v: real): real {
    if v > 0.0 then v else 0.0
  }

  /** Employee cells, one per column. */
  function EmployeeCells(h: Hours, cols: seq<string>): (r: seq<real>)
    ensures |r| == |cols|
    ensures forall j :: 0 <= j < |cols| ==> r[j] == Cell(h, cols[j])
  {
    if |cols| == 0 then [] else [Cell(h, cols[0])] + EmployeeCells(h, cols[1..])
  }

  /** The employee total adds only the cells above zero. */
  function PositiveSum(cells: seq<real>): real {
    if |cells| == 0 then 0.0 else Positive(cells[0]) + PositiveSum(cells[1..])
  }

  function EmployeeRow(name: string, h: Hours, cols: seq<string>): Row {
    var cells := EmployeeCells(h, cols);
    Row(name, cells, PositiveSum(cells))
  }

  /** A client or group cell: the task group's hours over all its leaves. */
  function KeyCells(leaves: Hours, cols: seq<string>): (r: seq<real>)
    ensures |r| == |cols|
    ensures forall j :: 0 <= j < |cols| ==> r[j] == SumKey(leaves, cols[j])
  {
    if |cols| == 0 then [] else [SumKey(leaves, cols[0])] + KeyCells(leaves, cols[1..])
  }

  function EmployeeRows(names: seq<string>, c: Client, cols: seq<string>): (r: seq<Row>)
    ensures |r| == |names|
    ensures forall k :: 0 <= k < |names| ==> r[k].name == names[k]
    ensures forall k :: 0 <= k < |names| ==> r[k] == EmployeeRow(names[k], Lookup(c, names[k]).GetOr([]), cols)
  {
    if |names| == 0 then []
    else [EmployeeRow(names[0], Lookup(c, names[0]).GetOr([]), cols)] + EmployeeRows(names[1..], c, cols)
  }

  function ClientBlockOf(name: string, c: Client, cols: seq<string>): ClientBlock {
    var leaves := ClientLeaves(c);
    ClientBlock(Row(name, KeyCells(leaves, cols), SumAll(leaves)), EmployeeRows(Sort(Keys(c)), c, cols))
  }

  function ClientBlocks(names: seq<string>, g: Group, cols: seq<string>): (r: seq<ClientBlock>)
    ensures |r| == |names|
    ensures forall k :: 0 <= k < |names| ==> r[k].row.name == names[k]
    ensures forall k :: 0 <= k < |names| ==> r[k] == ClientBlockOf(names[k], Lookup(g, names[k]).GetOr([]), cols)
  {
    if |names| == 0 then []
    else [ClientBlockOf(names[0], Lookup(g, names[0]).GetOr([]), cols)] + ClientBlocks(names[1..], g, cols)
  }

  function GroupBlockOf(name: string, g: Group, cols: seq<string>): GroupBlock {
    var leaves := GroupLeaves(g);
    GroupBlock(Row(name, KeyCells(leaves, cols), SumAll(leaves)), ClientBlocks(Sort(Keys(g)), g, cols))
  }

  function GroupBlocks(names: seq<string>, d: Data, cols: seq<string>): (r: seq<GroupBlock>)
    ensures |r| == |names|
    ensures forall k :: 0 <= k < |names| ==> r[k].row.name == names[k]
    ensures forall k :: 0 <= k < |names| ==> r[k] == GroupBlockOf(names[k], Lookup(d, names[k]).GetOr([]), cols)
  {
    if |names| == 0 then []
    else [GroupBlockOf(names[0], Lookup(d, names[0]).GetOr([]), cols)] + GroupBlocks(names[1..], d, cols)
  }

  /** `renderizarRelatorio(dados)`. */
  function Render(d: Data): (t: Table)
    ensures t.NoData? <==> |d| == 0
    ensures t.Table? ==> t.columns == Columns(d)
    ensures t.Table? ==> |t.groups| == |d|
  {
    if |d| == 0 then NoData
    else
      var cols := Columns(d);
      Table(cols, GroupBlocks(Sort(Keys(d)), d, cols))
  }

  // ---------------------------------------------------------------------
  // Facts about the rendered table
  // ---------------------------------------------------------------------

  function SumCells(cells: seq<real>): real {
    if |cells| == 0 then 0.0 else cells[0] + SumCells(cells[1..])
  }

  function CellAt(r: Row, j: nat): real {
    if j < |r.cells| then r.cells[j] else 0.0
  }

  function RowTotals(rows: seq<Row>): real {
    if |rows| == 0 then 0.0 else rows[0].total + RowTotals(rows[1..])
  }

  function ClientTotals(bs: seq<ClientBlock>): real {
    if |bs| == 0 then 0.0 else bs[0].row.total + ClientTotals(bs[1..])
  }

  function ClientCellSum(bs: seq<ClientBlock>, j: nat): real {
    if |bs| == 0 then 0.0 else CellAt(bs[0].row, j) + ClientCellSum(bs[1..], j)
  }

  function EmployeeTotals(bs: seq<ClientBlock>): real {
    if |bs| == 0 then 0.0 else RowTotals(bs[0].employees) + EmployeeTotals(bs[1..])
  }

  // --- a row total is the sum of its cells -----------------------------

  lemma {:induction false} KeyCellsEmpty(cols: seq<string>)
    ensures SumCells(KeyCells([], cols)) == 0.0
  {
    if |cols| > 0 {
      KeyCellsEmpty(cols[1..]);
    }
  }

  lemma {:induction false} KeyCellsSplit(h: Hours, cols: seq<string>)
    requires |h| > 0 && Distinct(cols)
    ensures SumCells(KeyCells(h, cols)) == (if h[0].key in cols then h[0].val else 0.0) + SumCells(KeyCells(h[1..], cols))
  {
    if |cols| > 0 {
      KeyCellsSplit(h, cols[1..]);
      if cols[0] == h[0].key {
        assert h[0].key !in cols[1..];
      }
    }
  }

  /** When the columns list every task group of `h` once, the cells of a
      client or group row add up to its total. */
  lemma {:induction false} CellsAddUp(h: Hours, cols: seq<string>)
    requires Distinct(cols)
    requires forall i :: 0 <= i < |h| ==> h[i].key in cols
    ensures SumCells(KeyCells(h, cols)) == SumAll(h)
  {
    if |h| == 0 {
      KeyCellsEmpty(cols);
    } else {
      KeyCellsSplit(h, cols);
      CellsAddUp(h[1..], cols);
    }
  }

  // --- every leaf key is a column ---------------------------------------

  lemma {:induction false} EmployeeLeavesIn(c: Client, n: string)
    ensures forall e :: e in Lookup(c, n).GetOr([]) ==> e in ClientLeaves(c)
  {
    if |c| > 0 && c[0].key != n {
      EmployeeLeavesIn(c[1..], n);
      assert Lookup(c, n) == Lookup(c[1..], n);
    }
  }

  lemma {:induction false} ClientLeavesIn(g: Group, n: string)
    ensures forall e :: e in ClientLeaves(Lookup(g, n).GetOr([])) ==> e in GroupLeaves(g)
  {
    if |g| > 0 && g[0].key != n {
      ClientLeavesIn(g[1..], n);
      assert Lookup(g, n) == Lookup(g[1..], n);
    }
  }

  lemma {:induction false} GroupLeavesIn(d: Data, n: string)
    ensures forall e :: e in GroupLeaves(Lookup(d, n).GetOr([])) ==> e in DataLeaves(d)
  {
    if |d| > 0 && d[0].key != n {
      GroupLeavesIn(d[1..], n);
      assert Lookup(d, n) == Lookup(d[1..], n);
    }
  }

  lemma LeafIsColumn(d: Data, e: Entry<real>)
    requires e in DataLeaves(d)
    ensures e.key in Columns(d)
  {
    var s := DataLeaves(d);
    var j :| 0 <= j < |s| && s[j] == e;
    assert Keys(s)[j] == e.key;
  }

  /** Sorting the keys of an object lists each key once, in order. */
  lemma SortedKeys<V>(s: seq<Entry<V>>)
    requires UniqueKeys(s)
    ensures Distinct(Sort(Keys(s))) && StrictlySorted(Sort(Keys(s)))
    ensures forall i :: 0 <= i < |s| ==> s[i].key in Sort(Keys(s))
  {
    var ks := Keys(s);
    SortKeepsDistinct(ks);
    SortDistinctIsStrict(ks);
    forall i | 0 <= i < |s|
      ensures s[i].key in Sort(ks)
    {
      assert ks[i] in multiset(ks);
      assert ks[i] in multiset(Sort(ks));
    }
  }

  lemma GroupCellsAddUp(d: Data, name: string)
    ensures var gl := GroupLeaves(Lookup(d, name).GetOr([]));
      SumCells(KeyCells(gl, Columns(d))) == SumAll(gl)
  {
    GroupLeavesIn(d, name);
    var gl := GroupLeaves(Lookup(d, name).GetOr([]));
    forall x | 0 <= x < |gl| ensures gl[x].key in Columns(d) {
      LeafIsColumn(d, gl[x]);
    }
    CellsAddUp(gl, Columns(d));
  }

  lemma ClientCellsAddUp(d: Data, name: string, cname: string)
    ensures var cl := ClientLeaves(Lookup(Lookup(d, name).GetOr([]), cname).GetOr([]));
      SumCells(KeyCells(cl, Columns(d))) == SumAll(cl)
  {
    var g := Lookup(d, name).GetOr([]);
    GroupLeavesIn(d, name);
    ClientLeavesIn(g, cname);
    var cl := ClientLeaves(Lookup(g, cname).GetOr([]));
    forall x | 0 <= x < |cl| ensures cl[x].key in Columns(d) {
      LeafIsColumn(d, cl[x]);
    }
    CellsAddUp(cl, Columns(d));
  }

  /** Every group and client row's total is what its cells add up to: the
      columns hold every task group of the report once. */
  lemma RowTotalsAreCellSums(d: Data, i: nat, k: nat)
    requires |d| > 0
    ensures var t := Render(d);
      i < |t.groups| ==>
        && SumCells(t.groups[i].row.cells) == t.groups[i].row.total
        && (k < |t.groups[i].clients| ==>
              SumCells(t.groups[i].clients[k].row.cells) == t.groups[i].clients[k].row.total)
  {
    var t := Render(d);
    var cols := Columns(d);
    var names := Sort(Keys(d));
    if i < |t.groups| {
      var g := Lookup(d, names[i]).GetOr([]);
      assert t.groups[i] == GroupBlockOf(names[i], g, cols);
      GroupCellsAddUp(d, names[i]);
      var cnames := Sort(Keys(g));
      if k < |t.groups[i].clients| {
        assert t.groups[i].clients[k] == ClientBlockOf(cnames[k], Lookup(g, cnames[k]).GetOr([]), cols);
        ClientCellsAddUp(d, names[i], cnames[k]);
      }
    }
  }

  // --- a group row is the sum of its client rows -----------------------

  function ClientTotal(c: Client): real {
    SumAll(ClientLeaves(c))
  }

  lemma {:induction false} ClientTotalsLookup(ns: seq<string>, g: Group, cols: seq<string>)
    ensures ClientTotals(ClientBlocks(ns, g, cols)) == SumLookup(ns, g, ClientTotal)
  {
    if |ns| > 0 {
      ClientTotalsLookup(ns[1..], g, cols);
      assert ClientBlocks(ns, g, cols)[1..] == ClientBlocks(ns[1..], g, cols);
    }
  }

  lemma {:induction false} ClientCellsLookup(ns: seq<string>, g: Group, cols: seq<string>, j: nat, f: Client -> real)
    requires j < |cols|
    requires forall c :: f(c) == SumKey(ClientLeaves(c), cols[j])
    ensures ClientCellSum(ClientBlocks(ns, g, cols), j) == SumLookup(ns, g, f)
  {
    if |ns| > 0 {
      ClientCellsLookup(ns[1..], g, cols, j, f);
      assert ClientBlocks(ns, g, cols)[1..] == ClientBlocks(ns[1..], g, cols);
    }
  }

  lemma {:induction false} GroupLeavesTotal(g: Group)
    ensures SumAll(GroupLeaves(g)) == SumEntries(g, ClientTotal)
  {
    if |g| > 0 {
      SumAllAppend(ClientLeaves(g[0].val), GroupLeaves(g[1..]));
      GroupLeavesTotal(g[1..]);
    }
  }

  lemma {:induction false} GroupLeavesKeyTotal(g: Group, t: string, f: Client -> real)
    requires forall c :: f(c) == SumKey(ClientLeaves(c), t)
    ensures SumKey(GroupLeaves(g), t) == SumEntries(g, f)
  {
    if |g| > 0 {
      SumKeyAppend(ClientLeaves(g[0].val), GroupLeaves(g[1..]), t);
      GroupLeavesKeyTotal(g[1..], t, f);
    }
  }

  /** A group row's total and each of its cells are the sums of the client
      rows shown under it. */
  lemma GroupRowIsSumOfClients(name: string, g: Group, cols: seq<string>)
    requires UniqueKeys(g)
    ensures var b := GroupBlockOf(name, g, cols);
      && b.row.total == ClientTotals(b.clients)
      && forall j :: 0 <= j < |cols| ==> b.row.cells[j] == ClientCellSum(b.clients, j)
  {
    var b := GroupBlockOf(name, g, cols);
    var ns := Sort(Keys(g));
    SortedKeys(g);
    ClientTotalsLookup(ns, g, cols);
    SumLookupAll(ns, g, ClientTotal);
    GroupLeavesTotal(g);
    forall j | 0 <= j < |cols|
      ensures b.row.cells[j] == ClientCellSum(b.clients, j)
    {
      var f := (c: Client) => SumKey(ClientLeaves(c), cols[j]);
      ClientCellsLookup(ns, g, cols, j, f);
      SumLookupAll(ns, g, f);
      GroupLeavesKeyTotal(g, cols[j], f);
    }
  }

  // --- a client row and its employee rows on non-negative hours --------

  lemma {:induction false} EmployeeCellsEmpty(cols: seq<string>)
    ensures PositiveSum(EmployeeCells([], cols)) == 0.0
  {
    if |cols| > 0 {
      EmployeeCellsEmpty(cols[1..]);
    }
  }

  lemma {:induction false} PositiveSumLookup(h: Hours, cols: seq<string>)
    ensures PositiveSum(EmployeeCells(h, cols)) == SumLookup(cols, h, Positive)
  {
    if |cols| > 0 {
      PositiveSumLookup(h, cols[1..]);
      assert EmployeeCells(h, cols)[1..] == EmployeeCells(h, cols[1..]);
    }
  }

  /** An employee's total is the sum of the positive hours recorded for
      that employee, when every task group of the employee is a column. */
  lemma EmployeeTotalIsPositiveLeaves(name: string, h: Hours, cols: seq<string>)
    requires UniqueKeys(h) && Distinct(cols)
    requires forall i :: 0 <= i < |h| ==> h[i].key in cols
    ensures EmployeeRow(name, h, cols).total == SumEntries(h, Positive)
  {
    PositiveSumLookup(h, cols);
    SumLookupAll(cols, h, Positive);
  }

  lemma {:induction false} PositiveSumOfNonNegative(h: Hours)
    requires forall i :: 0 <= i < |h| ==> h[i].val >= 0.0
    ensures SumEntries(h, Positive) == SumAll(h)
  {
    if |h| > 0 {
      PositiveSumOfNonNegative(h[1..]);
    }
  }

  lemma {:induction false} EmployeeTotalsLookup(ns: seq<string>, c: Client, cols: seq<string>, f: Hours -> real)
    requires forall h :: f(h) == PositiveSum(EmployeeCells(h, cols))
    ensures RowTotals(EmployeeRows(ns, c, cols)) == SumLookup(ns, c, f)
  {
    if |ns| > 0 {
      EmployeeTotalsLookup(ns[1..], c, cols, f);
      assert EmployeeRows(ns, c, cols)[1..] == EmployeeRows(ns[1..], c, cols);
      if Lookup(c, ns[0]).None? {
        EmployeeCellsEmpty(cols);
      }
    }
  }

  lemma {:induction false} ClientLeavesTotal(c: Client)
    ensures SumAll(ClientLeaves(c)) == SumEntries(c, SumAll)
  {
    if |c| > 0 {
      SumAllAppend(c[0].val, ClientLeaves(c[1..]));
      ClientLeavesTotal(c[1..]);
    }
  }

  lemma {:induction false} EmployeeIn(c: Client, k: nat)
    requires k < |c|
    ensures forall e :: e in c[k].val ==> e in ClientLeaves(c)
  {
    if k > 0 {
      EmployeeIn(c[1..], k - 1);
    }
  }

  /** With non-negative hours, a client row's total is the sum of the
      employee rows shown under it. */
  lemma ClientRowIsSumOfEmployees(name: string, c: Client, cols: seq<string>)
    requires ClientWellFormed(c) && Distinct(cols)
    requires forall e :: e in ClientLeaves(c) ==> e.key in cols && e.val >= 0.0
    ensures ClientBlockOf(name, c, cols).row.total == RowTotals(ClientBlockOf(name, c, cols).employees)
  {
    var ns := Sort(Keys(c));
    var f := (h: Hours) => PositiveSum(EmployeeCells(h, cols));
    SortedKeys(c);
    EmployeeTotalsLookup(ns, c, cols, f);
    SumLookupAll(ns, c, f);
    EmployeeTotalsAreSums(c, cols);
    SumEntriesCongruent(c, f, SumAll);
    ClientLeavesTotal(c);
  }

  lemma EmployeeTotalsAreSums(c: Client, cols: seq<string>)
    requires ClientWellFormed(c) && Distinct(cols)
    requires forall e :: e in ClientLeaves(c) ==> e.key in cols && e.val >= 0.0
    ensures forall k :: 0 <= k < |c| ==> PositiveSum(EmployeeCells(c[k].val, cols)) == SumAll(c[k].val)
  {
    forall k | 0 <= k < |c|
      ensures PositiveSum(EmployeeCells(c[k].val, cols)) == SumAll(c[k].val)
    {
      var h := c[k].val;
      EmployeeIn(c, k);
      assert forall i :: 0 <= i < |h| ==> h[i] in ClientLeaves(c);
      EmployeeTotalIsPositiveLeaves("", h, cols);
      PositiveSumOfNonNegative(h);
    }
  }

  lemma ClientTotalsMatch(bs: seq<ClientBlock>)
    requires forall k :: 0 <= k < |bs| ==> bs[k].row.total == RowTotals(bs[k].employees)
    ensures ClientTotals(bs) == EmployeeTotals(bs)
  {
    if |bs| > 0 {
      ClientTotalsMatch(bs[1..]);
    }
  }

  /** The group stored under a name is well formed when the report is. */
  lemma FoundGroupWellFormed(d: Data, name: string)
    requires WellFormed(d)
    ensures GroupWellFormed(Lookup(d, name).GetOr([]))
  {
    if Lookup(d, name).Some? {
      assert Lookup(d, name).value == d[IndexOf(d, name).value].val;
    }
  }

  lemma FoundClientWellFormed(g: Group, name: string)
    requires GroupWellFormed(g)
    ensures ClientWellFormed(Lookup(g, name).GetOr([]))
  {
    if Lookup(g, name).Some? {
      assert Lookup(g, name).value == g[IndexOf(g, name).value].val;
    }
  }

  /** For well-formed, non-negative data, each group row's total equals the
      sum of its client rows' totals and the sum of all its employee rows'
      totals. */
  lemma TotalsAgree(d: Data, i: nat)
    requires WellFormed(d) && i < |d|
    requires forall e :: e in DataLeaves(d) ==> e.val >= 0.0
    ensures var t := Render(d);
      && t.groups[i].row.total == ClientTotals(t.groups[i].clients)
      && t.groups[i].row.total == EmployeeTotals(t.groups[i].clients)
  {
    var t := Render(d);
    var cols := Columns(d);
    var names := Sort(Keys(d));
    var g := Lookup(d, names[i]).GetOr([]);
    assert t.groups[i] == GroupBlockOf(names[i], g, cols);
    FoundGroupWellFormed(d, names[i]);
    GroupRowIsSumOfClients(names[i], g, cols);
    GroupLeavesIn(d, names[i]);
    var bs := t.groups[i].clients;
    var cnames := Sort(Keys(g));
    forall k | 0 <= k < |bs|
      ensures bs[k].row.total == RowTotals(bs[k].employees)
    {
      var c := Lookup(g, cnames[k]).GetOr([]);
      assert bs[k] == ClientBlockOf(cnames[k], c, cols);
      FoundClientWellFormed(g, cnames[k]);
      ClientLeavesIn(g, cnames[k]);
      forall e | e in ClientLeaves(c)
        ensures e.key in cols && e.val >= 0.0
      {
        LeafIsColumn(d, e);
      }
      ClientRowIsSumOfEmployees(cnames[k], c, cols);
    }
    ClientTotalsMatch(bs);
  }

  // --- row order ---------------------------------------------------------

  function GroupNames(bs: seq<GroupBlock>): (r: seq<string>)
    ensures |r| == |bs| && forall j :: 0 <= j < |bs| ==> r[j] == bs[j].row.name
  {
    if |bs| == 0 then [] else [bs[0].row.name] + GroupNames(bs[1..])
  }

  function ClientNames(bs: seq<ClientBlock>): (r: seq<string>)
    ensures |r| == |bs| && forall j :: 0 <= j < |bs| ==> r[j] == bs[j].row.name
  {
    if |bs| == 0 then [] else [bs[0].row.name] + ClientNames(bs[1..])
  }

  function EmployeeNames(rows: seq<Row>): (r: seq<string>)
    ensures |r| == |rows| && forall j :: 0 <= j < |rows| ==> r[j] == rows[j].name
  {
    if |rows| == 0 then [] else [rows[0].name] + EmployeeNames(rows[1..])
  }

  lemma ClientBlockOrder(name: string, c: Client, cols: seq<string>)
    requires ClientWellFormed(c)
    ensures var rows := ClientBlockOf(name, c, cols).employees;
      StrictlySorted(EmployeeNames(rows)) && multiset(EmployeeNames(rows)) == multiset(Keys(c))
  {
    SortedKeys(c);
    assert EmployeeNames(ClientBlockOf(name, c, cols).employees) == Sort(Keys(c));
  }

  lemma GroupBlockOrder(name: string, g: Group, cols: seq<string>, k: nat)
    requires GroupWellFormed(g)
    ensures var bs := GroupBlockOf(name, g, cols).clients;
      && StrictlySorted(ClientNames(bs))
      && multiset(ClientNames(bs)) == multiset(Keys(g))
      && (k < |bs| ==>
            var c := Lookup(g, bs[k].row.name).GetOr([]);
            && StrictlySorted(EmployeeNames(bs[k].employees))
            && multiset(EmployeeNames(bs[k].employees)) == multiset(Keys(c)))
  {
    var bs := GroupBlockOf(name, g, cols).clients;
    var cnames := Sort(Keys(g));
    SortedKeys(g);
    assert ClientNames(bs) == cnames;
    if k < |bs| {
      var c := Lookup(g, cnames[k]).GetOr([]);
      assert bs[k] == ClientBlockOf(cnames[k], c, cols);
      FoundClientWellFormed(g, cnames[k]);
      ClientBlockOrder(cnames[k], c, cols);
    }
  }

  /** Rows come in increasing name order at every level, and each level
      shows each key of its object exactly once. */
  lemma RowsInKeyOrder(d: Data, i: nat, k: nat)
    requires WellFormed(d) && |d| > 0
    ensures var t := Render(d);
      && StrictlySorted(GroupNames(t.groups))
      && multiset(GroupNames(t.groups)) == multiset(Keys(d))
      && (i < |t.groups| ==>
            var g := Lookup(d, t.groups[i].row.name).GetOr([]);
            && StrictlySorted(ClientNames(t.groups[i].clients))
            && multiset(ClientNames(t.groups[i].clients)) == multiset(Keys(g))
            && (k < |t.groups[i].clients| ==>
                  var c := Lookup(g, t.groups[i].clients[k].row.name).GetOr([]);
                  && StrictlySorted(EmployeeNames(t.groups[i].clients[k].employees))
                  && multiset(EmployeeNames(t.groups[i].clients[k].employees)) == multiset(Keys(c))))
  {
    var names := Sort(Keys(d));
    GroupsInKeyOrder(d);
    if i < |names| {
      GroupAtIsSorted(d, i, k);
    }
  }

  lemma GroupsInKeyOrder(d: Data)
    requires WellFormed(d) && |d| > 0
    ensures GroupNames(Render(d).groups) == Sort(Keys(d))
    ensures StrictlySorted(Sort(Keys(d))) && multiset(Sort(Keys(d))) == multiset(Keys(d))
  {
    GroupNamesOfRender(d);
    SortedKeys(d);
  }

  lemma GroupNamesOfRender(d: Data)
    requires |d| > 0
    ensures GroupNames(Render(d).groups) == Sort(Keys(d))
  {
    NamesOfBlocks(Render(d).groups, Sort(Keys(d)));
  }

  lemma NamesOfBlocks(bs: seq<GroupBlock>, names: seq<string>)
    requires |bs| == |names| && forall k :: 0 <= k < |bs| ==> bs[k].row.name == names[k]
    ensures GroupNames(bs) == names
  {
  }

  lemma GroupAtIsSorted(d: Data, i: nat, k: nat)
    requires WellFormed(d) && i < |Sort(Keys(d))|
    ensures var names := Sort(Keys(d));
      var b := GroupBlockOf(names[i], Lookup(d, names[i]).GetOr([]), Columns(d));
      var g := Lookup(d, names[i]).GetOr([]);
      && Render(d).groups[i] == b
      && StrictlySorted(ClientNames(b.clients))
      && multiset(ClientNames(b.clients)) == multiset(Keys(g))
      && (k < |b.clients| ==>
            var c := Lookup(g, b.clients[k].row.name).GetOr([]);
            && StrictlySorted(EmployeeNames(b.clients[k].employees))
            && multiset(EmployeeNames(b.clients[k].employees)) == multiset(Keys(c)))
  {
    var names := Sort(Keys(d));
    FoundGroupWellFormed(d, names[i]);
    GroupBlockOrder(names[i], Lookup(d, names[i]).GetOr([]), Columns(d), k);
  }

  // ---------------------------------------------------------------------
  // formatarHoras
  // ---------------------------------------------------------------------

  /** `Math.round`: halves go up. */
  function Round(x: real): (r: int)
    ensures x - 0.5 < r as real <= x + 0.5
  {
    (x + 0.5).Floor
  }

  /** `formatarHoras(horas)`: `-` for a missing value or zero, otherwise
      whole hours and the fraction rounded to minutes, each padded to two
      characters. */
  function FormatHours(horas: Option<real>): (r: string)
    ensures horas.None? || horas == Some(0.0) ==> r == "-"
    ensures horas.Some? && horas.value < 0.0 ==> |r| > 0 && r[0] == '-'
  {
    match horas
    case None => "-"
    case Some(x) =>
      if x == 0.0 then "-"
      else
        var h := x.Floor;
        var m := Round((x - h as real) * 60.0);
        Pad2(IntToString(h)) + ":" + Pad2(IntToString(m))
  }

  /** The hour and minute fields of `H..H:MM`. */
  function SplitHours(r: string): Option<(string, string)> {
    if |r| < 5 || r[|r| - 3] != ':' then None
    else Some((r[..|r| - 3], r[|r| - 2..]))
  }

  /** Reads `H..H:MM` back as a number of minutes. */
  function ReadHours(r: string): Option<int> {
    match SplitHours(r)
    case None => None
    case Some((h, m)) =>
      if AllDigits(h) && AllDigits(m) then Some(ParseNat(h) * 60 + ParseNat(m)) else None
  }

  lemma SplitHoursJoined(H: string, M: string)
    requires |H| >= 2 && |M| == 2
    ensures SplitHours(H + ":" + M) == Some((H, M))
  {
    var r := H + ":" + M;
    assert r[..|r| - 3] == H;
    assert r[|r| - 2..] == M;
  }

  lemma MinuteField(x: real)
    requires x > 0.0
    ensures 0 <= Round((x - x.Floor as real) * 60.0) <= 60
    ensures x.Floor * 60 + Round((x - x.Floor as real) * 60.0) == Round(x * 60.0)
  {
    var h := x.Floor;
    var y := (x - h as real) * 60.0;
    assert 0.0 <= y < 60.0;
    assert x * 60.0 + 0.5 == y + 0.5 + (h * 60) as real;
  }

  lemma ReadPad2Nat(n: nat)
    ensures AllDigits(Pad2(NatToString(n))) && ParseNat(Pad2(NatToString(n))) == n
    ensures n < 100 ==> |Pad2(NatToString(n))| == 2
  {
    var s := NatToString(n);
    ParseNatToString(n);
    if |s| < 2 {
      ParseNatLeadingZeros(2 - |s|, s);
    }
    if n >= 10 && n < 100 {
      assert s == NatToString(n / 10) + [DigitChar(n % 10)];
    }
  }

  function HoursText(h: nat, m: nat): string {
    Pad2(NatToString(h)) + ":" + Pad2(NatToString(m))
  }

  lemma ReadHoursText(h: nat, m: nat)
    requires m < 100
    ensures ReadHours(HoursText(h, m)) == Some(h * 60 + m)
  {
    ReadPad2Nat(h);
    ReadPad2Nat(m);
    SplitHoursJoined(Pad2(NatToString(h)), Pad2(NatToString(m)));
  }

  lemma FormatHoursIsText(x: real)
    requires x > 0.0
    ensures x.Floor >= 0 && 0 <= Round((x - x.Floor as real) * 60.0) <= 60
    ensures x.Floor * 60 + Round((x - x.Floor as real) * 60.0) == Round(x * 60.0)
    ensures FormatHours(Some(x)) == HoursText(x.Floor, Round((x - x.Floor as real) * 60.0))
  {
    MinuteField(x);
  }

  /** A positive amount of hours is shown as the whole hours and the
      minutes that, read back, give the amount rounded to the nearest
      minute; the minute field is at most 60. */
  lemma FormatHoursReadsBack(x: real)
    requires x > 0.0
    ensures ReadHours(FormatHours(Some(x))) == Some(Round(x * 60.0))
  {
    FormatHoursIsText(x);
    ReadHoursText(x.Floor, Round((x - x.Floor as real) * 60.0));
  }

  /** A fraction close enough to the next hour shows 60 minutes. */
  lemma SixtyMinutes()
    ensures FormatHours(Some(1.999)) == "01:60"
  {
    assert (1.999).Floor == 1;
    assert Round((1.999 - 1.0) * 60.0) == 60;
    assert NatToString(60) == NatToString(6) + ['0'];
  }
}

=== FILE: seqs.dfy ===
/** Generic sequence facts used by the importers and the alert job:
    order-preserving filtering, subsequences, and de-duplication that keeps the
    first row of every key (pandas `drop_duplicates(keep='first')`). */
module Seqs {
  import opened Wrappers

  /** No two positions hold elements with the same key. */
  predicate DistinctKeys<T, K(==)>(s: seq<T>, key: T -> K) {
    forall i, j :: 0 <= i < j < |s| ==> key(s[i]) != key(s[j])
  }

  function KeySet<T, K>(s: seq<T>, key: T -> K): set<K> {
    set i | 0 <= i < |s| :: key(s[i])
  }

  /** `a` is `b` with some elements left out and the rest kept in order. */
  predicate IsSubseq<T(==)>(a: seq<T>, b: seq<T>) {
    if |a| == 0 then true
    else if |b| == 0 then false
    else if a[0] == b[0] then IsSubseq(a[1..], b[1..])
    else IsSubseq(a, b[1..])
  }

  lemma {:induction false} SubseqElements<T>(a: seq<T>, b: seq<T>)
    requires IsSubseq(a, b)
    ensures forall x :: x in a ==> x in b
  {
    if |a| > 0 {
      if a[0] == b[0] {
        SubseqElements(a[1..], b[1..]);
        assert a == [a[0]] + a[1..];
      } else {
        SubseqElements(a, b[1..]);
      }
    }
  }

  lemma {:induction false} SubseqDropHead<T>(a: seq<T>, b: seq<T>)
    requires |a| > 0 && IsSubseq(a, b)
    ensures IsSubseq(a[1..], b)
    decreases |a| + |b|, 0
  {
    if a[0] == b[0] {
      SubseqWiden(a[1..], b[1..], b[0]);
    } else {
      SubseqDropHead(a, b[1..]);
      SubseqWiden(a[1..], b[1..], b[0]);
    }
  }

  lemma {:induction false} SubseqWiden<T>(a: seq<T>, b: seq<T>, x: T)
    requires IsSubseq(a, b)
    ensures IsSubseq(a, [x] + b)
    decreases |a| + |b|, 1
  {
    if |a| > 0 && a[0] == x {
      assert ([x] + b)[1..] == b;
      SubseqDropHead(a, b);
    }
    assert ([x] + b)[1..] == b;
  }

  lemma {:induction false} SubseqTransitive<T>(a: seq<T>, b: seq<T>, c: seq<T>)
    requires IsSubseq(a, b) && IsSubseq(b, c)
    ensures IsSubseq(a, c)
    decreases |c|
  {
    if |a| > 0 {
      if b[0] == c[0] {
        if a[0] == b[0] {
          SubseqTransitive(a[1..], b[1..], c[1..]);
        } else {
          SubseqTransitive(a, b[1..], c[1..]);
        }
      } else {
        SubseqTransitive(a, b, c[1..]);
        if a[0] == c[0] {
          SubseqDropHead(a, c[1..]);
        }
      }
    }
  }

  lemma {:induction false} SubseqReflexive<T>(a: seq<T>)
    ensures IsSubseq(a, a)
  {
    if |a| > 0 {
      SubseqReflexive(a[1..]);
    }
  }

  /** Leaving rows out cannot create a duplicate key. */
  lemma {:induction false} SubseqKeepsDistinctKeys<T, K>(a: seq<T>, b: seq<T>, key: T -> K)
    requires IsSubseq(a, b) && DistinctKeys(b, key)
    ensures DistinctKeys(a, key)
  {
    if |a| > 0 {
      if a[0] == b[0] {
        SubseqKeepsDistinctKeys(a[1..], b[1..], key);
        SubseqElements(a[1..], b[1..]);
        forall j | 0 < j < |a|
          ensures key(a[0]) != key(a[j])
        {
          assert a[j] == a[1..][j - 1];
          assert a[j] in a[1..];
          assert a[j] in b[1..];
          var k :| 0 <= k < |b[1..]| && b[1..][k] == a[j];
          assert b[k + 1] == a[j];
        }
        forall i, j | 0 <= i < j < |a|
          ensures key(a[i]) != key(a[j])
        {
          if i > 0 {
            assert a[i] == a[1..][i - 1] && a[j] == a[1..][j - 1];
          }
        }
      } else {
        SubseqKeepsDistinctKeys(a, b[1..], key);
      }
    }
  }

  // ---------------------------------------------------------------------
  // Filtering
  // ---------------------------------------------------------------------

  /** The elements satisfying `p`, in their original order (`df[mask]`). */
  function Filter<T(==)>(s: seq<T>, p: T -> bool): (r: seq<T>)
    ensures forall i :: 0 <= i < |r| ==> r[i] in s && p(r[i])
    ensures forall i :: 0 <= i < |s| && p(s[i]) ==> s[i] in r
    ensures |r| <= |s|
  {
    if |s| == 0 then []
    else if p(s[0]) then [s[0]] + Filter(s[1..], p)
    else Filter(s[1..], p)
  }

  /** Filtering by two predicates that agree everywhere gives the same sequence. */
  lemma {:induction false} FilterCongruent<T>(s: seq<T>, p: T -> bool, q: T -> bool)
    requires forall x :: p(x) == q(x)
    ensures Filter(s, p) == Filter(s, q)
  {
    if |s| > 0 {
      FilterCongruent(s[1..], p, q);
    }
  }

  lemma {:induction false} FilterIsSubseq<T>(s: seq<T>, p: T -> bool)
    ensures IsSubseq(Filter(s, p), s)
  {
    if |s| > 0 {
      FilterIsSubseq(s[1..], p);
      if !p(s[0]) && |Filter(s[1..], p)| > 0 {
        SubseqWiden(Filter(s[1..], p), s[1..], s[0]);
        assert [s[0]] + s[1..] == s;
      }
    }
  }

  lemma {:induction false} FilterAll<T>(s: seq<T>, p: T -> bool)
    requires forall i :: 0 <= i < |s| ==> p(s[i])
    ensures Filter(s, p) == s
  {
    if |s| > 0 {
      FilterAll(s[1..], p);
    }
  }

  lemma FilterAppend<T>(a: seq<T>, b: seq<T>, p: T -> bool)
    ensures Filter(a + b, p) == Filter(a, p) + Filter(b, p)
  {
    if |a| > 0 {
      assert (a + b)[1..] == a[1..] + b;
      FilterAppend(a[1..], b, p);
    } else {
      assert a + b == b;
    }
  }

  /** Maps every element and keeps the present results, in order (the
      order and the one-for-one correspondence are `FilterMapOrder`). */
  function FilterMap<A, B>(s: seq<A>, f: A -> Option<B>): (r: seq<B>)
    ensures |r| <= |s|
    ensures forall i :: 0 <= i < |s| && f(s[i]).Some? ==> f(s[i]).value in r
    ensures forall y :: y in r ==> exists j :: 0 <= j < |s| && f(s[j]) == Some(y)
  {
    if |s| == 0 then []
    else
      var rest := FilterMap(s[1..], f);
      assert forall y :: y in rest ==> exists j :: 0 <= j < |s| && f(s[j]) == Some(y) by {
        forall y | y in rest
          ensures exists j :: 0 <= j < |s| && f(s[j]) == Some(y)
        {
          var j :| 0 <= j < |s[1..]| && f(s[1..][j]) == Some(y);
          assert f(s[j + 1]) == Some(y);
        }
      }
      match f(s[0])
      case None => rest
      case Some(y) => [y] + rest
  }

  /** `FilterMap` keeps, in order and one for one, the values of the
      elements that `Filter` keeps with any predicate saying where `f` is
      defined. */
  lemma {:induction false} FilterMapOrder<A, B>(s: seq<A>, f: A -> Option<B>, p: A -> bool)
    requires forall x :: p(x) == f(x).Some?
    ensures |FilterMap(s, f)| == |Filter(s, p)|
    ensures forall i :: 0 <= i < |FilterMap(s, f)| ==> f(Filter(s, p)[i]) == Some(FilterMap(s, f)[i])
  {
    if |s| > 0 {
      FilterMapOrder(s[1..], f, p);
      var r, k := FilterMap(s[1..], f), Filter(s[1..], p);
      if f(s[0]).Some? {
        assert FilterMap(s, f) == [f(s[0]).value] + r && Filter(s, p) == [s[0]] + k;
        ImageCons(f, s[0], r, k);
      } else {
        assert FilterMap(s, f) == r && Filter(s, p) == k;
      }
    }
  }

  /** Putting a kept element in front of both sequences keeps them
      related one for one. */
  lemma ImageCons<A, B>(f: A -> Option<B>, x: A, r: seq<B>, k: seq<A>)
    requires f(x).Some? && |r| == |k|
    requires forall i :: 0 <= i < |r| ==> f(k[i]) == Some(r[i])
    ensures forall i :: 0 <= i < |r| + 1 ==> f(([x] + k)[i]) == Some(([f(x).value] + r)[i])
  {
    forall i | 0 <= i < |r| + 1
      ensures f(([x] + k)[i]) == Some(([f(x).value] + r)[i])
    {
      if i > 0 {
        assert ([x] + k)[i] == k[i - 1] && ([f(x).value] + r)[i] == r[i - 1];
      }
    }
  }

  // ---------------------------------------------------------------------
  // De-duplication keeping first occurrences
  // ---------------------------------------------------------------------

  /** The first element whose key is `k`, if any. */
  function FirstWith<T(==), K(==)>(s: seq<T>, key: T -> K, k: K): Option<T> {
    if |s| == 0 then None
    else if key(s[0]) == k then Some(s[0])
    else FirstWith(s[1..], key, k)
  }

  /** `FirstWith` finds the earliest element with the key. */
  lemma {:induction false} FirstWithIndex<T, K>(s: seq<T>, key: T -> K, k: K)
    requires FirstWith(s, key, k).Some?
    ensures exists i :: (0 <= i < |s| && s[i] == FirstWith(s, key, k).value && key(s[i]) == k &&
      forall j :: 0 <= j < i ==> key(s[j]) != k)
  {
    if key(s[0]) != k {
      FirstWithIndex(s[1..], key, k);
      var i :| 0 <= i < |s[1..]| && s[1..][i] == FirstWith(s[1..], key, k).value && key(s[1..][i]) == k &&
        (forall j :: 0 <= j < i ==> key(s[1..][j]) != k);
      assert s[i + 1] == s[1..][i];
      forall j | 0 <= j < i + 1
        ensures key(s[j]) != k
      {
        if j > 0 {
          assert s[j] == s[1..][j - 1];
        }
      }
    }
  }

  /** Walks `s` left to right and keeps an element iff its key was not seen
      before (in `seen` or on an element already kept). */
  function DedupFrom<T(==), K(==)>(s: seq<T>, key: T -> K, seen: set<K>): (r: seq<T>)
    ensures forall i :: 0 <= i < |r| ==> key(r[i]) !in seen
    ensures DistinctKeys(r, key)
    ensures IsSubseq(r, s)
    ensures KeySet(r, key) == KeySet(s, key) - seen
    ensures forall i :: 0 <= i < |r| ==> FirstWith(s, key, key(r[i])) == Some(r[i])
  {
    if |s| == 0 then []
    else if key(s[0]) in seen then
      var r := DedupFrom(s[1..], key, seen);
      KeySetCons(s, key);
      SubseqWidenTail(r, s);
      r
    else
      var t := DedupFrom(s[1..], key, seen + {key(s[0])});
      var r := [s[0]] + t;
      KeySetCons(s, key);
      assert r[1..] == t;
      KeySetCons(r, key);
      assert forall i :: 0 < i < |r| ==> r[i] == t[i - 1];
      r
  }

  lemma KeySetCons<T, K>(s: seq<T>, key: T -> K)
    requires |s| > 0
    ensures KeySet(s, key) == {key(s[0])} + KeySet(s[1..], key)
  {
    var t := s[1..];
    forall k | k in KeySet(s, key)
      ensures k in {key(s[0])} + KeySet(t, key)
    {
      var i :| 0 <= i < |s| && key(s[i]) == k;
      if i > 0 {
        assert s[i] == t[i - 1];
      }
    }
    forall k | k in {key(s[0])} + KeySet(t, key)
      ensures k in KeySet(s, key)
    {
      if k != key(s[0]) {
        var i :| 0 <= i < |t| && key(t[i]) == k;
        assert s[i + 1] == t[i];
      }
    }
  }

  lemma SubseqWidenTail<T>(a: seq<T>, s: seq<T>)
    requires |s| > 0 && IsSubseq(a, s[1..])
    ensures IsSubseq(a, s)
  {
    SubseqWiden(a, s[1..], s[0]);
    assert [s[0]] + s[1..] == s;
  }

  /** `drop_duplicates(subset=[key], keep='first')`. */
  function DedupBy<T(==), K(==)>(s: seq<T>, key: T -> K): (r: seq<T>)
    ensures DistinctKeys(r, key)
    ensures IsSubseq(r, s)
    ensures KeySet(r, key) == KeySet(s, key)
    ensures forall i :: 0 <= i < |r| ==> FirstWith(s, key, key(r[i])) == Some(r[i])
  {
    DedupFrom(s, key, {})
  }

  lemma {:induction false} DedupFromDistinct<T, K>(s: seq<T>, key: T -> K, seen: set<K>)
    requires DistinctKeys(s, key)
    requires forall i :: 0 <= i < |s| ==> key(s[i]) !in seen
    ensures DedupFrom(s, key, seen) == s
  {
    if |s| > 0 {
      DedupFromDistinct(s[1..], key, seen + {key(s[0])});
    }
  }

  /** Without duplicates there is nothing to drop. */
  lemma DedupByDistinct<T, K>(s: seq<T>, key: T -> K)
    requires DistinctKeys(s, key)
    ensures DedupBy(s, key) == s
  {
    DedupFromDistinct(s, key, {});
  }
}

=== FILE: task_ledger.dfy ===
/** The browser-side list of active tasks kept by the chat page (`activeTasks`
    in static/js/chat.js): several tasks may run at once, each with its own
    pause accounting. Every transition is applied only after the server
    answered; the server's answer is a parameter here. Times are integer
    milliseconds, as `Date` arithmetic yields. */
module TaskLedger {
  import opened Wrappers
  import Seqs

  datatype Status = EmAndamento | Pausado

  /** One entry of `activeTasks`. `pauseStartTime` is `None` for `null`. */
  datatype Task = Task(
    id: int,
    client: string,
    taskName: string,
    cnpj: string,
    startTime: int,
    totalPausedTime: int,
    pauseStartTime: Option<int>,
    status: Status)

  /** The option chosen in the task select box. */
  datatype TaskChoice = TaskChoice(taskId: int, taskName: string)

  /** What `/api/iniciar-tarefa` answered. */
  datatype StartReply = Started(apontamentoId: int, dataInicio: int) | StartRejected | StartUnreachable

  /** What `/api/pausar-tarefa` or `/api/retomar-tarefa` answered. */
  datatype Reply = Accepted | Rejected | Unreachable

  /** What `/api/finalizar-tarefa` answered; on a rejection the user is asked
      whether to drop the card anyway. */
  datatype FinishReply = Finished | FinishRejected(userConfirmsRemoval: bool) | FinishUnreachable

  // ---------------------------------------------------------------------
  // Lookup
  // ---------------------------------------------------------------------

  /** `activeTasks.find(t => t.id === id)`, as the index of the first match. */
  function FindIndex(tasks: seq<Task>, id: int): (r: Option<nat>)
    ensures r.Some? ==> r.value < |tasks| && tasks[r.value].id == id
    ensures r.Some? ==> forall j :: 0 <= j < r.value ==> tasks[j].id != id
    ensures r.None? ==> forall j :: 0 <= j < |tasks| ==> tasks[j].id != id
  {
    if |tasks| == 0 then None
    else if tasks[0].id == id then Some(0)
    else match FindIndex(tasks[1..], id)
      case None => None
      case Some(k) => Some(k + 1)
  }

  predicate UniqueIds(tasks: seq<Task>) {
    forall i, j :: 0 <= i < j < |tasks| ==> tasks[i].id != tasks[j].id
  }

  // ---------------------------------------------------------------------
  // Transitions of a single record
  // ---------------------------------------------------------------------

  /** The record pushed after a successful start: nothing paused yet. */
  function NewTask(id: int, client: string, choice: TaskChoice, cnpj: string, startTime: int): (t: Task)
    ensures t.totalPausedTime == 0 && t.pauseStartTime.None? && t.status == EmAndamento
    ensures t.id == id && t.startTime == startTime && t.taskName == choice.taskName
  {
    Task(id, client, choice.taskName, cnpj, startTime, 0, None, EmAndamento)
  }

  /** Pausing opens a pause at `now`. */
  function PauseTask(t: Task, now: int): (r: Task)
    ensures r.pauseStartTime == Some(now) && r.status == Pausado
    ensures r.(pauseStartTime := t.pauseStartTime, status := t.status) == t
  {
    t.(pauseStartTime := Some(now), status := Pausado)
  }

  /** Resuming closes the open pause and adds its length to the paused total.
      With no open pause the source subtracts `null`, which JavaScript reads
      as 0, so `now` itself is added. */
  function ResumeTask(t: Task, now: int): (r: Task)
    ensures r.pauseStartTime.None? && r.status == EmAndamento
    ensures t.pauseStartTime.Some? ==> r.totalPausedTime == t.totalPausedTime + (now - t.pauseStartTime.value)
    ensures t.pauseStartTime.Some? && t.pauseStartTime.value <= now ==> r.totalPausedTime >= t.totalPausedTime
    ensures t.pauseStartTime.None? ==> r.totalPausedTime == t.totalPausedTime + now
    ensures r.(totalPausedTime := t.totalPausedTime, pauseStartTime := t.pauseStartTime, status := t.status) == t
  {
    var openedAt := match t.pauseStartTime case Some(p) => p case None => 0;
    t.(totalPausedTime := t.totalPausedTime + (now - openedAt), pauseStartTime := None, status := EmAndamento)
  }

  // ---------------------------------------------------------------------
  // Transitions of the list
  // ---------------------------------------------------------------------

  /** Submitting the start form: nothing happens without a selected client and
      task; on success the new task is appended. */
  function Start(tasks: seq<Task>, cnpj: string, client: string, choice: Option<TaskChoice>, reply: StartReply): (r: seq<Task>)
    ensures (cnpj == "" || choice.None? || !reply.Started?) ==> r == tasks
    ensures cnpj != "" && choice.Some? && reply.Started? ==>
      && |r| == |tasks| + 1
      && r[..|tasks|] == tasks
      && r[|tasks|].id == reply.apontamentoId
      && r[|tasks|].startTime == reply.dataInicio
      && r[|tasks|].totalPausedTime == 0
      && r[|tasks|].pauseStartTime.None?
      && r[|tasks|].status == EmAndamento
  {
    if cnpj == "" || choice.None? then tasks
    else match reply
      case Started(id, t) => tasks + [NewTask(id, client, choice.value, cnpj, t)]
      case _ => tasks
  }

  /** `pausarTarefa`: on success the first task with that id is paused. */
  function Pause(tasks: seq<Task>, id: int, now: int, reply: Reply): (r: seq<Task>)
    ensures |r| == |tasks|
    ensures reply != Accepted || FindIndex(tasks, id).None? ==> r == tasks
    ensures reply == Accepted && FindIndex(tasks, id).Some? ==>
      var k := FindIndex(tasks, id).value;
      && r[k].pauseStartTime == Some(now) && r[k].status == Pausado
      && r[k].(pauseStartTime := tasks[k].pauseStartTime, status := tasks[k].status) == tasks[k]
      && r[k].id == id
      && forall j :: 0 <= j < |tasks| && j != k ==> r[j] == tasks[j]
  {
    if reply != Accepted then tasks
    else match FindIndex(tasks, id)
      case None => tasks
      case Some(k) => tasks[k := PauseTask(tasks[k], now)]
  }

  /** `retomarTarefa`: on success the first task with that id is resumed. */
  function Resume(tasks: seq<Task>, id: int, now: int, reply: Reply): (r: seq<Task>)
    ensures |r| == |tasks|
    ensures reply != Accepted || FindIndex(tasks, id).None? ==> r == tasks
    ensures reply == Accepted && FindIndex(tasks, id).Some? ==>
      var k := FindIndex(tasks, id).value;
      && r[k].pauseStartTime.None? && r[k].status == EmAndamento
      && (tasks[k].pauseStartTime.Some? ==>
            r[k].totalPausedTime == tasks[k].totalPausedTime + (now - tasks[k].pauseStartTime.value))
      && (tasks[k].pauseStartTime.None? ==> r[k].totalPausedTime == tasks[k].totalPausedTime + now)
      && r[k].(totalPausedTime := tasks[k].totalPausedTime, pauseStartTime := tasks[k].pauseStartTime,
               status := tasks[k].status) == tasks[k]
      && r[k].id == id
      && forall j :: 0 <= j < |tasks| && j != k ==> r[j] == tasks[j]
  {
    if reply != Accepted then tasks
    else match FindIndex(tasks, id)
      case None => tasks
      case Some(k) => tasks[k := ResumeTask(tasks[k], now)]
  }

  /** `activeTasks.filter(t => t.id !== id)`. */
  function RemoveId(tasks: seq<Task>, id: int): (r: seq<Task>)
    ensures forall i :: 0 <= i < |r| ==> r[i].id != id && r[i] in tasks
    ensures forall i :: 0 <= i < |tasks| && tasks[i].id != id ==> tasks[i] in r
    ensures Seqs.IsSubseq(r, tasks)
  {
    Seqs.FilterIsSubseq(tasks, (t: Task) => t.id != id);
    Seqs.Filter(tasks, (t: Task) => t.id != id)
  }

  /** `finalizarTarefa`: an id that is not listed is ignored before any request;
      otherwise the task leaves the list when the server confirms, or when the
      server refuses and the user still asks for the card to go. */
  function Finish(tasks: seq<Task>, id: int, reply: FinishReply): (r: seq<Task>)
    ensures FindIndex(tasks, id).None? ==> r == tasks
    ensures FindIndex(tasks, id).Some? && (reply.Finished? || reply == FinishRejected(true)) ==> r == RemoveId(tasks, id)
    ensures reply.FinishUnreachable? || reply == FinishRejected(false) ==> r == tasks
  {
    if FindIndex(tasks, id).None? then tasks
    else match reply
      case Finished => RemoveId(tasks, id)
      case FinishRejected(confirm) => if confirm then RemoveId(tasks, id) else tasks
      case FinishUnreachable => tasks
  }

  /** With distinct ids, removing the task at position `k` keeps every other
      task, in order. */
  lemma {:induction false} RemoveUniqueId(tasks: seq<Task>, k: nat)
    requires UniqueIds(tasks) && k < |tasks|
    ensures RemoveId(tasks, tasks[k].id) == tasks[..k] + tasks[k + 1..]
  {
    var id := tasks[k].id;
    RemoveStep(tasks, id);
    if k == 0 {
      OthersHaveOtherIds(tasks);
      RemoveAbsent(tasks[1..], id);
    } else {
      UniqueIdsTail(tasks);
      RemoveUniqueId(tasks[1..], k - 1);
      assert tasks[1..][k - 1] == tasks[k];
      assert tasks[0].id != id;
      SpliceHead(tasks, k);
    }
  }

  /** Cutting out position `k > 0` keeps the head in front of the cut tail. */
  lemma SpliceHead(tasks: seq<Task>, k: nat)
    requires 0 < k < |tasks|
    ensures tasks[..k] + tasks[k + 1..] == [tasks[0]] + (tasks[1..][..k - 1] + tasks[1..][k..])
  {
    assert tasks[..k] == [tasks[0]] + tasks[1..][..k - 1];
    assert tasks[k + 1..] == tasks[1..][k..];
  }

  lemma UniqueIdsTail(tasks: seq<Task>)
    requires UniqueIds(tasks) && |tasks| > 0
    ensures UniqueIds(tasks[1..])
  {
    forall i, j | 0 <= i < j < |tasks| - 1
      ensures tasks[1..][i].id != tasks[1..][j].id
    {
      assert tasks[1..][i] == tasks[i + 1] && tasks[1..][j] == tasks[j + 1];
    }
  }

  lemma OthersHaveOtherIds(tasks: seq<Task>)
    requires UniqueIds(tasks) && |tasks| > 0
    ensures forall i :: 0 <= i < |tasks[1..]| ==> tasks[1..][i].id != tasks[0].id
  {
    forall i | 0 <= i < |tasks[1..]|
      ensures tasks[1..][i].id != tasks[0].id
    {
      assert tasks[1..][i] == tasks[i + 1];
    }
  }

  lemma RemoveStep(tasks: seq<Task>, id: int)
    requires |tasks| > 0
    ensures RemoveId(tasks, id) == (if tasks[0].id == id then [] else [tasks[0]]) + RemoveId(tasks[1..], id)
  {
  }

  lemma {:induction false} RemoveAbsent(tasks: seq<Task>, id: int)
    requires forall i :: 0 <= i < |tasks| ==> tasks[i].id != id
    ensures RemoveId(tasks, id) == tasks
  {
    if |tasks| > 0 {
      RemoveStep(tasks, id);
      RemoveAbsent(tasks[1..], id);
    }
  }

  /** A successful finish of a listed task, with distinct ids, removes exactly
      that task and leaves the others in order. */
  lemma FinishRemovesExactlyOne(tasks: seq<Task>, id: int)
    requires UniqueIds(tasks) && FindIndex(tasks, id).Some?
    ensures var k := FindIndex(tasks, id).value;
      Finish(tasks, id, Finished) == tasks[..k] + tasks[k + 1..]
      && |Finish(tasks, id, Finished)| == |tasks| - 1
  {
    RemoveUniqueId(tasks, FindIndex(tasks, id).value);
  }

  // ---------------------------------------------------------------------
  // Pause accounting over a task's life
  // ---------------------------------------------------------------------

  /** A pause that was opened and later closed. */
  datatype Interval = Interval(pausedAt: int, resumedAt: int)

  function ClosedPauseTime(ps: seq<Interval>): int {
    if |ps| == 0 then 0 else ClosedPauseTime(ps[..|ps| - 1]) + (ps[|ps| - 1].resumedAt - ps[|ps| - 1].pausedAt)
  }

  /** The record after pausing and resuming at each interval's ends, in order. */
  function Replay(t: Task, ps: seq<Interval>): Task {
    if |ps| == 0 then t
    else
      var last := ps[|ps| - 1];
      ResumeTask(PauseTask(Replay(t, ps[..|ps| - 1]), last.pausedAt), last.resumedAt)
  }

  /** Replaying closed pauses on a task with no open pause leaves it running,
      with the paused total grown by exactly the closed pause lengths. */
  lemma {:induction false} ReplayAccounting(t: Task, ps: seq<Interval>)
    requires t.pauseStartTime.None?
    ensures Replay(t, ps).totalPausedTime == t.totalPausedTime + ClosedPauseTime(ps)
    ensures Replay(t, ps).pauseStartTime.None?
    ensures Replay(t, ps).status == if |ps| == 0 then t.status else EmAndamento
    ensures Replay(t, ps).startTime == t.startTime && Replay(t, ps).id == t.id
  {
    if |ps| > 0 {
      ReplayAccounting(t, ps[..|ps| - 1]);
    }
  }

  /** Pauses that close after they open, one after another on a clock that
      never runs backwards. */
  predicate MonotoneClock(ps: seq<Interval>) {
    && (forall i :: 0 <= i < |ps| ==> ps[i].pausedAt <= ps[i].resumedAt)
    && (forall i :: 0 <= i < |ps| - 1 ==> ps[i].resumedAt <= ps[i + 1].pausedAt)
  }

  /** On a monotone clock the paused total of a fresh task is the sum of its
      closed pause lengths and never decreases from one resume to the next. */
  lemma {:induction false} PausedTotalNeverDecreases(t: Task, ps: seq<Interval>, i: nat)
    requires t.pauseStartTime.None? && t.totalPausedTime == 0
    requires MonotoneClock(ps) && i <= |ps|
    ensures Replay(t, ps).totalPausedTime == ClosedPauseTime(ps)
    ensures 0 <= Replay(t, ps[..i]).totalPausedTime <= Replay(t, ps).totalPausedTime
    decreases |ps|
  {
    ReplayAccounting(t, ps);
    ReplayAccounting(t, ps[..i]);
    if i < |ps| {
      var init := ps[..|ps| - 1];
      assert init[..i] == ps[..i];
      assert MonotoneClock(init);
      PausedTotalNeverDecreases(t, init, i);
    } else {
      assert ps[..i] == ps;
    }
    ClosedPauseNonNegative(ps);
  }

  lemma {:induction false} ClosedPauseNonNegative(ps: seq<Interval>)
    requires forall i :: 0 <= i < |ps| ==> ps[i].pausedAt <= ps[i].resumedAt
    ensures ClosedPauseTime(ps) >= 0
  {
    if |ps| > 0 {
      ClosedPauseNonNegative(ps[..|ps| - 1]);
    }
  }

  // ---------------------------------------------------------------------
  // The elapsed time shown on a task card
  // ---------------------------------------------------------------------

  /** The timer tick as the source computes it: with a pause open it
      subtracts only the open pause and forgets the earlier ones. */
  function ElapsedAsWritten(startTime: int, totalPausedTime: int, pauseStartTime: Option<int>, now: int): (r: int)
    ensures pauseStartTime.Some? ==> r == pauseStartTime.value - startTime
    ensures pauseStartTime.None? ==> r == now - startTime - totalPausedTime
  {
    var elapsed := now - startTime;
    match pauseStartTime
    case Some(p) => elapsed - (now - p)
    case None => elapsed - totalPausedTime
  }

  /** The worked time up to `now`: wall time minus every pause, the closed
      ones and the open one. */
  function Elapsed(t: Task, now: int): (r: int)
    ensures t.pauseStartTime.None? ==> r == now - t.startTime - t.totalPausedTime
    ensures t.pauseStartTime.Some? ==> r == t.pauseStartTime.value - t.startTime - t.totalPausedTime
  {
    var openPause := match t.pauseStartTime case Some(p) => now - p case None => 0;
    now - t.startTime - t.totalPausedTime - openPause
  }

  /** Both formulas agree whenever no pause is open. */
  lemma ElapsedAgreesWhenRunning(t: Task, now: int)
    requires t.pauseStartTime.None?
    ensures Elapsed(t, now) == ElapsedAsWritten(t.startTime, t.totalPausedTime, t.pauseStartTime, now)
  {
  }

  /** A task restored while paused, after one closed pause of 10 seconds,
      shows 30 seconds as written where 20 seconds were worked. */
  lemma ElapsedAsWrittenCountsEarlierPauses()
    ensures var t := Task(1, "c", "x", "", 0, 10000, Some(30000), Pausado);
      ElapsedAsWritten(t.startTime, t.totalPausedTime, t.pauseStartTime, 40000) == 30000
      && Elapsed(t, 40000) == 20000
  {
  }

  /** After any number of closed pauses and one open pause, the corrected
      timer shows the time worked before the open pause and stays still
      while the pause lasts. */
  lemma {:induction false} ElapsedExcludesAllPauses(t: Task, ps: seq<Interval>, pausedAt: int, now: int, later: int)
    requires t.pauseStartTime.None? && t.totalPausedTime == 0
    ensures var u := PauseTask(Replay(t, ps), pausedAt);
      && Elapsed(u, now) == pausedAt - t.startTime - ClosedPauseTime(ps)
      && Elapsed(u, now) == Elapsed(u, later)
  {
    ReplayAccounting(t, ps);
  }

  /** While running, the timer equals wall time minus the closed pauses. */
  lemma {:induction false} ElapsedWhileRunning(t: Task, ps: seq<Interval>, now: int)
    requires t.pauseStartTime.None? && t.totalPausedTime == 0
    ensures Elapsed(Replay(t, ps), now) == now - t.startTime - ClosedPauseTime(ps)
  {
    ReplayAccounting(t, ps);
  }
}

=== FILE: text.dfy ===
/** Character and string primitives that the Python and JavaScript sources get
    from their standard libraries: digit tests, `str.strip`, `str.lower`,
    `str.zfill`, `padStart`, decimal rendering and parsing of integers, and the
    code-point order that `sorted` / `Array.prototype.sort` use on strings. */
module Text {

  // ---------------------------------------------------------------------
  // Characters
  // ---------------------------------------------------------------------

  predicate IsDigit(c: char) {
    '0' <= c <= '9'
  }

  predicate AllDigits(s: string) {
    forall i :: 0 <= i < |s| ==> IsDigit(s[i])
  }

  /** The characters Python's `str.isspace` accepts, which is what `str.strip()`
      and `str.split()` remove or split on. */
  predicate IsSpace(c: char) {
    || c == ' ' || c == '\t' || c == '\n' || c == '\r'
    || c == '\U{B}' || c == '\U{C}'
    || ('\U{1C}' <= c <= '\U{1F}')
    || c == '\U{85}' || c == '\U{A0}' || c == '\U{1680}'
    || ('\U{2000}' <= c <= '\U{200A}')
    || c == '\U{2028}' || c == '\U{2029}' || c == '\U{202F}' || c == '\U{205F}'
    || c == '\U{3000}'
  }

  function DigitValue(c: char): nat
    requires IsDigit(c)
  {
    c as int - '0' as int
  }

  function DigitChar(d: nat): (c: char)
    requires d < 10
    ensures IsDigit(c) && DigitValue(c) == d
  {
    ('0' as int + d) as char
  }

  // ---------------------------------------------------------------------
  // Digit extraction (`re.sub(r'\D', '', s)`)
  // ---------------------------------------------------------------------

  /** The digits of `s`, in order, every other character removed. */
  function DigitsOf(s: string): (r: string)
    ensures AllDigits(r)
    ensures |r| <= |s|
    ensures AllDigits(s) ==> r == s
  {
    if |s| == 0 then ""
    else if IsDigit(s[0]) then [s[0]] + DigitsOf(s[1..])
    else DigitsOf(s[1..])
  }

  /** Exactly the digit characters of `s` survive. */
  lemma {:induction false} DigitsOfMembers(s: string)
    ensures forall c :: c in DigitsOf(s) <==> c in s && IsDigit(c)
  {
    if |s| > 0 {
      DigitsOfMembers(s[1..]);
      assert s == [s[0]] + s[1..];
    }
  }

  // ---------------------------------------------------------------------
  // Stripping and lowering
  // ---------------------------------------------------------------------

  function TrimLeft(s: string): (r: string)
    ensures |r| <= |s| && r == s[|s| - |r|..]
    ensures |r| == 0 || !IsSpace(r[0])
    ensures forall i :: 0 <= i < |s| - |r| ==> IsSpace(s[i])
  {
    if |s| > 0 && IsSpace(s[0]) then TrimLeft(s[1..]) else s
  }

  function TrimRight(s: string): (r: string)
    ensures |r| <= |s| && r == s[..|r|]
    ensures |r| == 0 || !IsSpace(r[|r| - 1])
    ensures forall i :: |r| <= i < |s| ==> IsSpace(s[i])
  {
    if |s| > 0 && IsSpace(s[|s| - 1]) then TrimRight(s[..|s| - 1]) else s
  }

  /** Python's `str.strip()`: the text between the first and the last
      non-space character. */
  function Trim(s: string): (r: string)
    ensures |r| <= |s|
    ensures |r| == 0 || (!IsSpace(r[0]) && !IsSpace(r[|r| - 1]))
  {
    TrimRight(TrimLeft(s))
  }

  lemma TrimLeftNoSpace(s: string)
    requires |s| == 0 || !IsSpace(s[0])
    ensures TrimLeft(s) == s
  {
  }

  lemma TrimRightNoSpace(s: string)
    requires |s| == 0 || !IsSpace(s[|s| - 1])
    ensures TrimRight(s) == s
  {
  }

  /** A string that starts and ends with a non-space character is its own strip. */
  lemma TrimFixed(s: string)
    requires |s| == 0 || (!IsSpace(s[0]) && !IsSpace(s[|s| - 1]))
    ensures Trim(s) == s
  {
    TrimLeftNoSpace(s);
    TrimRightNoSpace(s);
  }

  /** Stripping twice is stripping once. */
  lemma TrimIdempotent(s: string)
    ensures Trim(Trim(s)) == Trim(s)
  {
    TrimFixed(Trim(s));
  }

  lemma DigitsNotSpace(s: string)
    requires AllDigits(s)
    ensures Trim(s) == s
  {
    if |s| > 0 {
      assert IsDigit(s[0]) && IsDigit(s[|s| - 1]);
    }
    TrimFixed(s);
  }

  function LowerChar(c: char): char {
    if 'A' <= c <= 'Z' then (c as int + 32) as char else c
  }

  /** `str.lower()` on the ASCII letters. */
  function Lower(s: string): (r: string)
    ensures |r| == |s|
    ensures forall i :: 0 <= i < |s| ==> r[i] == LowerChar(s[i])
  {
    if |s| == 0 then "" else [LowerChar(s[0])] + Lower(s[1..])
  }

  lemma LowerNoUpper(s: string)
    requires forall i :: 0 <= i < |s| ==> !('A' <= s[i] <= 'Z')
    ensures Lower(s) == s
  {
  }

  /** Lowering does not create or remove spaces, so it commutes with stripping. */
  lemma TrimLowerCommute(s: string)
    ensures Trim(Lower(s)) == Lower(Trim(s))
  {
    assert forall c :: IsSpace(LowerChar(c)) <==> IsSpace(c);
    TrimLeftLower(s);
    TrimRightLower(TrimLeft(s));
  }

  lemma TrimLeftLower(s: string)
    ensures TrimLeft(Lower(s)) == Lower(TrimLeft(s))
  {
    if |s| > 0 {
      assert Lower(s)[1..] == Lower(s[1..]);
      assert IsSpace(LowerChar(s[0])) <==> IsSpace(s[0]);
      TrimLeftLower(s[1..]);
    }
  }

  lemma TrimRightLower(s: string)
    ensures TrimRight(Lower(s)) == Lower(TrimRight(s))
  {
    if |s| > 0 {
      assert Lower(s)[..|s| - 1] == Lower(s[..|s| - 1]);
      assert IsSpace(LowerChar(s[|s| - 1])) <==> IsSpace(s[|s| - 1]);
      TrimRightLower(s[..|s| - 1]);
    }
  }

  // ---------------------------------------------------------------------
  // Padding
  // ---------------------------------------------------------------------

  function Zeros(n: nat): (r: string)
    ensures |r| == n && AllDigits(r)
    ensures forall i :: 0 <= i < n ==> r[i] == '0'
  {
    if n == 0 then "" else "0" + Zeros(n - 1)
  }

  /** Python's `str.zfill(width)`: zeros go on the left, after a leading sign. */
  function ZFill(s: string, width: nat): (r: string)
    ensures |r| == if |s| >= width then |s| else width
    ensures |s| >= width ==> r == s
    ensures |s| < width && (|s| == 0 || (s[0] != '-' && s[0] != '+')) ==> r == Zeros(width - |s|) + s
    ensures |s| < width && |s| > 0 && (s[0] == '-' || s[0] == '+') ==> r == [s[0]] + Zeros(width - |s|) + s[1..]
  {
    if |s| >= width then s
    else if |s| > 0 && (s[0] == '-' || s[0] == '+') then [s[0]] + Zeros(width - |s|) + s[1..]
    else Zeros(width - |s|) + s
  }

  /** JavaScript's `String.prototype.padStart(2, '0')`, which ignores signs. */
  function Pad2(s: string): (r: string)
    ensures |r| >= 2
    ensures |s| >= 2 ==> r == s
    ensures |s| < 2 ==> r == Zeros(2 - |s|) + s
  {
    if |s| >= 2 then s else Zeros(2 - |s|) + s
  }

  // ---------------------------------------------------------------------
  // Decimal rendering and parsing
  // ---------------------------------------------------------------------

  /** `String(n)` / `str(n)` for a natural number: no leading zero. */
  function NatToString(n: nat): (r: string)
    ensures |r| > 0 && AllDigits(r)
    ensures |r| > 1 ==> r[0] != '0'
    ensures n < 10 <==> |r| == 1
  {
    if n < 10 then [DigitChar(n)] else NatToString(n / 10) + [DigitChar(n % 10)]
  }

  /** The value of a string of decimal digits (`int(s)` on digits). */
  function ParseNat(s: string): nat
    requires AllDigits(s)
  {
    if |s| == 0 then 0 else ParseNat(s[..|s| - 1]) * 10 + DigitValue(s[|s| - 1])
  }

  lemma {:induction false} ParseNatToString(n: nat)
    ensures ParseNat(NatToString(n)) == n
  {
    if n >= 10 {
      var s := NatToString(n);
      assert s[..|s| - 1] == NatToString(n / 10);
      ParseNatToString(n / 10);
    }
  }

  lemma {:induction false} ParseNatZeros(k: nat)
    ensures ParseNat(Zeros(k)) == 0
  {
    if k > 0 {
      assert Zeros(k)[..k - 1] == Zeros(k - 1);
      ParseNatZeros(k - 1);
    }
  }

  /** Leading zeros do not change the value read back. */
  lemma {:induction false} ParseNatLeadingZeros(k: nat, s: string)
    requires AllDigits(s)
    ensures ParseNat(Zeros(k) + s) == ParseNat(s)
  {
    if |s| == 0 {
      assert Zeros(k) + s == Zeros(k);
      ParseNatZeros(k);
    } else {
      var t := Zeros(k) + s;
      assert t[..|t| - 1] == Zeros(k) + s[..|s| - 1];
      ParseNatLeadingZeros(k, s[..|s| - 1]);
    }
  }

  /** `String(i)` / `str(i)` for any integer. */
  function IntToString(i: int): (r: string)
    ensures |r| > 0
    ensures i < 0 <==> r[0] == '-'
    ensures i >= 0 ==> AllDigits(r)
    ensures i < 0 ==> AllDigits(r[1..]) && |r| >= 2
  {
    if i < 0 then "-" + NatToString(-i) else NatToString(i)
  }

  /** `int(s)` for an optionally signed string of digits. */
  function ParseInt(s: string): int
    requires |s| > 0 && (AllDigits(s) || (s[0] == '-' && AllDigits(s[1..])))
  {
    if s[0] == '-' then 0 - ParseNat(s[1..]) as int else ParseNat(s)
  }

  lemma ParseIntToString(i: int)
    ensures ParseInt(IntToString(i)) == i
  {
    if i < 0 {
      ParseNegative(-i);
    } else {
      ParseNatToString(i);
    }
  }

  lemma ParseNegative(n: nat)
    requires n > 0
    ensures ParseInt("-" + NatToString(n)) == -(n as int)
  {
    var s := "-" + NatToString(n);
    assert s[0] == '-' && s[1..] == NatToString(n);
    ParseNatToString(n);
  }

  // ---------------------------------------------------------------------
  // Code-point order on strings (Python `<` on str, JS default sort)
  // ---------------------------------------------------------------------

  /** Lexicographic order: the first differing character decides, and a proper
      prefix comes first. */
  predicate LexLt(a: string, b: string) {
    if |a| == 0 then |b| > 0
    else if |b| == 0 then false
    else if a[0] != b[0] then a[0] < b[0]
    else LexLt(a[1..], b[1..])
  }

  predicate LexLe(a: string, b: string) {
    a == b || LexLt(a, b)
  }

  lemma {:induction false} LexLtIrreflexive(a: string)
    ensures !LexLt(a, a)
  {
    if |a| > 0 {
      LexLtIrreflexive(a[1..]);
    }
  }

  lemma {:induction false} LexLtTransitive(a: string, b: string, c: string)
    requires LexLt(a, b) && LexLt(b, c)
    ensures LexLt(a, c)
  {
    if |a| > 0 && |b| > 0 && |c| > 0 && a[0] == b[0] && b[0] == c[0] {
      LexLtTransitive(a[1..], b[1..], c[1..]);
    }
  }

  lemma {:induction false} LexLtTotal(a: string, b: string)
    ensures a == b || LexLt(a, b) || LexLt(b, a)
  {
    if |a| > 0 && |b| > 0 && a[0] == b[0] {
      LexLtTotal(a[1..], b[1..]);
      if a[1..] == b[1..] {
        assert a == [a[0]] + a[1..] && b == [b[0]] + b[1..];
      }
    }
  }

  lemma LexLtAsymmetric(a: string, b: string)
    requires LexLt(a, b)
    ensures !LexLt(b, a) && a != b
  {
    if LexLt(b, a) {
      LexLtTransitive(a, b, a);
      LexLtIrreflexive(a);
    }
    if a == b {
      LexLtIrreflexive(a);
    }
  }

  lemma LexLeTransitive(a: string, b: string, c: string)
    requires LexLe(a, b) && LexLe(b, c)
    ensures LexLe(a, c)
  {
    if a != b && b != c {
      LexLtTransitive(a, b, c);
    }
  }

  // ---------------------------------------------------------------------
  // Sorting strings (`sorted(...)`, `Array.prototype.sort()`)
  // ---------------------------------------------------------------------

  /** Each element is at most the next one. */
  predicate Sorted(s: seq<string>) {
    forall i :: 0 <= i < |s| - 1 ==> LexLe(s[i], s[i + 1])
  }

  /** Each element is below the next one, so no element repeats. */
  predicate StrictlySorted(s: seq<string>) {
    forall i :: 0 <= i < |s| - 1 ==> LexLt(s[i], s[i + 1])
  }

  function Insert(x: string, s: seq<string>): (r: seq<string>)
    ensures multiset(r) == multiset(s) + multiset{x}
    ensures |r| == |s| + 1
    ensures r[0] == x || (|s| > 0 && r[0] == s[0])
  {
    if |s| == 0 then [x]
    else if LexLe(x, s[0]) then [x] + s
    else
      assert s == [s[0]] + s[1..];
      [s[0]] + Insert(x, s[1..])
  }

  lemma {:induction false} InsertSorted(x: string, s: seq<string>)
    requires Sorted(s)
    ensures Sorted(Insert(x, s))
  {
    if |s| > 0 && !LexLe(x, s[0]) {
      var rest := Insert(x, s[1..]);
      InsertSorted(x, s[1..]);
      if rest[0] == x {
        LexLtTotal(x, s[0]);
      }
      var r := [s[0]] + rest;
      forall i | 0 <= i < |r| - 1
        ensures LexLe(r[i], r[i + 1])
      {
        if i > 0 {
          assert r[i] == rest[i - 1] && r[i + 1] == rest[i];
        }
      }
    }
  }

  /** Insertion sort: a sorted permutation of the input. */
  function Sort(s: seq<string>): (r: seq<string>)
    ensures Sorted(r)
    ensures multiset(r) == multiset(s)
  {
    if |s| == 0 then []
    else
      assert s == [s[0]] + s[1..];
      InsertSorted(s[0], Sort(s[1..]));
      Insert(s[0], Sort(s[1..]))
  }

  /** Two positions holding the same value give that value a multiplicity of at least two. */
  lemma MultiplicityTwo<T>(s: seq<T>, i: nat, j: nat)
    requires i < j < |s| && s[i] == s[j]
    ensures multiset(s)[s[i]] >= 2
  {
    assert s == s[..j] + [s[j]] + s[j + 1..];
    assert s[i] in s[..j];
  }

  lemma {:induction false} DistinctMultiplicity<T>(s: seq<T>, x: T)
    requires forall i, j :: 0 <= i < j < |s| ==> s[i] != s[j]
    ensures multiset(s)[x] <= 1
  {
    if |s| > 0 {
      assert s == [s[0]] + s[1..];
      DistinctMultiplicity(s[1..], x);
      if x == s[0] {
        assert x !in s[1..];
      }
    }
  }

  /** Sorting a duplicate-free sequence gives a strictly increasing one. */
  lemma SortDistinctIsStrict(s: seq<string>)
    requires forall i, j :: 0 <= i < j < |s| ==> s[i] != s[j]
    ensures StrictlySorted(Sort(s))
  {
    var r := Sort(s);
    SortKeepsDistinct(s);
    forall i | 0 <= i < |r| - 1
      ensures LexLt(r[i], r[i + 1])
    {
      assert LexLe(r[i], r[i + 1]) && r[i] != r[i + 1];
    }
  }

  /** Sorting keeps a duplicate-free sequence duplicate-free. */
  lemma SortKeepsDistinct(s: seq<string>)
    requires forall i, j :: 0 <= i < j < |s| ==> s[i] != s[j]
    ensures forall i, j :: 0 <= i < j < |Sort(s)| ==> Sort(s)[i] != Sort(s)[j]
  {
    var r := Sort(s);
    forall i, j | 0 <= i < j < |r|
      ensures r[i] != r[j]
    {
      if r[i] == r[j] {
        MultiplicityTwo(r, i, j);
        DistinctMultiplicity(s, r[i]);
        assert false;
      }
    }
  }

  lemma {:induction false} DigitsOfAppend(a: string, b: string)
    ensures DigitsOf(a + b) == DigitsOf(a) + DigitsOf(b)
  {
    if |a| > 0 {
      assert (a + b)[0] == a[0] && (a + b)[1..] == a[1..] + b;
      DigitsOfAppend(a[1..], b);
    } else {
      assert a + b == b;
    }
  }

  lemma DigitsOfTrimLeft(s: string)
    ensures DigitsOf(TrimLeft(s)) == DigitsOf(s)
  {
    if |s| > 0 && IsSpace(s[0]) {
      DigitsOfTrimLeft(s[1..]);
    }
  }

  lemma {:induction false} DigitsOfTrimRight(s: string)
    ensures DigitsOf(TrimRight(s)) == DigitsOf(s)
  {
    if |s| > 0 && IsSpace(s[|s| - 1]) {
      var t := s[..|s| - 1];
      DigitsOfTrimRight(t);
      DigitsOfDropSpace(s);
    }
  }

  /** A trailing white-space character contributes no digit. */
  lemma DigitsOfDropSpace(s: string)
    requires |s| > 0 && IsSpace(s[|s| - 1])
    ensures DigitsOf(s[..|s| - 1]) == DigitsOf(s)
  {
    var t, c := s[..|s| - 1], s[|s| - 1];
    assert s == t + [c];
    DigitsOfAppend(t, [c]);
    DigitsOfSpace(c);
  }

  lemma DigitsOfSpace(c: char)
    requires IsSpace(c)
    ensures DigitsOf([c]) == ""
  {
    assert !IsDigit(c) && [c][1..] == "";
  }

  /** Stripping removes no digit. */
  lemma DigitsOfTrim(s: string)
    ensures DigitsOf(Trim(s)) == DigitsOf(s)
  {
    DigitsOfTrimLeft(s);
    DigitsOfTrimRight(TrimLeft(s));
  }
}

=== FILE: wrappers.dfy ===
/** Failure-compatible wrappers shared by every module of the model.
    `Option` stands for Python's `None` / JavaScript's `null` next to a value;
    `Result` carries either a computed value or the reason an operation stopped. */
module Wrappers {

  datatype Option<+T> = None | Some(value: T) {

    predicate IsFailure() {
      None?
    }

    function PropagateFailure<U>(): Option<U>
      requires None?
    {
      None
    }

    function Extract(): T
      requires Some?
    {
      value
    }

    /** The value, or `default` when there is none (`x || default`, `x or default`). */
    function GetOr(default: T): T {
      match this
      case Some(v) => v
      case None => default
    }
  }

  datatype Result<+R, +E> = Success(value: R) | Failure(error: E) {

    predicate IsFailure() {
      Failure?
    }

    function PropagateFailure<U>(): Result<U, E>
      requires Failure?
    {
      Failure(error)
    }

    function Extract(): R
      requires Success?
    {
      value
    }
  }
}
